=== FILE: README.md ===
# vtx terminal core, modelled in Dafny

This project models vtx, a Ruby terminal library whose input parser is written in Rust. The model covers five parts:

- **Native event parser.** The vte `Perform` callbacks in `ext/vtx_parser/src/lib.rs` turn tokens into `Key`, `Mouse`, `Paste` and `Focus` events. The model covers the paste buffer, SS3 keys, SGR mouse reports, kitty keys, CSI `~` keys, the `CSI n b` repeat, and the pending-escape/flush logic of `Vtx::NativeParser`, including the UTF-8 check that converting a chunk to a Rust `String` makes.
- **Output builders.** These are `Vtx::Sequences`, `Vtx::Adapters::AnsiSequences` (with `sanitize_osc`), `Vtx::Color`, `Vtx::Style` and `Vtx::Capabilities`.
- **`Vtx::Terminal` and its `State`.** The model covers:
  - the mode toggles and their state guards;
  - raw mode, which needs a terminal on input;
  - mouse capture;
  - the output buffer with `write`, `print`, `puts`, `flush` and `command`;
  - `sync` and `with_cursor`;
  - the size cache;
  - `reset` and `close`;
  - `read_event`, together with its pending-escape wait and its event queue.
- **`Vtx::Terminal::Scope`.** Builders record an inverse for each mode they turn on. `run` replays the inverses last first and then flushes, even when the block raises.
- **The line editor of `examples/repl.rb`.** This covers editing, kills, history, and the key dispatch of `read_line`.

The model is built from immutable values and pure functions:

- A terminal is a value. What it has emitted is `Terminal.Emitted`: every string written to the output so far, followed by the unflushed buffer.
- A Ruby block is a function `Terminal -> Completion`. A `Completion` carries the terminal and whether the block returned or raised.
- vte's tokeniser is not modelled. A chunk of input is given as its bytes together with the tokens vte produced for them.
- `read_event`'s waits are given as a sequence of `Input`s. Each input says whether the wait timed out and which chunk, if any, arrived.

Every encoder is paired with a reader or a reference definition, and lemmas connect the two:

- `CsiWire.ParseCsi` reads CSI strings;
- `Sequences.ReadOsc` reads OSC strings the way a terminal frames them;
- `Performer.EncodeModifiers` and `Performer.SgrMouseFlags` encode modifiers and mouse reports;
- `Performer.TildeNumber` is a reference numbering of the CSI `~` keys;
- `Terminal.Feed` is the reference fold over inputs for `read_event`;
- `Color.PaletteIndex` and `Color.TrueColor` read colour codes the way a terminal selects a colour;
- `Utf8.Valid` is well-formed UTF-8, which `Utf8.Encode` always produces;
- `Scope.Off` says that a recorded mode is off.

## Model

| member | source | states |
|---|---|---|
| Events.NewKey | lib/vtx/events.rb:4-7 | A key built from its code alone has no character and no modifier, as the keyword defaults give. |
| Events.Modifiers | lib/vtx/events.rb:9-17 | The list holds exactly the modifiers that are set, in ctrl, alt, shift order. It is empty exactly when `modified?` is false. |
| Performer.ParseModifiers | ext/vtx_parser/src/lib.rs:229-236 | Only the low three bits of the parameter minus one (saturating at 0) matter: they are shift, alt and ctrl. |
| Performer.ModifiersRoundTrip | ext/vtx_parser/src/lib.rs:229-236 | Any flag combination, encoded the xterm way as 1 + bits, is decoded back to itself. |
| Performer.ModifiersIgnoreHighBits | ext/vtx_parser/src/lib.rs:229-236 | Adding 8 to a parameter changes nothing. Parameters 0 and 1 mean no modifier. |
| Performer.KeyWithModifiers | ext/vtx_parser/src/lib.rs:238-245 | The key keeps its code and has no character. Its modifiers come from the second parameter, and there are none when the second parameter is absent. |
| Performer.HandleSgrMouse | ext/vtx_parser/src/lib.rs:266-311 | Column and row are the 1-based parameters minus one, saturating at 0. Bit 0x40 means scroll, with no button, and bit 0 chooses down. Any other report carries the button its low two bits name: 0 left, 1 middle, 2 right, 3 none. Bit 0x20 means drag or move. Press and drag exactly when the final byte is `M`. Shift, alt and ctrl are bits 0x04, 0x08 and 0x10. |
| Performer.ButtonBits | ext/vtx_parser/src/lib.rs:285-290 | Every button has a two-bit code that the decoder maps back to it. |
| Performer.SgrMouseRoundTrip | ext/vtx_parser/src/lib.rs:266-311 | A mouse event with coordinates below 0xFFFF, encoded as an SGR report (flags, col+1, row+1), is decoded back to the same event. The event must have no button when it is a scroll. |
| Performer.KittyKey | ext/vtx_parser/src/lib.rs:319-328 | No key exactly for surrogate code points. Character keys carry the code point as their character; named keys carry none. |
| Performer.KittyEvents | ext/vtx_parser/src/lib.rs:313-331 | One key unless the code is a surrogate. Its code and character are those of the kitty table, and its modifiers come from the second parameter (none when it is absent). |
| Performer.KittyRoundTrip | ext/vtx_parser/src/lib.rs:313-331 | A BMP character other than Tab, CR, ESC and DEL, sent with any modifiers, is read back as that character key. |
| Performer.TildeTableMatchesReference | ext/vtx_parser/src/lib.rs:440-460 | The `CSI n ~` table is exactly the inverse of the standard numbering, plus the aliases 7 for Home and 8 for End. |
| Performer.TildeF1ToF4Unmapped | ext/vtx_parser/src/lib.rs:440-460 | The numbers 11 to 14 name no key. |
| Performer.ExecuteKey | ext/vtx_parser/src/lib.rs:386-397 | A control byte yields a key exactly for 0x00-0x1A and 0x7F. NUL gives Ctrl+space; BS and DEL give Backspace; HT gives Tab; CR gives Enter; any other byte in 0x01-0x1A gives Ctrl plus the letter byte+0x60. |
| Performer.CtrlLetterRoundTrip | ext/vtx_parser/src/lib.rs:391-394 | Every Ctrl+letter except h, i and m is read back from its control byte. |
| Performer.SerializeCsi | ext/vtx_parser/src/lib.rs:333-352 | A CSI put back into the paste text starts with ESC [ and ends with its final character. |
| PerformerFacts.RunAppend | ext/vtx_parser/src/lib.rs:498-517 | The performer state carries across calls: feeding `a` and then `b` gives the same state and events as feeding `a + b`. |
| PerformerFacts.PasteAccumulates | ext/vtx_parser/src/lib.rs:356-384 | Inside a paste, printable characters and control bytes other than ESC are appended to the buffer verbatim and yield no event. |
| PerformerFacts.PasteRoundTrip | ext/vtx_parser/src/lib.rs:403-408 | `CSI 200 ~`, then a text holding no ESC, then `CSI 201 ~` yields one `Paste` of exactly that text and leaves the state unchanged. An ESC in the text starts an escape sequence instead (`EscInsidePasteEmitsKey`). |
| PerformerFacts.PasteEndWithoutPaste | ext/vtx_parser/src/lib.rs:403-408 | A paste end outside a paste is dropped. |
| PerformerFacts.PasteKeepsCsi | ext/vtx_parser/src/lib.rs:410-413 | Inside a paste, any other CSI is appended to the buffer as text. |
| PerformerFacts.PasteWithEmbeddedCsi | ext/vtx_parser/src/lib.rs:333-352 | A paste containing a CSI yields the text with that CSI re-serialised in place. |
| PerformerFacts.PasteWithArrowExample | ext/vtx_parser/src/lib.rs:333-352 | A paste of `hello`, an up arrow and `world` reads back as `hello\e[Aworld`. |
| PerformerFacts.EscInsidePasteEmitsKey | ext/vtx_parser/src/lib.rs:465-474 | `ESC x` inside a paste is not buffered: it emits Alt+x. |
| PerformerFacts.CursorKeyRoundTrip | ext/vtx_parser/src/lib.rs:420-425 | Each cursor key's final byte is read back as that key, with and without an encoded modifier parameter. |
| PerformerFacts.TildeKeyRoundTrip | ext/vtx_parser/src/lib.rs:440-460 | Each `~` key's number is read back as that key, with and without an encoded modifier parameter. |
| PerformerFacts.TildeOutsideTable | ext/vtx_parser/src/lib.rs:440-460 | 200 opens an empty paste buffer. A number outside the table yields nothing. |
| PerformerFacts.TabAndFocusFinals | ext/vtx_parser/src/lib.rs:426-428 | `CSI Z` is Shift+Tab; `CSI I` and `CSI O` are focus gained and lost. |
| PerformerFacts.UnknownCsiDropped | ext/vtx_parser/src/lib.rs:415-461 | An ignored CSI, one with more than two intermediates, or an unknown final yields no event and leaves the state unchanged. |
| PerformerFacts.SgrMouseDispatch | ext/vtx_parser/src/lib.rs:429 | `CSI < ... M` and `CSI < ... m` are mouse press and release reports. |
| PerformerFacts.PrintThenRepeat | ext/vtx_parser/src/lib.rs:431-439 | `CSI n b` after a printed character repeats it n more times. |
| PerformerFacts.Ss3Diversion | ext/vtx_parser/src/lib.rs:356-360 | After `ESC O`, the next printed character is taken as an SS3 key (its low byte) and is not printed. |
| PerformerFacts.Ss3FunctionKeys | ext/vtx_parser/src/lib.rs:248-264 | `ESC O P` to `ESC O S` are F1 to F4. |
| PerformerFacts.AltCharacter | ext/vtx_parser/src/lib.rs:465-474 | `ESC` followed by a printable byte with no intermediates is Alt plus that character. Anything else other than `O` yields nothing. |
| PerformerFacts.ControlBytes | ext/vtx_parser/src/lib.rs:378-398 | A control byte appends to an open paste and otherwise maps through the control-key table. |
| NativeParser.Parse | ext/vtx_parser/src/lib.rs:498-517 | Parsing a chunk runs the performer over its tokens. It is pending afterwards exactly when the chunk ended in ESC and produced no event, or when an SS3 is open. |
| NativeParser.Flush | ext/vtx_parser/src/lib.rs:523-543 | When pending, flushing yields one Escape key and clears both the pending flag and the SS3 state, keeping the paste buffer. It also resets vte, so the next chunk's tokens are those vte gives from its ground state. Otherwise it yields nothing and changes nothing. |
| NativeParser.FlushIdempotent | ext/vtx_parser/src/lib.rs:523-543 | A second flush yields nothing. |
| NativeParser.LoneEscape | ext/vtx_parser/src/lib.rs:509-513 | A lone ESC yields no event and leaves the parser pending, and the flush then gives Escape. |
| NativeParser.EmptyChunk | ext/vtx_parser/src/lib.rs:498-517 | An empty chunk changes only the pending flag, which becomes the SS3 state. |
| NativeParser.Ss3AcrossChunks | ext/vtx_parser/src/lib.rs:509-513 | `ESC O` in one chunk and `P` in the next yield F1. The parser is pending in between. |
| NativeParser.TwoChunks | ext/vtx_parser/src/lib.rs:498-517 | Parsing two chunks one after the other gives the same events and performer state as parsing them together. This holds when the tokens of the joined chunk are the tokens of the first chunk followed by those of the second. |
| NativeParser.ParseBytes | ext/vtx_parser/src/lib.rs:498 | A chunk is parsed exactly when its bytes are well-formed UTF-8. Otherwise the conversion to `String` raises `EncodingError` and the parser is left as it was. |
| NativeParser.TextAccepted | ext/vtx_parser/src/lib.rs:498 | The UTF-8 bytes of any text are parsed without raising. |
| NativeParser.CutCharRaises | ext/vtx_parser/src/lib.rs:498 | A read that stops inside a multi-byte character, after any text, raises, so the whole chunk is lost. |
| Utf8.EncodeCharLeads | ext/vtx_parser/src/lib.rs:498 | A character's encoding is read as one well-formed sequence of its own length, whatever follows it. |
| Utf8.ValidAfterText | ext/vtx_parser/src/lib.rs:498 | After encoded text, the bytes are well-formed exactly when what follows the text is. |
| Utf8.EncodeValid | ext/vtx_parser/src/lib.rs:498 | The encoding of any text is well-formed. |
| Utf8.CutCharInvalid | ext/vtx_parser/src/lib.rs:498 | Text followed by a proper prefix of a multi-byte character is not well-formed. |
| Utf8.LoneBytes | ext/vtx_parser/src/lib.rs:498 | A bare `0xE9` and a lone `0xC3` are rejected, while `é` (`C3 A9`) is accepted. |
| Sequences.StyleConstantsAreSgr | lib/vtx/sequences.rb:36-44 | The reset, bold, strikethrough and clear constants read as the CSIs `0m`, `1m`, `9m` and `2J`. |
| Sequences.MoveTo | lib/vtx/sequences.rb:48-50 | `move_to(row, col)` is read back as CUP with the 1-based row and column. |
| Sequences.MoveToColumn | lib/vtx/sequences.rb:76-78 | Read back as CHA with the 1-based column. |
| Sequences.MoveToRow | lib/vtx/sequences.rb:80-82 | Read back as VPA with the 1-based row. |
| Sequences.ScrollRegion | lib/vtx/sequences.rb:92-94 | Read back as DECSTBM with the 1-based top and bottom. |
| Sequences.ResetScrollRegionReads | lib/vtx/sequences.rb:96-98 | `reset_scroll_region` is DECSTBM with no parameters. |
| Sequences.CountFinal | lib/vtx/sequences.rb:52-118 | Every counted operation ends in a valid CSI final byte. |
| Sequences.Count | lib/vtx/sequences.rb:52-118 | Each counted movement, scroll, insert or delete is read back as its final byte with the count as its one parameter. |
| Sequences.CountOpsDistinct | lib/vtx/sequences.rb:52-118 | Different operations or counts never give the same string. |
| Sequences.DefaultCount | lib/vtx/sequences.rb:52-54 | The count defaults to 1. |
| Sequences.MoveToOrigin | lib/vtx/sequences.rb:48-50 | (0,0) is `\e[1;1H`. |
| Sequences.MoveToFiveTen | lib/vtx/sequences.rb:48-50 | (4,9) is `\e[5;10H`. |
| Sequences.OscText | lib/vtx/sequences.rb:120-126 | `title` (OSC 2) and `icon_name` (OSC 1): a body a terminal reads back whole exactly when the text holds no ESC or BEL. The text is not sanitised. |
| Sequences.HyperlinkStart | lib/vtx/sequences.rb:133-136 | An OSC 8 with the optional `id=`, read back whole exactly when id and URL hold no ESC or BEL. |
| Sequences.HyperlinkComposes | lib/vtx/sequences.rb:128-140 | `hyperlink` is the start, then the text, then the end. |
| Sequences.Notify | lib/vtx/sequences.rb:142-148 | An OSC 777 notification, with the body after a `;` only when one is given. Without a body it is read back whole exactly when the title holds no ESC or BEL. |
| Sequences.TargetCode | lib/vtx/sequences.rb:152-157 | `p` for primary only, `cp` for both, and `c` for the clipboard and any unknown target. |
| Sequences.CopyToClipboard | lib/vtx/sequences.rb:150-159 | An OSC 52 holding the target code and the encoded text, read back whole exactly when the encoding holds no ESC or BEL. |
| Sequences.Foreground | lib/vtx/sequences.rb:161-164 | Empty exactly when the colour parses to no codes. Otherwise an SGR with exactly the foreground codes. |
| Sequences.Background | lib/vtx/sequences.rb:166-169 | The same with the background codes. |
| Sequences.ColorExamples | lib/vtx/sequences.rb:161-164 | `:red` in the foreground is `\e[31m`. |
| Sequences.BackgroundExtended | lib/vtx/sequences.rb:166-169 | Any integer colour of 16 or more in the background is `\e[48;5;<n>m`, so 196 gives `\e[48;5;196m`. |
| AnsiSequences.SanitizeOsc | lib/vtx/adapters/ansi_sequences.rb:127-129 | The result holds no control character and no backslash, is no longer than the input, and leaves text that was already clean unchanged. |
| AnsiSequences.SanitizeIdempotent | lib/vtx/adapters/ansi_sequences.rb:127-129 | Sanitising twice is sanitising once. |
| AnsiSequences.SanitizeAppend | lib/vtx/adapters/ansi_sequences.rb:127-129 | Sanitising works character by character: it distributes over concatenation. |
| AnsiSequences.SanitizeKeeps | lib/vtx/adapters/ansi_sequences.rb:127-129 | An allowed character occurs in the output exactly when it occurs in the input. |
| AnsiSequences.SanitizedText | lib/vtx/adapters/ansi_sequences.rb:86-87 | The adapter's `title` and `icon_name`: the plain command of the sanitised text, which a terminal always reads back whole. |
| AnsiSequences.TitleInjection | lib/vtx/adapters/ansi_sequences.rb:86 | For `a ESC \ b`, the unsanitised title is cut short, while the adapter's is read as `ab`. |
| AnsiSequences.HyperlinkStart | lib/vtx/adapters/ansi_sequences.rb:106-109 | The plain start with sanitised id and URL, always read back whole. |
| AnsiSequences.Hyperlink | lib/vtx/adapters/ansi_sequences.rb:113-115 | Start, then the unsanitised text, then the end. |
| AnsiSequences.Notify | lib/vtx/adapters/ansi_sequences.rb:119-123 | The plain notification of the sanitised title and body, always read back whole. |
| AnsiSequences.TargetChar | lib/vtx/adapters/ansi_sequences.rb:90-95 | `p` for primary, `pc` for both, and `c` otherwise. |
| AnsiSequences.TargetLettersDiffer | lib/vtx/adapters/ansi_sequences.rb:90-95 | The adapter and `Sequences` disagree only on the letters for both. |
| AnsiSequences.CopyToClipboard | lib/vtx/adapters/ansi_sequences.rb:89-99 | An OSC 52 of the adapter's target letters and the encoded text. |
| AnsiSequences.RequestClipboard | lib/vtx/adapters/ansi_sequences.rb:101-104 | An OSC 52 query with `p` only for primary. |
| AnsiSequences.EnableMouseCapture | lib/vtx/adapters/ansi_sequences.rb:15-22 | The button and all modes use their own tracking mode. Normal and unknown modes use 1000. SGR 1006 is always added. |
| AnsiSequences.MouseEnableStrings | lib/vtx/adapters/ansi_sequences.rb:15-22 | Each enable string is a DECSET of its tracking mode followed by DECSET 1006. |
| AnsiSequences.MouseDisableString | lib/vtx/adapters/ansi_sequences.rb:24 | The disable string resets all of 1000, 1002, 1003 and 1006, whichever mode was on. |
| AnsiSequences.CursorSaveDiffers | lib/vtx/adapters/ansi_sequences.rb:42-43 | The adapter saves and restores with `ESC 7`/`ESC 8`, not the `CSI s`/`CSI u` of `Sequences`. |
| AnsiSequences.MoveTo | lib/vtx/adapters/ansi_sequences.rb:32 | Agrees with `Sequences.MoveTo` and reads back as CUP with 1-based coordinates. |
| AnsiSequences.MoveToColumn | lib/vtx/adapters/ansi_sequences.rb:39 | Agrees with `Sequences.MoveToColumn`, so it reads back as CHA (final `G`) with the 1-based column. |
| AnsiSequences.MoveToRow | lib/vtx/adapters/ansi_sequences.rb:40 | Agrees with `Sequences.MoveToRow`, so it reads back as VPA (final `d`) with the 1-based row. |
| AnsiSequences.SetScrollRegion | lib/vtx/adapters/ansi_sequences.rb:55 | Agrees with `Sequences.ScrollRegion`. |
| AnsiSequences.StyleSequence | lib/vtx/adapters/ansi_sequences.rb:65-84 | The adapter's `style` produces exactly `Style#to_s` of the same attributes. |
| AnsiSequences.AttrCodesUnrolled | lib/vtx/adapters/ansi_sequences.rb:69-76 | The adapter's eight `codes <<` lines give the same attribute codes as the style's table. |
| Color.Parse | lib/vtx/color.rb:32-48 | Anything but a Symbol, Integer, Array or String gives no codes. A symbol gives at most one code, in the basic or bright range. An array always gives the five-code truecolour form. A string gives codes exactly when it is a 6-digit hex colour, with an optional `#`, and then each component is below 256. |
| Color.PaletteRoundTrip | lib/vtx/color.rb:65-70 | Every palette index 0-255 is recovered from its codes. |
| Color.HexRoundTrip | lib/vtx/color.rb:78-86 | Any RGB written as six hex digits, with or without `#`, parses to `38;2;r;g;b` (or `48;2;...`). |
| Color.ArrayRoundTrip | lib/vtx/color.rb:72-76 | A terminal reads an RGB array's codes as the triple of its first three entries, with nil as 0. Later entries are ignored. |
| Color.ShortArray | lib/vtx/color.rb:72-76 | An array with fewer than three entries reads as if padded with nils, so missing entries are 0. |
| Color.SymbolPalette | lib/vtx/color.rb:52-63 | A terminal reads a basic colour name as palette entry 0-7 and a bright name as 8-15. `:default` (39 or 49) and unknown names select no entry. |
| Style.SgrCode | lib/vtx/style.rb:134-141 | Attribute codes are 1 to 9 and never 6. |
| Style.WithFlag | lib/vtx/style.rb:49-95 | A setter changes its own attribute and nothing else. |
| Style.WithForeground | lib/vtx/style.rb:37-41 | Only the foreground changes. |
| Style.WithBackground | lib/vtx/style.rb:43-47 | Only the background changes. |
| Style.SetterReadBack | lib/vtx/style.rb:49-95 | Reading any attribute after a setter gives the set value for that attribute and the old value for every other one. |
| Style.SetterOverwrites | lib/vtx/style.rb:49-95 | The last setter call wins. |
| Style.SettersCommute | lib/vtx/style.rb:49-95 | Setters of different attributes commute. |
| Style.SgrCodeInjective | lib/vtx/style.rb:134-141 | No two attributes share a code. |
| Style.CodesOfMembership | lib/vtx/style.rb:134-141 | A code is emitted exactly for the attributes that are on. |
| Style.CodesOfIncreasing | lib/vtx/style.rb:134-141 | The attribute codes come out in increasing order. |
| Style.CodesOfOnly | lib/vtx/style.rb:134-141 | Every emitted code belongs to an attribute that is on. |
| Style.AttrCodes | lib/vtx/style.rb:134-141 | The attribute codes are exactly those of the attributes that are on, strictly increasing, and at most 8. |
| Style.ToS | lib/vtx/style.rb:131-149 | Empty exactly when there are no codes. Otherwise one SGR whose parameters are the attribute codes, then the foreground, then the background. |
| Style.EmptyRendersNothing | lib/vtx/style.rb:151-154 | An `empty?` style renders as the empty string. |
| Style.NotEmptyButRendersNothing | lib/vtx/style.rb:143-146 | A style with an unknown colour symbol is not `empty?` yet renders nothing. |
| Style.SingleAttribute | lib/vtx/style.rb:131-149 | A single attribute renders as `\e[<code>m`. |
| Style.Wrap | lib/vtx/style.rb:127-129 | `wrap` is `to_s`, then the text, then the 4-character reset `\e[0m`. |
| Style.Merge | lib/vtx/style.rb:97-110 | Each attribute and colour is the option when one is given, and the style's own value otherwise. |
| Style.New | lib/vtx/style.rb:21-33 | Attributes are on exactly when given as true. Colours are those given, or nil. |
| Style.Dup | lib/vtx/style.rb:112-125 | The copy agrees with the original on every attribute and colour. |
| Style.Extensionality | lib/vtx/style.rb:21-33 | Styles that agree on every attribute and colour are equal. |
| Style.SendWithoutArgument | lib/vtx/style.rb:35-95 | Sending `foreground` or `background` with no argument raises, because those methods replace the readers and need a colour. Sending a flag name sets that flag and keeps everything else. |
| Style.EqualsAsWritten | lib/vtx/style.rb:156-161 | Comparing with anything that is not a style gives false. |
| Style.EqualsRaises | lib/vtx/style.rb:156-161 | As written, comparing a style with any style raises `ArgumentError`, so a style does not equal even itself. |
| Style.EqualsIsValueEquality | lib/vtx/style.rb:156-161 | The intended `==` (same colours, same attributes) holds exactly for the same value, is false for a non-style, and holds between a style and its `dup`. |
| Style.MergeNothingIsDup | lib/vtx/style.rb:97-125 | `dup` and `merge` with no options both return an equal style. |
| Style.MergeIdempotent | lib/vtx/style.rb:97-110 | Merging the same options twice is merging them once. |
| Style.Override | lib/vtx/style.rb:97-110 | Combining two option sets lets the second win key by key. |
| Style.MergeCompose | lib/vtx/style.rb:97-110 | Two merges in a row are one merge of the combined options. |
| Style.MergeKeepsUnnamed | lib/vtx/style.rb:97-110 | An attribute not named in the options keeps its value. |
| Capabilities.New | lib/vtx/capabilities.rb:20-24 | Succeeds exactly for the four known levels. Any other level raises "Invalid color level: ...". |
| Capabilities.PredicateHierarchy | lib/vtx/capabilities.rb:71-73 | Truecolour implies extended, which implies colour. Colour without extended is exactly basic. |
| Capabilities.DetectFromColorterm | lib/vtx/capabilities.rb:43-48 | Truecolour exactly when the value is `truecolor` or `24bit` in any case. |
| Capabilities.DetectFromProgram | lib/vtx/capabilities.rb:50-57 | Truecolour exactly for the four known programs, in any case. |
| Capabilities.DetectFromTerm | lib/vtx/capabilities.rb:59-68 | `truecolor` or `24bit` anywhere gives truecolour. Otherwise `256color` gives extended. Otherwise `color` or a known prefix gives basic; anything else gives nothing. |
| Capabilities.Detect | lib/vtx/capabilities.rb:29-39 | NO_COLOR gives none. Otherwise truecolour exactly when COLORTERM, TERM_PROGRAM or TERM (tested as a COLORTERM value) names it, and basic in every other case. |
| Capabilities.DetectNeverExtended | lib/vtx/capabilities.rb:29-39 | As written, detection never yields the extended level. |
| Capabilities.DetectIgnores256Color | lib/vtx/capabilities.rb:35-38 | For `TERM=xterm-256color`, detection as written gives basic; the intended detection gives extended. |
| Capabilities.DetectIntended | lib/vtx/capabilities.rb:59-68 | With TERM consulted through `detect_from_term`: NO_COLOR gives none; COLORTERM or the program gives truecolour; otherwise the TERM verdict applies, defaulting to basic. |
| Capabilities.DetectIntendedAgreesOnColorterm | lib/vtx/capabilities.rb:35-38 | When TERM itself reads as a truecolour COLORTERM value, both detections agree. |
| TermState.Set | lib/vtx/terminal/state.rb:17-24 | An accessor setter changes its own attribute only. |
| TermState.Extensionality | lib/vtx/terminal/state.rb:6-24 | States that agree on every attribute are equal. |
| TermState.SetLaws | lib/vtx/terminal/state.rb:17-24 | Writing back the current value changes nothing. The second of two writes wins. |
| TermState.InitialValues | lib/vtx/terminal/state.rb:6-15 | Initially only cursor-visible and echo are on, the mouse is off and the size is unknown. |
| Terminal.Append | lib/vtx/terminal.rb:370-374 | Buffering appends to what the terminal has emitted and leaves the state and the output unchanged. |
| Terminal.SetMode | lib/vtx/terminal.rb:73-159 | Afterwards the mode has the requested value. If it already had it, nothing happens. Otherwise exactly the mode's sequence is appended. |
| Terminal.SetModeIdempotent | lib/vtx/terminal.rb:73-159 | Enabling or disabling twice is doing it once. |
| Terminal.SetModeRoundTrip | lib/vtx/terminal.rb:73-159 | Enabling and then disabling an off mode restores the state and emits the on sequence, then the off sequence. |
| Terminal.SetRawMode | lib/vtx/terminal.rb:48-71 | Raw mode changes only when input is a terminal. Nothing is emitted. |
| Terminal.RawModeNeedsTty | lib/vtx/terminal.rb:48-71 | Without a terminal on input, enable and disable change nothing. |
| Terminal.EnableMouseCapture | lib/vtx/terminal.rb:161-177 | The requested mode is recorded. If it was already on, nothing happens. Otherwise exactly its enable sequence is appended, without first disabling a previous mode. |
| Terminal.DisableMouseCapture | lib/vtx/terminal.rb:179-195 | The mouse ends off. When it was on, the disable sequence of the mode that was on is appended. |
| Terminal.MouseRoundTrip | lib/vtx/terminal.rb:161-195 | Enabling and then disabling from off restores the state and emits that mode's enable, then its disable. |
| Terminal.MouseSwitchNoDisable | lib/vtx/terminal.rb:161-177 | Switching from button to all mode emits only the all-mode enable. |
| Terminal.Command | lib/vtx/terminal.rb:370-374 | A command appends its sequence to the emitted output and changes nothing else. |
| Terminal.Write | lib/vtx/terminal.rb:237-243 | The joined arguments are appended. The result is their UTF-8 byte count, which lies between one and four bytes per character. |
| Terminal.ResolveStyle | lib/vtx/terminal.rb:418-423 | A style with options is merged with them. A style alone is used unchanged. Options alone build a new style. |
| Terminal.Print | lib/vtx/terminal.rb:245-256 | Without styling, the joined text is appended. With styling, the resolved style's SGR, then the text, then the reset are appended. |
| Terminal.PutsLines | lib/vtx/terminal.rb:262-266 | The output for one or more arguments ends in a newline. |
| Terminal.PutsLinesAppend | lib/vtx/terminal.rb:262-266 | The output for `a + b` is the output for `a` followed by the output for `b`. |
| Terminal.Puts | lib/vtx/terminal.rb:258-271 | No arguments give a lone newline. Otherwise each argument becomes its own line, wrapped in the style and the reset when styled. |
| Terminal.PutsExamples | lib/vtx/terminal.rb:258-271 | `puts a` appends `a\n`; `puts a, b` appends `a\nb\n`. |
| Terminal.Flush | lib/vtx/terminal.rb:273-283 | What the terminal has emitted is unchanged and the buffer is empty. An empty buffer is not written; a non-empty one is written as one piece. |
| Terminal.FlushKeepsNoEmptyWrites | lib/vtx/terminal.rb:273-283 | The output never receives an empty write, and flushing twice is flushing once. |
| Terminal.Sync | lib/vtx/terminal.rb:285-293 | The block runs after the sync-enable sequence. The sync-disable sequence follows whatever the block emitted, even when it raised. The buffer ends flushed and the block's outcome is kept. |
| Terminal.SyncFrames | lib/vtx/terminal.rb:285-293 | A block that writes `out` is framed exactly by the enable and disable sequences. |
| Terminal.WithCursor | lib/vtx/terminal.rb:301-306 | The block runs after a cursor save and is followed by a cursor restore, even when it raises. Nothing is flushed. |
| Terminal.GetSize | lib/vtx/terminal.rb:308 | A cached size is returned unchanged; otherwise the queried size is cached and returned. |
| Terminal.RefreshSize | lib/vtx/terminal.rb:309 | The queried size replaces the cache. |
| Terminal.Resize | lib/vtx/terminal.rb:311-315 | `resize(cols, rows)` stores rows first, then cols. |
| Terminal.ResizeThenSize | lib/vtx/terminal.rb:308-315 | After a resize, `size` returns the stored pair without querying. |
| Terminal.ResetModes | lib/vtx/terminal.rb:350-356 | Every mode ends off and the cursor visible. Only the disable sequences of the modes that were on are emitted, in the order focus, paste, mouse, cursor, alternate screen. |
| Terminal.Reset | lib/vtx/terminal.rb:350-360 | Every mode ends off and the cursor visible. Raw mode ends off whenever input is a terminal. The buffer ends flushed. |
| Terminal.ResetOrder | lib/vtx/terminal.rb:350-360 | Disabling raw mode and flushing add nothing to the emitted output. |
| Terminal.ResetIdempotent | lib/vtx/terminal.rb:350-360 | Resetting twice is resetting once. |
| Terminal.ResetRestoresInitialModes | lib/vtx/terminal.rb:350-360 | On a terminal, reset returns every mode and the mouse to the initial state. |
| Terminal.EnqueueAndReturn | lib/vtx/terminal.rb:411-416 | No events give nil. Otherwise the first event is returned and the rest are queued behind what was queued already. |
| Terminal.Effective | lib/vtx/terminal.rb:376-394 | A wait that gives up is final only when no escape is pending; with one pending it becomes a timed-out wake that flushes. |
| Terminal.FeedPrefix | lib/vtx/terminal.rb:317-339 | Feeding a prefix is one step followed by feeding the rest. |
| Terminal.FeedAppend | lib/vtx/terminal.rb:317-339 | Feeding `a + b` is feeding `a` and then `b`. The events concatenate. |
| Terminal.ReadEvent | lib/vtx/terminal.rb:317-339 | A queued event is returned first without reading. Otherwise exactly the consumed inputs are fed to the parser. A nil result leaves the queue empty. Modes and buffer are unchanged. Running out of inputs gives a nil result; that is where the model stops, since the source keeps waiting without a timeout and ends in a `Stop` round with one. |
| Terminal.ReadEventKeepsEvents | lib/vtx/terminal.rb:317-339 | No event is lost or duplicated: the returned event plus the queue are, as a multiset, the old queue plus every event the consumed inputs produced. |
| Terminal.WakeKeepsEvents | lib/vtx/terminal.rb:382-394 | The same after a wake, whether it brings no data, data without events, or data with events. |
| Terminal.ReadEventInOrder | lib/vtx/terminal.rb:317-339 | Corrected `read_event`. The returned event plus the queue are exactly, in order, the old queue plus every event produced. |
| Terminal.InOrderAfterWake | lib/vtx/terminal.rb:382-394 | After a wake, the round's events (the flushed Escape first) join the queue in decoding order, and the result keeps that order with at least one input consumed. |
| Terminal.ReadEventAgreesWithoutFlush | lib/vtx/terminal.rb:317-339 | From any queue, over any inputs where no round both expires a pending-Escape wait and reads data, the as-written and corrected reads agree. So the as-written read then returns events in the order they were produced. |
| Terminal.ReadEventReorders | lib/vtx/terminal.rb:382-394 | After a pending ESC expires and `a` arrives in the same round, the as-written read returns `a` ahead of Escape. The corrected read returns Escape first. |
| Scope.New | lib/vtx/terminal/scope.rb:6-9 | A new scope has nothing to restore. |
| Scope.ApplyTurnsOff | lib/vtx/terminal/scope.rb:63 | Each recorded inverse turns its own mode off and keeps any other mode that was off, off. |
| Scope.RawMode | lib/vtx/terminal/scope.rb:11-16 | Enables raw mode and records exactly its inverse. |
| Scope.AlternateScreen | lib/vtx/terminal/scope.rb:18-23 | Enters the alternate screen and records leaving it. |
| Scope.MouseCapture | lib/vtx/terminal/scope.rb:25-30 | Enables mouse capture in the given mode and records disabling it. |
| Scope.BracketedPaste | lib/vtx/terminal/scope.rb:32-37 | Enables bracketed paste and records disabling it. |
| Scope.FocusEvents | lib/vtx/terminal/scope.rb:39-44 | Enables focus events and records disabling them. |
| Scope.HiddenCursor | lib/vtx/terminal/scope.rb:46-51 | Hides the cursor and records showing it. |
| Scope.ReplayReverse | lib/vtx/terminal/scope.rb:63 | Replaying the inverses keeps the input and the queue. |
| Scope.ReplayAppend | lib/vtx/terminal/scope.rb:63 | Replaying `a + b` replays `b`, last first, and then `a`. |
| Scope.ReplayTurnsAllOff | lib/vtx/terminal/scope.rb:63 | After the replay, every recorded mode is off. |
| Scope.ReplayKeepsOff | lib/vtx/terminal/scope.rb:63 | A mode that is off stays off through the replay. |
| Scope.Run | lib/vtx/terminal/scope.rb:60-65 | The block's outcome, a raise included, is `run`'s. Afterwards every recorded mode is off and the buffer is flushed. |
| Scope.AlreadyOnEndsOff | lib/vtx/terminal/scope.rb:18-23 | A mode that was on before the scope is still switched off by `run`. |
| Scope.AlternateScreenHiddenCursor | lib/vtx/terminal/scope.rb:60-65 | On a fresh terminal, the output is enter, hide, the block's output, show, leave, in that order, even when the block raises. |
| LineEditor.Start | examples/repl.rb:17-22 | A fresh line is empty and positioned past the newest history entry. |
| LineEditor.Insert | examples/repl.rb:71-75 | The character goes in at the cursor and the cursor moves past it. |
| LineEditor.Backspace | examples/repl.rb:77-83 | At column 0 nothing changes. Otherwise the character left of the cursor is removed and the cursor moves left. |
| LineEditor.Delete | examples/repl.rb:85-90 | At the end nothing changes. Otherwise the character under the cursor is removed. |
| LineEditor.MoveLeft | examples/repl.rb:92-97 | The cursor moves left, stopping at 0. The text is unchanged. |
| LineEditor.MoveRight | examples/repl.rb:99-104 | The cursor moves right, stopping at the end. The text is unchanged. |
| LineEditor.MoveHome | examples/repl.rb:106-109 | The cursor goes to 0. |
| LineEditor.MoveEnd | examples/repl.rb:111-114 | The cursor goes to the end. |
| LineEditor.KillLine | examples/repl.rb:116-122 | Everything before the cursor is removed and the cursor goes to 0. |
| LineEditor.KillToEnd | examples/repl.rb:124-129 | Everything from the cursor on is removed. |
| LineEditor.SpacesStart | examples/repl.rb:131-141 | The start of the run of spaces just before a position. |
| LineEditor.WordStart | examples/repl.rb:131-141 | The start of the run of non-spaces just before a position. |
| LineEditor.KillWord | examples/repl.rb:131-141 | Skipping the spaces and then the word left of the cursor, the killed text runs from that point to the cursor, and the cursor lands there. |
| LineEditor.KillWordOf | examples/repl.rb:131-141 | The same result stated as a function: the cut ends at the old cursor and never lies right of it. |
| LineEditor.HistoryPrev | examples/repl.rb:143-153 | At the oldest entry nothing changes. Otherwise the previous entry is loaded with the cursor at its end. The typed line is stashed when leaving the bottom. |
| LineEditor.HistoryNext | examples/repl.rb:155-168 | At the bottom nothing changes. Otherwise the next entry is loaded. Past the newest entry the stashed line comes back, or an empty one. |
| LineEditor.InsertBackspace | examples/repl.rb:71-83 | Backspace undoes an insert. |
| LineEditor.BackspaceIsLeftDelete | examples/repl.rb:77-97 | Right of column 0, backspace is move-left then delete. At column 0 of a non-empty line the two differ. |
| LineEditor.KillBothWays | examples/repl.rb:116-129 | Killing to the start and killing to the end commute. Together they leave an empty line with the cursor at 0. |
| LineEditor.HistoryPrevNext | examples/repl.rb:143-168 | Up then down from the bottom restores the typed line. |
| LineEditor.HandleEvent | examples/repl.rb:30-64 | A line is returned exactly on Enter, as the buffer's text. History grows by that text only when it is non-empty. Any other key leaves history alone. Ctrl-C, and only Ctrl-C, interrupts. Ctrl-D ends input exactly when the line is empty and otherwise does nothing. A plain character, with neither ctrl nor alt, is inserted at the cursor. |
| LineEditor.ReadLine | examples/repl.rb:27-65 | Over a sequence of events: a returned non-empty line is the one new history entry. An empty line, end of input, interrupt or running out of events leaves history unchanged. |
| LineEditor.TypeAndEnter | examples/repl.rb:30-36 | Typing `h`, `i` and Enter returns `hi` and records it. |

## Left out

- **vte tokeniser.** vte's tokeniser (the escape-sequence state machine) is a dependency. A chunk is given as its bytes plus the tokens vte produced. Three of vte's behaviours are assumed rather than modelled:
  - vte's output is streamed, so the tokens of two chunks fed in turn are those of the first followed by those of the second. `NativeParser.TwoChunks` rests on this.
  - `flush` resets vte, so a chunk fed after a flush is tokenised from vte's ground state. `Terminal.ReadEventReorders` rests on this.
  - `csi_dispatch` flattens subparameters into one list (`lib.rs:401`). The model's tokens carry that flat list.
- **Ruby bridge.** The magnus conversion of events to Ruby objects is a foreign call. The model uses plain datatypes.
- **Concurrency.** The terminal's mutex guards a single-threaded buffer, so it is not modelled.
- **Output device.** `query_size`, `IO#raw!`/`cooked!`, `wait_readable`, `read_nonblock`, `Time.now` and deadlines are I/O or clocks. Their results are parameters: the queried size, `inputTty`, and the `Input` sequence of wakes and timeouts.
- **`read_event` timing.** Whether a deadline has passed is folded into `Input.Stop` and `Wake(timedOut, ...)`. The `pending_timeout` value is not modelled.
- **Blocking reads.** `each_event` and the `read`/`getc`/`getbyte` delegators are an endless loop and plain I/O delegation.
- **Base64.** `Base64.strict_encode64` and `pack("m0")` are a function parameter `encode`.
- **Environment.** `ENV` lookups are the fields of `Capabilities.Env`.
- **`Scope#cursor_style`.** It calls `Terminal#cursor_style`, which the terminal does not define, so the call would raise `NoMethodError`. It is left out.
- **Hashing.** `Style#hash` maps `ATTRIBUTES` through `public_send`. It raises on `foreground` for the same reason `==` does (see Findings). It is not modelled further.
- **Line editor rendering.** `render` and the prompt in `examples/repl.rb` are output only. The editor's `@terminal.puts` on Enter is not modelled.
- **Adapters.** `Adapters::Base` and `Adapters::Ansi` are the pluggable output backends. Only the string builders of `AnsiSequences` are modelled.
- **Number widths.** Parameters are `u16` as in the Rust code. Mouse rows and columns are unbounded naturals.
- Terminal.PutsLines: its contract states only the trailing newline and the append law. The per-argument layout is stated by `Terminal.Puts` and `Terminal.PutsExamples`.
- Performer.SerializeCsi: its contract states the frame (`ESC [` ... final). The exact text of parameters and intermediates is stated through `PerformerFacts.PasteWithEmbeddedCsi` and `PerformerFacts.PasteWithArrowExample`.
- NativeParser.Parse: it takes the chunk's bytes as given. The raise on bytes that are not UTF-8 is modelled separately by `NativeParser.ParseBytes`.
- Terminal.ReadEvent: it assumes every chunk is well-formed UTF-8. On any other chunk the source's `@parser.feed` raises out of `read_event`, since only `IO::WaitReadable` and `EOFError` are rescued, and the bytes already read are lost. The model has no raise outcome for `read_event`.
- Terminal.ReadEventKeepsEvents: "no event is lost" holds only for well-formed UTF-8 chunks. A chunk that raises is consumed and its events are dropped (see `NativeParser.CutCharRaises`).
- Terminal.WakeKeepsEvents: the same assumption of well-formed UTF-8 chunks as `Terminal.ReadEventKeepsEvents`.
- Terminal.ReadEventInOrder: the same assumption of well-formed UTF-8 chunks.
- Terminal.EnableMouseCapture: `mode: nil` cannot be expressed, because `MouseMode` has no nil. With nil the source returns early when capture is off. Otherwise it writes the normal enable and records capture as off. Other unknown symbols are `OtherMode`.
- AnsiSequences.CopyToClipboard: the encoded text is not known to be free of ESC and BEL, so read-back is not stated for it. Base64 output never holds them.

### Where the code and its description differ

The model follows the code in each case below:

- `print` with a style appends `\e[0m` even when the style renders nothing.
- `print` and `puts` return nil; `write` returns the byte count.
- `Sequences` saves the cursor with `\e[s`/`\e[u`, while the adapter uses `\e7`/`\e8`.
- `resize(cols, rows)` stores `[rows, cols]`.
- `Scope` has only `run`; it has no `call`.
- `Style#wrap` applies the codes in the order attributes, then colours. For example, bold red is `\e[1;31m`.
- Inside a paste, CSI sequences are re-serialised, so the paste is not byte for byte. `ESC x` inside a paste is emitted as an Alt key rather than buffered.

## Findings

| source | as written | input that shows it | evidently intended | confidence | as-written member | corrected member |
|---|---|---|---|---|---|---|
| lib/vtx/capabilities.rb:35-38 | `detect` passes TERM to `detect_from_colorterm`, so `detect_from_term` is never used and the extended level is never detected | `TERM=xterm-256color`, nothing else set: the result is basic | TERM goes through `detect_from_term`, giving extended for `256color` names | high, not executed | Capabilities.Detect (with Capabilities.DetectIgnores256Color) | Capabilities.DetectIntended |
| lib/vtx/style.rb:156-161 | `==` sends each name in `ATTRIBUTES` with no argument. `foreground` and `background` are redefined as setters that take a required colour, so comparing two styles raises `ArgumentError`. `hash` raises the same way | `Style.new == Style.new` | Value equality on the colours and the eight attributes | high, not executed | Style.EqualsAsWritten (with Style.EqualsRaises) | Style.Equals (with Style.EqualsIsValueEquality) |
| lib/vtx/terminal.rb:317-339, 382-394, 411-416 | An expired pending ESC is flushed into the event queue. If input then arrives in the same round, `enqueue_and_return` returns its first event and queues the rest behind the Escape, so the later key overtakes the earlier Escape | A pending `ESC` times out and `a` is then readable: `read_event` returns `a`, and the next call returns Escape | Events come out in the order they were produced: Escape, then `a` | medium, not executed | Terminal.ReadEvent (with Terminal.ReadEventReorders) | Terminal.ReadEventInOrder |

=== FILE: ansi_sequences.dfy ===
/**
  `Vtx::Adapters::AnsiSequences`: the builders the ANSI adapter uses. Most
  agree with `Sequences`; they differ in that every user string placed in an
  OSC goes through `sanitize_osc`, in the cursor save/restore form, in the
  letters for "both" clipboard targets, and in the mouse strings.
 */
module AnsiSequences {
  import opened Wrappers
  import opened Text
  import CsiWire
  import Color
  import Style
  import Sequences
  import TermState

  // ---------------------------------------------------------------------
  // sanitize_osc

  /** The characters `sanitize_osc` deletes: 0x00 through 0x1F (BEL among them) and backslash. */
  predicate Banned(c: char) {
    (c as int) <= 0x1F || c == '\\'
  }

  predicate Clean(s: string) {
    forall i :: 0 <= i < |s| ==> !Banned(s[i])
  }

  /** `text.to_s.gsub(/[\x00-\x1f\x07\\]/, "")`: the text with every banned character removed. */
  function SanitizeOsc(text: string): (r: string)
    ensures Clean(r)
    ensures |r| <= |text|
    ensures Clean(text) ==> r == text
  {
    if |text| == 0 then ""
    else if Banned(text[0]) then SanitizeOsc(text[1..])
    else [text[0]] + SanitizeOsc(text[1..])
  }

  /** Sanitising twice is sanitising once. */
  lemma SanitizeIdempotent(text: string)
    ensures SanitizeOsc(SanitizeOsc(text)) == SanitizeOsc(text)
  {
  }

  /** Sanitising works character by character: it distributes over concatenation. */
  lemma {:induction false} SanitizeAppend(a: string, b: string)
    ensures SanitizeOsc(a + b) == SanitizeOsc(a) + SanitizeOsc(b)
    decreases |a|
  {
    if |a| == 0 {
      assert a + b == b;
    } else {
      assert (a + b)[0] == a[0];
      assert (a + b)[1..] == a[1..] + b;
      SanitizeAppend(a[1..], b);
    }
  }

  /** Every character kept is one of the input's, in order: the result is what remains after deleting the banned ones. */
  lemma {:induction false} SanitizeKeeps(text: string, c: char)
    requires !Banned(c)
    ensures c in SanitizeOsc(text) <==> c in text
    decreases |text|
  {
    if |text| > 0 {
      SanitizeKeeps(text[1..], c);
      assert text == [text[0]] + text[1..];
    }
  }

  /** A body built from a clean prefix and sanitised text holds no ESC or BEL, so the OSC is read whole. */
  lemma CleanFramed(prefix: string, text: string)
    requires Clean(prefix)
    ensures Sequences.ReadOsc(Sequences.Osc(prefix + SanitizeOsc(text))) == Some(prefix + SanitizeOsc(text))
  {
    var body := prefix + SanitizeOsc(text);
    assert Clean(body) by {
      forall i | 0 <= i < |body|
        ensures !Banned(body[i])
      {
        if i >= |prefix| {
          assert body[i] == SanitizeOsc(text)[i - |prefix|];
        }
      }
    }
    Sequences.ReadOscFramed(body);
  }

  // ---------------------------------------------------------------------
  // OSC builders

  /** The adapter's text commands: the plain builder given the sanitised text, which a terminal always reads back whole. */
  function SanitizedText(k: Sequences.TextKind, str: string): (r: string)
    ensures Sequences.ReadOsc(r) == Some(Sequences.TextPrefix(k) + SanitizeOsc(str))
    ensures r == Sequences.OscText(k, SanitizeOsc(str))
  {
    assert Clean(Sequences.TextPrefix(k));
    CleanFramed(Sequences.TextPrefix(k), str);
    Sequences.OscText(k, SanitizeOsc(str))
  }

  /** `title(str)`. */
  function Title(str: string): string {
    SanitizedText(Sequences.WindowTitle, str)
  }

  /** `icon_name(str)`. */
  function IconName(str: string): string {
    SanitizedText(Sequences.IconTitle, str)
  }

  /** Where the plain builder lets an embedded `ESC \` end the title early, the adapter's does not. */
  lemma TitleInjection()
    ensures var str := "a\U{1B}\\b";
      && Sequences.ReadOsc(Sequences.Title(str)) != Some("2;" + str)
      && Sequences.ReadOsc(Title(str)) == Some("2;ab")
  {
    var str := "a\U{1B}\\b";
    assert ("2;" + str)[3] == '\U{1B}';
    Sequences.ReadOscCutShort("2;" + str, 3);
    assert str[1..] == "\U{1B}\\b" && str[1..][1..] == "\\b" && str[1..][1..][1..] == "b";
    assert SanitizeOsc("b") == "b";
    assert SanitizeOsc("\\b") == "b";
    assert SanitizeOsc("\U{1B}\\b") == "b";
    assert SanitizeOsc(str) == "ab";
    assert "2;" + SanitizeOsc(str) == "2;ab";
  }

  lemma CleanConcat(a: string, b: string)
    requires Clean(a) && Clean(b)
    ensures Clean(a + b)
  {
    forall i | 0 <= i < |a + b| ensures !Banned((a + b)[i]) {
      if i >= |a| {
        assert (a + b)[i] == b[i - |a|];
      }
    }
  }

  /** `hyperlink_start(url, id:)`: OSC 8 with the sanitised id and URL; a terminal reads both back whole. */
  function HyperlinkStart(url: string, id: Option<string>): (r: string)
    ensures id.None? ==> r == Sequences.HyperlinkStart(SanitizeOsc(url), None)
    ensures id.Some? ==> r == Sequences.HyperlinkStart(SanitizeOsc(url), Some(SanitizeOsc(id.value)))
    ensures id.None? ==> Sequences.ReadOsc(r) == Some("8;;" + SanitizeOsc(url))
    ensures id.Some? ==> Sequences.ReadOsc(r) == Some("8;id=" + SanitizeOsc(id.value) + ";" + SanitizeOsc(url))
  {
    var sid := match id case None => None case Some(v) => Some(SanitizeOsc(v));
    HyperlinkReadsWhole(url, id);
    Sequences.HyperlinkStart(SanitizeOsc(url), sid)
  }

  lemma HyperlinkReadsWhole(url: string, id: Option<string>)
    ensures id.None? ==> Sequences.ReadOsc(Sequences.HyperlinkStart(SanitizeOsc(url), None)) == Some("8;;" + SanitizeOsc(url))
    ensures id.Some? ==> Sequences.ReadOsc(Sequences.HyperlinkStart(SanitizeOsc(url), Some(SanitizeOsc(id.value))))
                         == Some("8;id=" + SanitizeOsc(id.value) + ";" + SanitizeOsc(url))
  {
    match id
    case None => HyperlinkReadsNoId(SanitizeOsc(url));
    case Some(v) => HyperlinkReadsId(SanitizeOsc(url), SanitizeOsc(v));
  }

  lemma HyperlinkReadsNoId(u: string)
    requires Clean(u)
    ensures Sequences.ReadOsc(Sequences.HyperlinkStart(u, None)) == Some("8;;" + u)
  {
    CleanUnterminated(u);
    CleanUnterminated("");
    assert "8;" + Sequences.IdParam(None) + ";" + u == "8;;" + u;
  }

  lemma HyperlinkReadsId(u: string, s: string)
    requires Clean(u) && Clean(s)
    ensures Sequences.ReadOsc(Sequences.HyperlinkStart(u, Some(s))) == Some("8;id=" + s + ";" + u)
  {
    CleanUnterminated(u);
    CleanConcat("id=", s);
    CleanUnterminated("id=" + s);
    assert "8;" + Sequences.IdParam(Some(s)) + ";" + u == "8;id=" + s + ";" + u;
  }

  /** Sanitised text holds neither ESC nor BEL. */
  lemma CleanUnterminated(s: string)
    requires Clean(s)
    ensures Sequences.Unterminated(s)
  {
    forall i | 0 <= i < |s| ensures s[i] != Sequences.ESC && s[i] != Sequences.BEL {
      assert !Banned(s[i]);
    }
  }

  const HYPERLINK_END := "\U{1B}]8;;\U{1B}\\"

  /** `hyperlink(url, text, id:)`: the start, the text unsanitised, then the end. */
  function Hyperlink(url: string, text: string, id: Option<string>): (r: string)
    ensures r == Sequences.HyperlinkStart(SanitizeOsc(url), if id.Some? then Some(SanitizeOsc(id.value)) else None)
                 + text + Sequences.HYPERLINK_END
  {
    HyperlinkStart(url, id) + text + HYPERLINK_END
  }

  /** `notify(title, body:)`: OSC 777 with the sanitised title and, when given, the sanitised body. */
  function Notify(title: string, body: Option<string>): (r: string)
    ensures body.None? ==> r == Sequences.Notify(SanitizeOsc(title), None)
    ensures body.Some? ==> r == Sequences.Notify(SanitizeOsc(title), Some(SanitizeOsc(body.value)))
    ensures body.None? ==> Sequences.ReadOsc(r) == Some("777;notify;" + SanitizeOsc(title))
    ensures body.Some? ==> Sequences.ReadOsc(r) == Some("777;notify;" + SanitizeOsc(title) + ";" + SanitizeOsc(body.value))
  {
    if body.None? then
      CleanFramed("777;notify;", title);
      Sequences.Notify(SanitizeOsc(title), None)
    else
      NotifyBodyReads(title, body.value);
      Sequences.Notify(SanitizeOsc(title), Some(SanitizeOsc(body.value)))
  }

  lemma NotifyBodyReads(title: string, body: string)
    ensures var t := "777;notify;" + SanitizeOsc(title) + ";";
      Sequences.ReadOsc(Sequences.Osc(t + SanitizeOsc(body))) == Some(t + SanitizeOsc(body))
  {
    CleanConcat("777;notify;", SanitizeOsc(title));
    CleanConcat("777;notify;" + SanitizeOsc(title), ";");
    CleanFramed("777;notify;" + SanitizeOsc(title) + ";", body);
  }

  /** The clipboard letters here: both is `pc`. */
  function TargetChar(target: Sequences.ClipboardTarget): (code: string)
    ensures code == "p" <==> target == Sequences.Primary
    ensures code == "pc" <==> target == Sequences.Both
    ensures code == "c" <==> target.Clipboard? || target.OtherTarget?
  {
    match target
    case Clipboard => "c"
    case Primary => "p"
    case Both => "pc"
    case OtherTarget(_) => "c"
  }

  /** The two modules disagree only on the letters for "both". */
  lemma TargetLettersDiffer(target: Sequences.ClipboardTarget)
    ensures TargetChar(target) == Sequences.TargetCode(target) <==> target != Sequences.Both
  {
  }

  /** `copy_to_clipboard(text, target:)`; `encode` stands for `Base64.strict_encode64`. */
  function CopyToClipboard(text: string, target: Sequences.ClipboardTarget, encode: string -> string): (r: string)
    ensures r == Sequences.Osc("52;" + TargetChar(target) + ";" + encode(text))
  {
    "\U{1B}]52;" + TargetChar(target) + ";" + encode(text) + "\U{1B}\\"
  }

  /** `request_clipboard(target:)`: `p` only for the primary selection, `c` otherwise, then `?`. */
  function RequestClipboard(target: Sequences.ClipboardTarget): (r: string)
    ensures target == Sequences.Primary ==> r == Sequences.Osc("52;p;?")
    ensures target != Sequences.Primary ==> r == Sequences.Osc("52;c;?")
  {
    var c := if target == Sequences.Primary then "p" else "c";
    "\U{1B}]52;" + c + ";?\U{1B}\\"
  }

  // ---------------------------------------------------------------------
  // Modes and cursor

  /** `enable_mouse_capture(mode)`: the tracking mode's enable plus SGR (1006); an unknown mode is normal. */
  function EnableMouseCapture(mode: TermState.MouseMode): (r: string)
    ensures mode.Button? ==> r == Sequences.MOUSE_BUTTON_ENABLE
    ensures mode.All? ==> r == Sequences.MOUSE_ALL_ENABLE
    ensures mode.Normal? || mode.OtherMode? ==> r == Sequences.MOUSE_NORMAL_ENABLE
  {
    match mode
    case Normal => "\U{1B}[?1000h\U{1B}[?1006h"
    case Button => "\U{1B}[?1002h\U{1B}[?1006h"
    case All => "\U{1B}[?1003h\U{1B}[?1006h"
    case OtherMode(_) => "\U{1B}[?1000h\U{1B}[?1006h"
  }

  /** `disable_mouse_capture`: one string turning off every tracking mode and SGR reporting. */
  const DISABLE_MOUSE_CAPTURE := "\U{1B}[?1000l\U{1B}[?1002l\U{1B}[?1003l\U{1B}[?1006l"

  /** `CSI ? mode h`: set a DEC private mode. */
  function DecSet(mode: nat): string {
    "\U{1B}[?" + NatToString(mode) + "h"
  }

  /** `CSI ? mode l`: reset a DEC private mode. */
  function DecReset(mode: nat): string {
    "\U{1B}[?" + NatToString(mode) + "l"
  }

  lemma Digits100()
    ensures NatToString(100) == "100"
  {
    assert NatToString(1) == "1";
    assert NatToString(10) == "10";
  }

  /** Mode `100d` written as `CSI ? n h` and `CSI ? n l`. */
  lemma DecMode(d: nat, on: string, off: string)
    requires d < 10
    requires on == "\U{1B}[?100" + [DigitChar(d)] + "h" && off == "\U{1B}[?100" + [DigitChar(d)] + "l"
    ensures DecSet(1000 + d) == on && DecReset(1000 + d) == off
  {
    Digits100();
    assert NatToString(1000 + d) == "100" + [DigitChar(d)];
  }

  /** Each enable string sets one tracking mode (1000, 1002, 1003) then SGR reporting (1006). */
  lemma MouseEnableStrings()
    ensures EnableMouseCapture(TermState.Normal) == DecSet(1000) + DecSet(1006)
    ensures EnableMouseCapture(TermState.Button) == DecSet(1002) + DecSet(1006)
    ensures EnableMouseCapture(TermState.All) == DecSet(1003) + DecSet(1006)
  {
    DecMode(0, "\U{1B}[?1000h", "\U{1B}[?1000l");
    DecMode(2, "\U{1B}[?1002h", "\U{1B}[?1002l");
    DecMode(3, "\U{1B}[?1003h", "\U{1B}[?1003l");
    DecMode(6, "\U{1B}[?1006h", "\U{1B}[?1006l");
    EnableSplits(DecSet(1000), DecSet(1002), DecSet(1003), DecSet(1006));
  }

  lemma EnableSplits(a: string, b: string, c: string, d: string)
    requires a == "\U{1B}[?1000h" && b == "\U{1B}[?1002h" && c == "\U{1B}[?1003h" && d == "\U{1B}[?1006h"
    ensures EnableMouseCapture(TermState.Normal) == a + d
    ensures EnableMouseCapture(TermState.Button) == b + d
    ensures EnableMouseCapture(TermState.All) == c + d
  {
  }

  /** The disable string resets 1000, 1002, 1003 and 1006 whatever mode was on. */
  lemma MouseDisableString()
    ensures DISABLE_MOUSE_CAPTURE == DecReset(1000) + DecReset(1002) + DecReset(1003) + DecReset(1006)
  {
    DecMode(0, "\U{1B}[?1000h", "\U{1B}[?1000l");
    DecMode(2, "\U{1B}[?1002h", "\U{1B}[?1002l");
    DecMode(3, "\U{1B}[?1003h", "\U{1B}[?1003l");
    DecMode(6, "\U{1B}[?1006h", "\U{1B}[?1006l");
    DisableSplits(DecReset(1000), DecReset(1002), DecReset(1003), DecReset(1006));
  }

  lemma DisableSplits(a: string, b: string, c: string, d: string)
    requires a == "\U{1B}[?1000l" && b == "\U{1B}[?1002l" && c == "\U{1B}[?1003l" && d == "\U{1B}[?1006l"
    ensures DISABLE_MOUSE_CAPTURE == a + b + c + d
  {
  }

  /** `save_cursor` / `restore_cursor` here are the DEC forms, unlike `Sequences`. */
  const SAVE_CURSOR := "\U{1B}7"
  const RESTORE_CURSOR := "\U{1B}8"

  lemma CursorSaveDiffers()
    ensures SAVE_CURSOR != Sequences.CURSOR_SAVE && RESTORE_CURSOR != Sequences.CURSOR_RESTORE
  {
  }

  /** `move_to(row, col)`: the same 1-based conversion as `Sequences.move_to`. */
  function MoveTo(row: int, col: int): (r: string)
    ensures r == Sequences.MoveTo(row, col)
    ensures CsiWire.ParseCsi(r) == Some(CsiWire.Csi([row + 1, col + 1], 'H'))
  {
    "\U{1B}[" + IntToString(row + 1) + ";" + IntToString(col + 1) + "H"
  }

  /** `move_to_column(col)`. */
  function MoveToColumn(col: int): (r: string)
    ensures r == Sequences.MoveToColumn(col)
    ensures CsiWire.ParseCsi(r) == Some(CsiWire.Csi([col + 1], 'G'))
  {
    "\U{1B}[" + IntToString(col + 1) + "G"
  }

  /** `move_to_row(row)`. */
  function MoveToRow(row: int): (r: string)
    ensures r == Sequences.MoveToRow(row)
    ensures CsiWire.ParseCsi(r) == Some(CsiWire.Csi([row + 1], 'd'))
  {
    "\U{1B}[" + IntToString(row + 1) + "d"
  }

  /** `set_scroll_region(top, bottom)`. */
  function SetScrollRegion(top: int, bottom: int): (r: string)
    ensures r == Sequences.ScrollRegion(top, bottom)
  {
    "\U{1B}[" + IntToString(top + 1) + ";" + IntToString(bottom + 1) + "r"
  }

  // ---------------------------------------------------------------------
  // style

  /** `codes << 1 if bold` ... `codes << 9 if strikethrough`. */
  function AdapterAttrCodes(on: set<Style.Attr>): seq<int> {
    (if Style.Bold in on then [1] else []) + (
    (if Style.Dim in on then [2] else []) + (
    (if Style.Italic in on then [3] else []) + (
    (if Style.Underline in on then [4] else []) + (
    (if Style.Blink in on then [5] else []) + (
    (if Style.Reverse in on then [7] else []) + (
    (if Style.Hidden in on then [8] else []) + (
    (if Style.Strikethrough in on then [9] else []))))))))
  }

  /** `style(foreground:, background:, bold:, ...)`, written out as the adapter does it; it agrees with `Style#to_s`. */
  function StyleSequence(s: Style.Style): (r: string)
    ensures r == Style.ToS(s)
  {
    var codes := AdapterAttrCodes(s.on) + Style.ColorCodes(s.foreground, true) + Style.ColorCodes(s.background, false);
    AttrCodesUnrolled(s.on);
    assert codes == Style.Codes(s);
    if codes == [] then "" else "\U{1B}[" + JoinInts(codes, ";") + "m"
  }

  lemma CodesOfCons(on: set<Style.Attr>, a: Style.Attr, rest: seq<Style.Attr>)
    ensures Style.CodesOf(on, [a] + rest) == (if a in on then [Style.SgrCode(a) as int] else []) + Style.CodesOf(on, rest)
  {
    assert ([a] + rest)[1..] == rest;
  }

  /** The attribute codes of `Style` are the eight conditional appends, in order. */
  lemma AttrCodesUnrolled(on: set<Style.Attr>)
    ensures Style.CodesOf(on, Style.ALL_ATTRS) == AdapterAttrCodes(on)
  {
    var t8: seq<Style.Attr> := [Style.Strikethrough];
    var t7 := [Style.Hidden] + t8;
    var t6 := [Style.Reverse] + t7;
    var t5 := [Style.Blink] + t6;
    var t4 := [Style.Underline] + t5;
    var t3 := [Style.Italic] + t4;
    var t2 := [Style.Dim] + t3;
    var t1 := [Style.Bold] + t2;
    assert t1 == Style.ALL_ATTRS;
    CodesOfCons(on, Style.Strikethrough, []);
    assert t8 == [Style.Strikethrough] + [];
    assert Style.CodesOf(on, t8) == (if Style.Strikethrough in on then [9] else []);
    CodesOfCons(on, Style.Hidden, t8);
    CodesOfCons(on, Style.Reverse, t7);
    CodesOfCons(on, Style.Blink, t6);
    CodesOfCons(on, Style.Underline, t5);
    CodesOfCons(on, Style.Italic, t4);
    CodesOfCons(on, Style.Dim, t3);
    CodesOfCons(on, Style.Bold, t2);
  }
}

=== FILE: capabilities.dfy ===
/**
  `Vtx::Capabilities`: the colour level of the terminal, chosen manually or
  detected from the environment (`NO_COLOR`, `COLORTERM`, `TERM_PROGRAM`,
  `TERM`). The environment is a parameter: each variable is `nil` (`None`) or
  its value.
 */
module Capabilities {
  import opened Wrappers
  import opened Text

  /** The four entries of `COLORS`, ordered by how much colour they allow. */
  datatype ColorLevel = NoColors | Basic | Extended | TrueColor

  /** A level as `new` receives it: one of `COLORS`, or any other symbol. */
  datatype LevelArg = Level(level: ColorLevel) | OtherLevel(name: string)

  datatype Capabilities = Capabilities(colors: ColorLevel)

  /** `new(colors:)`: an `ArgumentError` message for a level outside `COLORS`. */
  function New(colors: LevelArg): (r: Result<Capabilities, string>)
    ensures r.Ok? <==> colors.Level?
    ensures r.Ok? ==> r.value.colors == colors.level
    ensures r.Err? ==> r.error == "Invalid color level: " + colors.name
  {
    match colors
    case Level(l) => Ok(Capabilities(l))
    case OtherLevel(name) => Err("Invalid color level: " + name)
  }

  /** `color?`. */
  predicate IsColor(c: Capabilities) {
    c.colors != NoColors
  }

  /** `true_color?`. */
  predicate IsTrueColor(c: Capabilities) {
    c.colors == TrueColor
  }

  /** `extended_color?`: extended or true colour. */
  predicate IsExtendedColor(c: Capabilities) {
    c.colors == Extended || IsTrueColor(c)
  }

  /** The three predicates are nested: true colour implies extended implies colour. */
  lemma PredicateHierarchy(c: Capabilities)
    ensures IsTrueColor(c) ==> IsExtendedColor(c)
    ensures IsExtendedColor(c) ==> IsColor(c)
    ensures !IsColor(c) <==> c.colors == NoColors
    ensures IsColor(c) && !IsExtendedColor(c) <==> c.colors == Basic
  {
  }

  // ---------------------------------------------------------------------
  // Detection helpers; each returns `None` where the Ruby returns nil

  predicate Blank(v: Option<string>) {
    v.None? || v.value == ""
  }

  /** `detect_from_colorterm`: "truecolor" or "24bit", any case. */
  function DetectFromColorterm(colorterm: Option<string>): (r: Option<Capabilities>)
    ensures r.Some? <==> !Blank(colorterm) && Downcase(colorterm.value) in {"truecolor", "24bit"}
    ensures r.Some? ==> r.value.colors == TrueColor
  {
    if Blank(colorterm) then None
    else if Downcase(colorterm.value) in {"truecolor", "24bit"} then Some(Capabilities(TrueColor))
    else None
  }

  const TRUE_COLOR_PROGRAMS: set<string> := {"iterm.app", "apple_terminal", "hyper", "vscode"}

  /** `detect_from_program`: the terminal programs known to support true colour. */
  function DetectFromProgram(program: Option<string>): (r: Option<Capabilities>)
    ensures r.Some? <==> !Blank(program) && Downcase(program.value) in TRUE_COLOR_PROGRAMS
    ensures r.Some? ==> r.value.colors == TrueColor
  {
    if Blank(program) then None
    else if Downcase(program.value) in TRUE_COLOR_PROGRAMS then Some(Capabilities(TrueColor))
    else None
  }

  /** `sub` occurs in `s` starting at index `i`. */
  predicate OccursAt(s: string, sub: string, i: nat) {
    i + |sub| <= |s| && s[i..i + |sub|] == sub
  }

  /** `String#include?`. */
  predicate Contains(s: string, sub: string) {
    exists i: nat :: i <= |s| && OccursAt(s, sub, i)
  }

  predicate StartsWith(s: string, prefix: string) {
    |prefix| <= |s| && s[..|prefix|] == prefix
  }

  predicate BasicTermName(t: string) {
    Contains(t, "color") || StartsWith(t, "xterm") || StartsWith(t, "screen")
    || StartsWith(t, "vt100") || StartsWith(t, "rxvt") || StartsWith(t, "linux")
  }

  /** `detect_from_term`: "truecolor"/"24bit", then "256color", then a colour-capable name. */
  function DetectFromTerm(term: Option<string>): (r: Option<Capabilities>)
    ensures Blank(term) ==> r.None?
    ensures !Blank(term) ==> var t := Downcase(term.value);
      && (r == Some(Capabilities(TrueColor)) <==> Contains(t, "truecolor") || Contains(t, "24bit"))
      && (r == Some(Capabilities(Extended)) <==> !Contains(t, "truecolor") && !Contains(t, "24bit") && Contains(t, "256color"))
      && (r.None? <==> !Contains(t, "truecolor") && !Contains(t, "24bit") && !Contains(t, "256color") && !BasicTermName(t))
    ensures r.Some? ==> r.value.colors != NoColors
  {
    if Blank(term) then None
    else
      var t := Downcase(term.value);
      if Contains(t, "truecolor") || Contains(t, "24bit") then Some(Capabilities(TrueColor))
      else if Contains(t, "256color") then Some(Capabilities(Extended))
      else if BasicTermName(t) then Some(Capabilities(Basic))
      else None
  }

  /** The environment `detect` reads. */
  datatype Env = Env(term: Option<string>, colorterm: Option<string>, termProgram: Option<string>, noColor: bool)

  /**
    `detect`, as written: the third step passes TERM to
    `detect_from_colorterm`, so `detect_from_term` is never reached.
   */
  function Detect(env: Env): (r: Capabilities)
    ensures env.noColor ==> r.colors == NoColors
    ensures !env.noColor ==> r.colors in {TrueColor, Basic}
    ensures !env.noColor ==> (r.colors == TrueColor <==>
      DetectFromColorterm(env.colorterm).Some? || DetectFromProgram(env.termProgram).Some?
      || DetectFromColorterm(env.term).Some?)
  {
    if env.noColor then Capabilities(NoColors)
    else
      DetectFromColorterm(env.colorterm).GetOr(
        DetectFromProgram(env.termProgram).GetOr(
          DetectFromColorterm(env.term).GetOr(Capabilities(Basic))))
  }

  /** `detect` as its design intends: TERM goes through `detect_from_term`. */
  function DetectIntended(env: Env): (r: Capabilities)
    ensures env.noColor ==> r.colors == NoColors
    ensures !env.noColor && (DetectFromColorterm(env.colorterm).Some? || DetectFromProgram(env.termProgram).Some?)
      ==> r.colors == TrueColor
    ensures !env.noColor && DetectFromColorterm(env.colorterm).None? && DetectFromProgram(env.termProgram).None?
      ==> r == DetectFromTerm(env.term).GetOr(Capabilities(Basic))
  {
    if env.noColor then Capabilities(NoColors)
    else
      DetectFromColorterm(env.colorterm).GetOr(
        DetectFromProgram(env.termProgram).GetOr(
          DetectFromTerm(env.term).GetOr(Capabilities(Basic))))
  }

  /** With `NO_COLOR` absent, `detect` never reports the extended (256-colour) level. */
  lemma DetectNeverExtended(env: Env)
    ensures Detect(env).colors != Extended
  {
  }

  /** The discrepancy: `TERM=xterm-256color` alone gives basic as written, extended as intended. */
  lemma DetectIgnores256Color()
    ensures var env := Env(Some("xterm-256color"), None, None, false);
      Detect(env).colors == Basic && DetectIntended(env).colors == Extended
  {
    var t := "xterm-256color";
    assert Downcase(t) == t;
    assert t[6..14] == "256color";
    assert OccursAt(t, "256color", 6);
    assert !Contains(t, "truecolor") by {
      forall i: nat | i <= |t|
        ensures !OccursAt(t, "truecolor", i)
      {
        if i + 9 <= |t| {
          assert t[i..i + 9][1] == t[i + 1];
          assert t[i..i + 9][2] == t[i + 2];
        }
      }
    }
    assert !Contains(t, "24bit") by {
      forall i: nat | i <= |t|
        ensures !OccursAt(t, "24bit", i)
      {
        if i + 5 <= |t| {
          assert t[i..i + 5][0] == t[i];
          assert t[i..i + 5][1] == t[i + 1];
        }
      }
    }
  }

  /** When TERM itself is "truecolor" or "24bit", the written and the intended `detect` agree. */
  lemma DetectIntendedAgreesOnColorterm(env: Env)
    requires !env.noColor && DetectFromColorterm(env.colorterm).None? && DetectFromProgram(env.termProgram).None?
    requires DetectFromColorterm(env.term).Some?
    ensures Detect(env) == DetectIntended(env)
  {
    var t := Downcase(env.term.value);
    if t == "truecolor" {
      assert OccursAt(t, "truecolor", 0);
    } else {
      assert OccursAt(t, "24bit", 0);
    }
  }
}

=== FILE: color.dfy ===
/**
  `Color.parse`: the SGR codes for a colour given as a symbol name, a palette
  index, an RGB array or a hex string, in the foreground (base 30, bright 90)
  or background (base 40, bright 100) register.
 */
module Color {
  import opened Wrappers

  /** The Ruby values `Color.parse` distinguishes. */
  datatype ColorValue =
    | Sym(name: string)               // a Symbol such as :red
    | Int(n: int)                     // an Integer palette index
    | Arr(elems: seq<Option<int>>)    // an Array [r, g, b]; nil or missing entries read as 0
    | Str(s: string)                  // a String, accepted only as a hex colour
    | OtherValue                      // nil or any other object

  const BASIC: map<string, nat> := map[
    "black" := 0, "red" := 1, "green" := 2, "yellow" := 3, "blue" := 4,
    "magenta" := 5, "cyan" := 6, "white" := 7, "default" := 9]

  const BRIGHT: map<string, nat> := map[
    "bright_black" := 0, "bright_red" := 1, "bright_green" := 2, "bright_yellow" := 3,
    "bright_blue" := 4, "bright_magenta" := 5, "bright_cyan" := 6, "bright_white" := 7,
    "gray" := 0, "grey" := 0]

  function Base(foreground: bool): nat {
    if foreground then 30 else 40
  }

  function HiBase(foreground: bool): nat {
    if foreground then 90 else 100
  }

  /** `parse_symbol`: BASIC is consulted first, then BRIGHT. */
  function ParseSymbol(name: string, base: nat, hiBase: nat): seq<int> {
    if name in BASIC then [base + BASIC[name]]
    else if name in BRIGHT then [hiBase + BRIGHT[name]]
    else []
  }

  /** `parse_integer`: 0-7 basic, 8-15 bright, anything else the 256-colour form. */
  function ParseInteger(c: int, base: nat, hiBase: nat): seq<int> {
    if c < 8 then [base + c]
    else if c < 16 then [hiBase + (c - 8)]
    else [base + 8, 5, c]
  }

  /** `r, g, b = color`: the i-th entry, nil (and a missing entry) as 0. */
  function Component(elems: seq<Option<int>>, i: nat): int {
    if i < |elems| then elems[i].GetOr(0) else 0
  }

  /** `parse_array`. */
  function ParseArray(elems: seq<Option<int>>, base: nat): seq<int> {
    [base + 8, 2, Component(elems, 0), Component(elems, 1), Component(elems, 2)]
  }

  predicate IsHexDigit(c: char) {
    '0' <= c <= '9' || 'a' <= c <= 'f' || 'A' <= c <= 'F'
  }

  function HexValue(c: char): (v: nat)
    requires IsHexDigit(c)
    ensures v < 16
  {
    if '0' <= c <= '9' then (c as int) - ('0' as int)
    else if 'a' <= c <= 'f' then (c as int) - ('a' as int) + 10
    else (c as int) - ('A' as int) + 10
  }

  predicate AllHex(s: string) {
    forall i :: 0 <= i < |s| ==> IsHexDigit(s[i])
  }

  /** The pattern `\A#?[0-9a-fA-F]{6}\z`. */
  predicate IsHexColor(s: string) {
    (|s| == 6 && AllHex(s)) || (|s| == 7 && s[0] == '#' && AllHex(s[1..]))
  }

  /** The six hex digits after `delete_prefix("#")`. */
  function HexDigits(s: string): (h: string)
    requires IsHexColor(s)
    ensures |h| == 6 && AllHex(h)
  {
    if |s| == 7 then s[1..] else s
  }

  /** `hex[i, 2].to_i(16)`. */
  function HexPair(h: string, i: nat): (v: nat)
    requires i + 2 <= |h| && AllHex(h)
    ensures v < 256
  {
    HexValue(h[i]) * 16 + HexValue(h[i + 1])
  }

  /** `parse_string`: `[base + 8, 2, r, g, b]` for a hex colour, nothing otherwise. */
  function ParseString(s: string, base: nat): seq<int> {
    if IsHexColor(s) then
      var h := HexDigits(s);
      [base + 8, 2, HexPair(h, 0), HexPair(h, 2), HexPair(h, 4)]
    else []
  }

  /** `Color.parse(color, foreground:)`; a value of no handled type gives `[]`. */
  function Parse(color: ColorValue, foreground: bool): (codes: seq<int>)
    ensures color.OtherValue? ==> codes == []
    ensures color.Sym? ==> |codes| <= 1
    ensures color.Sym? && |codes| == 1 ==>
              (Base(foreground) <= codes[0] <= Base(foreground) + 9 || HiBase(foreground) <= codes[0] <= HiBase(foreground) + 7)
    ensures color.Arr? ==> |codes| == 5 && codes[..2] == [Base(foreground) + 8, 2]
    ensures color.Str? ==> (codes != [] <==> IsHexColor(color.s))
    ensures color.Str? && codes != [] ==>
              (|codes| == 5 && codes[..2] == [Base(foreground) + 8, 2] && forall i :: 2 <= i < 5 ==> 0 <= codes[i] < 256)
  {
    var base := Base(foreground);
    var hiBase := HiBase(foreground);
    match color
    case Sym(name) => ParseSymbol(name, base, hiBase)
    case Int(n) => ParseInteger(n, base, hiBase)
    case Arr(elems) => ParseArray(elems, base)
    case Str(s) => ParseString(s, base)
    case OtherValue => []
  }

  // ---------------------------------------------------------------------
  // Reference readers for the codes Parse produces

  /** The palette index an SGR colour code list selects, read the way a terminal reads it. */
  function PaletteIndex(codes: seq<int>, foreground: bool): Option<int> {
    var base := Base(foreground);
    var hiBase := HiBase(foreground);
    if |codes| == 1 && base <= codes[0] < base + 8 then Some(codes[0] - base)
    else if |codes| == 1 && hiBase <= codes[0] < hiBase + 8 then Some(codes[0] - hiBase + 8)
    else if |codes| == 3 && codes[0] == base + 8 && codes[1] == 5 then Some(codes[2])
    else None
  }

  /** Every index of the 256-colour palette is encoded so that a terminal selects that index. */
  lemma PaletteRoundTrip(c: int, foreground: bool)
    requires 0 <= c < 256
    ensures PaletteIndex(Parse(Int(c), foreground), foreground) == Some(c)
  {
  }

  /** The RGB triple an SGR colour code list selects (`38;2;r;g;b` or `48;2;r;g;b`), read the way a terminal reads it. */
  function TrueColor(codes: seq<int>, foreground: bool): Option<(int, int, int)> {
    if |codes| == 5 && codes[0] == Base(foreground) + 8 && codes[1] == 2 then Some((codes[2], codes[3], codes[4]))
    else None
  }

  /** An RGB array selects the triple of its first three entries, nil read as 0; later entries are ignored. */
  lemma ArrayRoundTrip(r: Option<int>, g: Option<int>, b: Option<int>, rest: seq<Option<int>>, foreground: bool)
    ensures TrueColor(Parse(Arr([r, g, b] + rest), foreground), foreground) == Some((r.GetOr(0), g.GetOr(0), b.GetOr(0)))
  {
    var e := [r, g, b] + rest;
    assert e[0] == r && e[1] == g && e[2] == b;
  }

  /** An array with fewer than three entries reads as if padded with nils. */
  lemma ShortArray(elems: seq<Option<int>>, foreground: bool)
    requires |elems| < 3
    ensures var padded := elems + seq(3 - |elems|, _ => None);
      TrueColor(Parse(Arr(elems), foreground), foreground) == TrueColor(Parse(Arr(padded), foreground), foreground)
  {
    var padded := elems + seq(3 - |elems|, _ => None);
    assert forall i :: |elems| <= i < 3 ==> padded[i] == None;
    assert forall i :: 0 <= i < |elems| ==> padded[i] == elems[i];
  }

  /** Two lower-case hex digits for a byte value. */
  const HEX_DIGITS := "0123456789abcdef"

  function HexByte(v: nat): (h: string)
    requires v < 256
    ensures |h| == 2 && AllHex(h)
  {
    [HEX_DIGITS[v / 16], HEX_DIGITS[v % 16]]
  }

  lemma HexDigitValue(k: nat)
    requires k < 16
    ensures HexValue(HEX_DIGITS[k]) == k
  {
  }

  lemma HexByteValue(v: nat)
    requires v < 256
    ensures HexPair(HexByte(v), 0) == v
  {
    HexDigitValue(v / 16);
    HexDigitValue(v % 16);
    assert HexPair(HexByte(v), 0) == (v / 16) * 16 + v % 16;
  }

  /** `#rrggbb` (or `rrggbb`) written from three bytes parses back to those bytes. */
  lemma HexRoundTrip(r: nat, g: nat, b: nat, hash: bool, foreground: bool)
    requires r < 256 && g < 256 && b < 256
    ensures var h := HexByte(r) + HexByte(g) + HexByte(b);
      Parse(Str(if hash then "#" + h else h), foreground) == [Base(foreground) + 8, 2, r, g, b]
  {
    var h := HexByte(r) + HexByte(g) + HexByte(b);
    var s := if hash then "#" + h else h;
    assert AllHex(h);
    if hash {
      assert s[1..] == h;
    }
    assert HexDigits(s) == h;
    HexByteValue(r);
    HexByteValue(g);
    HexByteValue(b);
    assert h[0..2] == HexByte(r) && h[2..4] == HexByte(g) && h[4..6] == HexByte(b);
    assert HexPair(h, 0) == HexPair(HexByte(r), 0);
    assert HexPair(h, 2) == HexPair(HexByte(g), 0);
    assert HexPair(h, 4) == HexPair(HexByte(b), 0);
  }

  /**
    Read back by a terminal, a colour name selects its palette entry: a basic
    name other than `default` selects 0-7, a bright name 8-15; `default`
    (39 or 49) and unknown names select none.
   */
  lemma SymbolPalette(name: string, foreground: bool)
    ensures name in BASIC && name != "default" ==> PaletteIndex(Parse(Sym(name), foreground), foreground) == Some(BASIC[name])
    ensures name !in BASIC && name in BRIGHT ==> PaletteIndex(Parse(Sym(name), foreground), foreground) == Some(BRIGHT[name] + 8)
    ensures name == "default" || (name !in BASIC && name !in BRIGHT) ==> PaletteIndex(Parse(Sym(name), foreground), foreground).None?
  {
  }
}

=== FILE: csi_wire.dfy ===
/**
  The wire form of a control sequence, `ESC [ p1 ; p2 ; ... final`, with a
  reader for it. The encoders (`Style#to_s`, `Sequences`) build such strings;
  reading them back with `ParseCsi` is the independent check that each one
  carries exactly the parameters it was given.
 */
module CsiWire {
  import opened Wrappers
  import opened Text

  /** A control sequence introducer: its numeric parameters and final character. */
  datatype Csi = Csi(params: seq<int>, final: char)

  /** Final characters of a control sequence (ECMA-48 section 5.4): '@' through '~'. */
  predicate IsFinal(c: char) {
    '@' <= c <= '~'
  }

  /** `"\e[#{params.join(";")}#{final}"`. */
  function Render(c: Csi): (s: string)
    ensures |s| >= 3 && s[..2] == "\U{1B}[" && s[|s| - 1] == c.final
  {
    "\U{1B}[" + JoinInts(c.params, ";") + [c.final]
  }

  /** Position of the first `c` in `s`. */
  function IndexOf(s: string, c: char): (r: Option<nat>)
    ensures r.Some? ==> r.value < |s| && s[r.value] == c && c !in s[..r.value]
    ensures r.None? <==> c !in s
  {
    if |s| == 0 then None
    else if s[0] == c then Some(0)
    else match IndexOf(s[1..], c)
      case None => None
      case Some(i) =>
        assert s[..i + 1] == [s[0]] + s[1..][..i];
        Some(i + 1)
  }

  /** One decimal parameter, optionally negative. */
  function ParseField(f: string): (r: Option<int>)
    ensures r.Some? ==> |f| > 0
  {
    if |f| > 0 && AllDigits(f) then Some(ParseNat(f))
    else if |f| > 1 && f[0] == '-' && AllDigits(f[1..]) then Some(0 - ParseNat(f[1..]) as int)
    else None
  }

  /** A non-empty `;`-separated list of parameters; an empty field is rejected. */
  function ParseFields(body: string): (r: Option<seq<int>>)
    ensures r.Some? ==> |r.value| >= 1
    decreases |body|
  {
    match IndexOf(body, ';')
    case None => (match ParseField(body) case Some(v) => Some([v]) case None => None)
    case Some(i) =>
      match ParseField(body[..i])
      case None => None
      case Some(v) =>
        match ParseFields(body[i + 1..])
        case None => None
        case Some(vs) => Some([v] + vs)
  }

  /** Reads `ESC [ params final`; an empty parameter list is allowed. */
  function ParseCsi(s: string): (r: Option<Csi>)
    ensures r.Some? ==> |s| >= 3 && s[..2] == "\U{1B}[" && IsFinal(s[|s| - 1])
  {
    if |s| < 3 || s[..2] != "\U{1B}[" || !IsFinal(s[|s| - 1]) then None
    else
      var body := s[2..|s| - 1];
      if body == "" then Some(Csi([], s[|s| - 1]))
      else match ParseFields(body)
        case None => None
        case Some(ps) => Some(Csi(ps, s[|s| - 1]))
  }

  lemma IntToStringNoSeparator(i: int)
    ensures ';' !in IntToString(i)
  {
  }

  /** The rendering of any integer reads back as that integer. */
  lemma FieldRoundTrip(i: int)
    ensures ParseField(IntToString(i)) == Some(i)
  {
    var s := IntToString(i);
    if i >= 0 {
      ParseNatToString(i);
    } else {
      assert !IsDigit(s[0]);
      ParseNatToString(-i);
    }
  }

  lemma IndexOfAfter(a: string, b: string, c: char)
    requires c !in a
    ensures IndexOf(a + [c] + b, c) == Some(|a|)
  {
    var s := a + [c] + b;
    var r := IndexOf(s, c);
    assert s[|a|] == c;
    assert c in s;
    assert s[..|a|] == a;
  }

  /** A non-empty joined parameter list reads back field for field. */
  lemma {:induction false} JoinRoundTrip(xs: seq<int>)
    requires |xs| >= 1
    ensures ParseFields(JoinInts(xs, ";")) == Some(xs)
    decreases |xs|
  {
    var head := IntToString(xs[0]);
    IntToStringNoSeparator(xs[0]);
    FieldRoundTrip(xs[0]);
    if |xs| == 1 {
      assert IndexOf(head, ';') == None;
      assert xs == [xs[0]];
    } else {
      var rest := JoinInts(xs[1..], ";");
      assert JoinInts(xs, ";") == head + ";" + rest;
      ParseFieldsSplit(head, rest);
      JoinRoundTrip(xs[1..]);
      assert [xs[0]] + xs[1..] == xs;
    }
  }

  /** A field without `;`, a `;`, then the rest: the field, then the rest's fields. */
  lemma ParseFieldsSplit(head: string, rest: string)
    requires ';' !in head
    ensures ParseFields(head + ";" + rest)
            == match ParseField(head)
               case None => None
               case Some(v) => (match ParseFields(rest) case None => None case Some(vs) => Some([v] + vs))
  {
    var s := head + ";" + rest;
    assert s == head + [';'] + rest;
    IndexOfAfter(head, rest, ';');
    assert s[..|head|] == head;
    assert s[|head| + 1..] == rest;
  }

  /** Reading a rendered control sequence gives back its parameters and final. */
  lemma RenderRoundTrip(c: Csi)
    requires IsFinal(c.final)
    ensures ParseCsi(Render(c)) == Some(c)
  {
    var s := Render(c);
    var body := JoinInts(c.params, ";");
    assert s[2..|s| - 1] == body;
    if |c.params| >= 1 {
      JoinRoundTrip(c.params);
    }
  }
}

=== FILE: events.dfy ===
/**
  The input-event value types: `Key`, `Mouse`, `Paste`, `Focus`, `Resize`.
  Ruby's `Data.define` gives structural equality, which is Dafny's datatype
  equality here.
 */
module Events {
  import opened Wrappers

  datatype KeyCode =
    | Char | Enter | Escape | Tab | Backspace | Delete
    | Up | Down | Left | Right | Home | End | PageUp | PageDown | Insert
    | F(n: nat)

  datatype MouseKind = Press | Release | Drag | Move | ScrollUp | ScrollDown

  datatype MouseButton = LeftButton | MiddleButton | RightButton | NoButton

  /** The symbols `modifiers` returns. */
  datatype Modifier = Ctrl | Alt | Shift

  datatype Event =
    | Key(code: KeyCode, ch: Option<char>, ctrl: bool, alt: bool, shift: bool)
    | Mouse(kind: MouseKind, button: MouseButton, row: nat, col: nat, ctrl: bool, alt: bool, shift: bool)
    | Paste(content: string)
    | Focus(focused: bool)
    | Resize(rows: int, cols: int)

  /** `Key.new(code:)` with its keyword defaults: no char, no modifier. */
  function NewKey(code: KeyCode): (k: Event)
    ensures k.Key? && k.code == code
    ensures k.ch == None && !k.ctrl && !k.alt && !k.shift
  {
    Key(code, None, false, false, false)
  }

  /** Position of a modifier in the fixed order ctrl, alt, shift. */
  function Rank(m: Modifier): nat {
    match m
    case Ctrl => 0
    case Alt => 1
    case Shift => 2
  }

  /** Whether the event carries modifier `m`. */
  predicate HasModifier(e: Event, m: Modifier)
    requires e.Key? || e.Mouse?
  {
    match m
    case Ctrl => e.ctrl
    case Alt => e.alt
    case Shift => e.shift
  }

  /** `Key#modified?` and `Mouse#modified?`. */
  predicate Modified(e: Event)
    requires e.Key? || e.Mouse?
  {
    e.ctrl || e.alt || e.shift
  }

  /** `Key#modifiers` and `Mouse#modifiers`. */
  function Modifiers(e: Event): (mods: seq<Modifier>)
    requires e.Key? || e.Mouse?
    ensures forall m :: m in mods <==> HasModifier(e, m)
    ensures forall i, j :: 0 <= i < j < |mods| ==> Rank(mods[i]) < Rank(mods[j])
    ensures |mods| == 0 <==> !Modified(e)
  {
    (if e.ctrl then [Ctrl] else []) + (if e.alt then [Alt] else []) + (if e.shift then [Shift] else [])
  }

  /** `Focus#focused?`. */
  predicate IsFocused(e: Event)
    requires e.Focus?
  {
    e.focused
  }
}

=== FILE: line_editor.dfy ===
/**
  The `LineEditor` of the REPL example: a line buffer with a cursor, edited
  by key events, and a history walked with Up and Down. Rendering is left
  out; every operation is a function from editor to editor.
 */
module LineEditor {
  import opened Wrappers
  import opened Events

  datatype Editor = Editor(
    buffer: string,
    cursor: nat,
    history: seq<string>,
    index: nat,              // `@history_index`
    stash: Option<string>)   // `@stashed_buffer`

  /** The cursor stays within the buffer, the history index within the history (one past the newest is the live line). */
  predicate Valid(e: Editor) {
    e.cursor <= |e.buffer| && e.index <= |e.history|
  }

  /** The editor `read_line` starts with. */
  function Start(history: seq<string>): (e: Editor)
    ensures Valid(e) && e.buffer == "" && e.index == |history|
  {
    Editor("", 0, history, |history|, None)
  }

  /** `insert(char)`: the character goes in at the cursor, which moves past it. */
  function Insert(e: Editor, c: char): (r: Editor)
    requires Valid(e)
    ensures Valid(r)
    ensures r.buffer == e.buffer[..e.cursor] + [c] + e.buffer[e.cursor..]
    ensures r.cursor == e.cursor + 1 && r.buffer[e.cursor] == c
    ensures r.history == e.history && r.index == e.index && r.stash == e.stash
  {
    e.(buffer := e.buffer[..e.cursor] + [c] + e.buffer[e.cursor..], cursor := e.cursor + 1)
  }

  /** `backspace`: nothing at the start; otherwise the character before the cursor goes, and the cursor with it. */
  function Backspace(e: Editor): (r: Editor)
    requires Valid(e)
    ensures Valid(r)
    ensures e.cursor == 0 ==> r == e
    ensures e.cursor > 0 ==> (r.cursor == e.cursor - 1
      && r.buffer == e.buffer[..e.cursor - 1] + e.buffer[e.cursor..]
      && |r.buffer| == |e.buffer| - 1)
    ensures r.history == e.history && r.index == e.index && r.stash == e.stash
  {
    if e.cursor == 0 then e
    else e.(cursor := e.cursor - 1, buffer := e.buffer[..e.cursor - 1] + e.buffer[e.cursor..])
  }

  /** `delete`: nothing at the end; otherwise the character at the cursor goes and the cursor stays. */
  function Delete(e: Editor): (r: Editor)
    requires Valid(e)
    ensures Valid(r)
    ensures e.cursor >= |e.buffer| ==> r == e
    ensures e.cursor < |e.buffer| ==> (r.cursor == e.cursor
      && r.buffer == e.buffer[..e.cursor] + e.buffer[e.cursor + 1..])
    ensures r.history == e.history && r.index == e.index && r.stash == e.stash
  {
    if e.cursor >= |e.buffer| then e
    else e.(buffer := e.buffer[..e.cursor] + e.buffer[e.cursor + 1..])
  }

  /** `move_left`. */
  function MoveLeft(e: Editor): (r: Editor)
    requires Valid(e)
    ensures Valid(r) && r.buffer == e.buffer
    ensures r.cursor == if e.cursor == 0 then 0 else e.cursor - 1
  {
    if e.cursor == 0 then e else e.(cursor := e.cursor - 1)
  }

  /** `move_right`. */
  function MoveRight(e: Editor): (r: Editor)
    requires Valid(e)
    ensures Valid(r) && r.buffer == e.buffer
    ensures r.cursor == if e.cursor >= |e.buffer| then e.cursor else e.cursor + 1
  {
    if e.cursor >= |e.buffer| then e else e.(cursor := e.cursor + 1)
  }

  /** `move_home`. */
  function MoveHome(e: Editor): (r: Editor)
    requires Valid(e)
    ensures Valid(r) && r.buffer == e.buffer && r.cursor == 0
  {
    e.(cursor := 0)
  }

  /** `move_end`. */
  function MoveEnd(e: Editor): (r: Editor)
    requires Valid(e)
    ensures Valid(r) && r.buffer == e.buffer && r.cursor == |e.buffer|
  {
    e.(cursor := |e.buffer|)
  }

  /** `kill_line`: the text before the cursor goes; the cursor moves to the start. */
  function KillLine(e: Editor): (r: Editor)
    requires Valid(e)
    ensures Valid(r)
    ensures r.buffer == e.buffer[e.cursor..] && r.cursor == 0
    ensures r.history == e.history && r.index == e.index && r.stash == e.stash
  {
    if e.cursor == 0 then e
    else e.(buffer := e.buffer[e.cursor..], cursor := 0)
  }

  /** `kill_to_end`: the text from the cursor on goes; the cursor stays. */
  function KillToEnd(e: Editor): (r: Editor)
    requires Valid(e)
    ensures Valid(r)
    ensures r.buffer == e.buffer[..e.cursor] && r.cursor == e.cursor
    ensures r.history == e.history && r.index == e.index && r.stash == e.stash
  {
    if e.cursor >= |e.buffer| then e
    else e.(buffer := e.buffer[..e.cursor])
  }

  /** The start of the run of spaces that ends at `i`. */
  function SpacesStart(s: string, i: nat): (j: nat)
    requires i <= |s|
    ensures j <= i
    ensures forall k :: j <= k < i ==> s[k] == ' '
    ensures j == 0 || s[j - 1] != ' '
  {
    if i > 0 && s[i - 1] == ' ' then SpacesStart(s, i - 1) else i
  }

  /** The start of the run of non-spaces that ends at `i`. */
  function WordStart(s: string, i: nat): (j: nat)
    requires i <= |s|
    ensures j <= i
    ensures forall k :: j <= k < i ==> s[k] != ' '
    ensures j == 0 || s[j - 1] == ' '
  {
    if i > 0 && s[i - 1] != ' ' then WordStart(s, i - 1) else i
  }

  /**
    `kill_word`: the spaces just before the cursor go, then the word before
    them; the cursor moves to where the word began and the text after it is kept.
   */
  method KillWord(e: Editor) returns (r: Editor)
    requires Valid(e)
    ensures Valid(r)
    ensures r.cursor == WordStart(e.buffer, SpacesStart(e.buffer, e.cursor))
    ensures r.buffer == e.buffer[..r.cursor] + e.buffer[e.cursor..]
    ensures r.history == e.history && r.index == e.index && r.stash == e.stash
    ensures r == KillWordOf(e)
  {
    if e.cursor == 0 {
      return e;
    }
    var pos: nat := e.cursor;
    while pos > 0 && e.buffer[pos - 1] == ' '
      invariant pos <= e.cursor
      invariant SpacesStart(e.buffer, pos) == SpacesStart(e.buffer, e.cursor)
    {
      pos := pos - 1;
    }
    ghost var spaces := pos;
    while pos > 0 && e.buffer[pos - 1] != ' '
      invariant pos <= spaces
      invariant WordStart(e.buffer, pos) == WordStart(e.buffer, spaces)
    {
      pos := pos - 1;
    }
    r := e.(buffer := e.buffer[..pos] + e.buffer[e.cursor..], cursor := pos);
  }

  /** `history_prev`: one entry back, stashing the live line on the first step; the cursor goes to the end. */
  function HistoryPrev(e: Editor): (r: Editor)
    requires Valid(e)
    ensures Valid(r)
    ensures e.index == 0 ==> r == e
    ensures e.index > 0 ==> r.index == e.index - 1 && r.buffer == e.history[e.index - 1] && r.cursor == |r.buffer|
    ensures e.index > 0 && e.index == |e.history| ==> r.stash == Some(e.buffer)
    ensures e.index < |e.history| ==> r.stash == e.stash
    ensures r.history == e.history
  {
    if |e.history| == 0 then e
    else if e.index == 0 then e
    else
      var stash := if e.index == |e.history| then Some(e.buffer) else e.stash;
      var line := e.history[e.index - 1];
      e.(stash := stash, index := e.index - 1, buffer := line, cursor := |line|)
  }

  /** `history_next`: one entry forward; past the newest entry, the stashed line (or an empty one) comes back. */
  function HistoryNext(e: Editor): (r: Editor)
    requires Valid(e)
    ensures Valid(r)
    ensures e.index >= |e.history| ==> r == e
    ensures e.index < |e.history| ==> r.index == e.index + 1 && r.cursor == |r.buffer|
    ensures e.index + 1 < |e.history| ==> r.buffer == e.history[e.index + 1]
    ensures e.index + 1 == |e.history| ==> r.buffer == e.stash.GetOr("")
    ensures r.history == e.history && r.stash == e.stash
  {
    if e.index >= |e.history| then e
    else
      var index := e.index + 1;
      var line := if index == |e.history| then e.stash.GetOr("") else e.history[index];
      e.(index := index, buffer := line, cursor := |line|)
  }

  // ---------------------------------------------------------------------
  // Laws

  /** Typing a character then deleting it with Backspace gives back the editor. */
  lemma InsertBackspace(e: Editor, c: char)
    requires Valid(e)
    ensures Backspace(Insert(e, c)) == e
  {
    var s := e.buffer;
    var t := s[..e.cursor] + [c] + s[e.cursor..];
    assert t[..e.cursor] == s[..e.cursor];
    assert t[e.cursor + 1..] == s[e.cursor..];
    assert s == s[..e.cursor] + s[e.cursor..];
  }

  /** Away from the start, Backspace is Left then Delete; at the start, Backspace does nothing while Delete still deletes. */
  lemma BackspaceIsLeftDelete(e: Editor)
    requires Valid(e)
    ensures e.cursor > 0 ==> Backspace(e) == Delete(MoveLeft(e))
    ensures e.cursor == 0 && e.buffer != "" ==> Backspace(e) != Delete(MoveLeft(e))
  {
    if e.cursor > 0 {
      assert MoveLeft(e) == e.(cursor := e.cursor - 1);
      assert e.buffer[e.cursor - 1 + 1..] == e.buffer[e.cursor..];
    } else if e.buffer != "" {
      assert |Delete(MoveLeft(e)).buffer| == |e.buffer| - 1;
    }
  }

  /** The two kills commute, and together they empty the line and put the cursor at its start. */
  lemma KillBothWays(e: Editor)
    requires Valid(e)
    ensures KillToEnd(KillLine(e)) == KillLine(KillToEnd(e))
    ensures KillToEnd(KillLine(e)).buffer == "" && KillToEnd(KillLine(e)).cursor == 0
  {
  }

  /** Stepping back from the live line and forward again restores it. */
  lemma HistoryPrevNext(e: Editor)
    requires Valid(e) && |e.history| > 0 && e.index == |e.history|
    ensures var r := HistoryNext(HistoryPrev(e));
      r.buffer == e.buffer && r.index == e.index && r.cursor == |e.buffer|
  {
  }

  // ---------------------------------------------------------------------
  // The read_line loop, without rendering

  /** How `read_line` ends. */
  datatype Outcome =
    | Line(text: string)    // Enter
    | EndOfInput            // Ctrl-D on an empty line: `nil`
    | Interrupted           // Ctrl-C: `raise Interrupt`
    | Waiting               // the events ran out before any of those

  datatype Session = Session(editor: Editor, outcome: Outcome)

  predicate IsCtrl(ev: Event, c: char) {
    ev.Key? && ev.code == Char && ev.ch == Some(c) && ev.ctrl
  }

  /** One event of the `read_line` loop: `None` to go on with the edited line, `Some` when the loop returns. */
  function HandleEvent(e: Editor, ev: Event): (r: Session)
    requires Valid(e)
    ensures Valid(r.editor)
    ensures r.outcome.Line? <==> ev.Key? && ev.code == Enter
    ensures r.outcome.Line? ==> (r.outcome.text == e.buffer
      && r.editor.history == e.history + (if e.buffer == "" then [] else [e.buffer]))
    ensures !r.outcome.Line? ==> r.editor.history == e.history
    ensures r.outcome == Interrupted <==> IsCtrl(ev, 'c')
    ensures r.outcome == EndOfInput <==> IsCtrl(ev, 'd') && e.buffer == ""
    ensures IsCtrl(ev, 'd') && e.buffer != "" ==> r == Session(e, Waiting)
    ensures ev.Key? && ev.code == Char && ev.ch.Some? && !ev.ctrl && !ev.alt ==> r == Session(Insert(e, ev.ch.value), Waiting)
  {
    if !ev.Key? then Session(e, Waiting)
    else if ev.code == Enter then
      Session(e.(history := e.history + (if e.buffer == "" then [] else [e.buffer])), Line(e.buffer))
    else if ev.code == Char && ev.ch.Some? && !ev.ctrl && !ev.alt then Session(Insert(e, ev.ch.value), Waiting)
    else if ev.code.Backspace? then Session(Backspace(e), Waiting)
    else if ev.code.Delete? then Session(Delete(e), Waiting)
    else if ev.code == Left then Session(MoveLeft(e), Waiting)
    else if ev.code == Right then Session(MoveRight(e), Waiting)
    else if ev.code == Up then Session(HistoryPrev(e), Waiting)
    else if ev.code == Down then Session(HistoryNext(e), Waiting)
    else if ev.code == Home || IsCtrl(ev, 'a') then Session(MoveHome(e), Waiting)
    else if ev.code == End || IsCtrl(ev, 'e') then Session(MoveEnd(e), Waiting)
    else if IsCtrl(ev, 'c') then Session(e, Interrupted)
    else if IsCtrl(ev, 'd') then Session(e, if e.buffer == "" then EndOfInput else Waiting)
    else if IsCtrl(ev, 'u') then Session(KillLine(e), Waiting)
    else if IsCtrl(ev, 'k') then Session(KillToEnd(e), Waiting)
    else if IsCtrl(ev, 'w') then Session(KillWordOf(e), Waiting)
    else Session(e, Waiting)
  }

  /** `kill_word` as a value: the result the method computes. */
  function KillWordOf(e: Editor): (r: Editor)
    requires Valid(e)
    ensures Valid(r)
    ensures r.cursor == WordStart(e.buffer, SpacesStart(e.buffer, e.cursor)) && r.cursor <= e.cursor
    ensures r.buffer == e.buffer[..r.cursor] + e.buffer[e.cursor..]
    ensures r.history == e.history && r.index == e.index && r.stash == e.stash
  {
    var pos := WordStart(e.buffer, SpacesStart(e.buffer, e.cursor));
    e.(buffer := e.buffer[..pos] + e.buffer[e.cursor..], cursor := pos)
  }

  /** The loop of `read_line` over the events that arrive, stopping at the first that returns. */
  function ReadLine(e: Editor, events: seq<Event>): (r: Session)
    requires Valid(e)
    ensures Valid(r.editor)
    ensures r.outcome.Line? ==> r.outcome.text != "" ==> r.editor.history == e.history + [r.outcome.text]
    ensures r.outcome.Line? ==> r.outcome.text == "" ==> r.editor.history == e.history
    ensures !r.outcome.Line? ==> r.editor.history == e.history
    decreases |events|
  {
    if |events| == 0 then Session(e, Waiting)
    else
      var step := HandleEvent(e, events[0]);
      if step.outcome != Waiting then step
      else ReadLine(step.editor, events[1..])
  }

  /** A typed line followed by Enter is returned and recorded in the history. */
  lemma TypeAndEnter(history: seq<string>)
    ensures var keys := [Key(Char, Some('h'), false, false, false), Key(Char, Some('i'), false, false, false), NewKey(Enter)];
      ReadLine(Start(history), keys) == Session(Start(history).(history := history + ["hi"], buffer := "hi", cursor := 2), Line("hi"))
  {
    var e0 := Start(history);
    var e1 := Insert(e0, 'h');
    assert e1.buffer == "h";
    var e2 := Insert(e1, 'i');
    assert e2.buffer == "hi";
  }
}

=== FILE: native_parser.dfy ===
/**
  `Parser::parse` / `pending` / `flush`: the lone-Escape rule on top of the
  `Performer`. A chunk whose last byte is ESC and which produced no events, or
  an `ESC O` still waiting for its key, leaves the parser pending; `flush`
  (called by the terminal after the Escape timeout) then reports one Escape key.
 */
module NativeParser {
  import opened Wrappers
  import opened Events
  import opened Performer
  import PerformerFacts
  import Utf8

  const ESC: byte := 0x1B

  /** The native parser: the performer state plus the pending-Escape flag. */
  datatype Parser = Parser(state: PerformerState, pendingEsc: bool)

  /** `Parser::new`. */
  const NewParser := Parser(InitialState, false)

  /** The parser after a call and the events that call returned. */
  datatype Fed = Fed(parser: Parser, events: seq<Event>)

  predicate EndsWithEsc(bytes: seq<byte>) {
    |bytes| > 0 && bytes[|bytes| - 1] == ESC
  }

  /**
    `parse(input)`: `tokens` are the callbacks the tokeniser makes while it
    advances over `bytes`. The events are those the performer pushes; the
    pending flag is recomputed from this chunk alone.
   */
  function Parse(p: Parser, bytes: seq<byte>, tokens: seq<Token>): (r: Fed)
    ensures r.parser.state == Run(p.state, tokens).state
    ensures r.events == Run(p.state, tokens).events
    ensures r.parser.pendingEsc <==> (EndsWithEsc(bytes) && |r.events| == 0) || r.parser.state.pendingSs3
  {
    var o := Run(p.state, tokens);
    Fed(Parser(o.state, (EndsWithEsc(bytes) && |o.events| == 0) || o.state.pendingSs3), o.events)
  }

  /** What converting a chunk into the Rust `String` that `parse` takes raises. */
  datatype ParseError = EncodingError

  /**
    `parse(input)` as Ruby calls it with the bytes `read_nonblock` returned:
    the bytes become a Rust `String` before the parser is touched, so a chunk
    that is not UTF-8 raises and the parser is left as it was.
   */
  function ParseBytes(p: Parser, bytes: seq<byte>, tokens: seq<Token>): (r: Result<Fed, ParseError>)
    ensures r.Err? <==> !Utf8.Valid(bytes)
    ensures r.Ok? ==> r.value == Parse(p, bytes, tokens)
  {
    if Utf8.Valid(bytes) then Ok(Parse(p, bytes, tokens)) else Err(EncodingError)
  }

  /** The bytes of any text are accepted. */
  lemma TextAccepted(p: Parser, s: string, tokens: seq<Token>)
    ensures ParseBytes(p, Utf8.Encode(s), tokens) == Ok(Parse(p, Utf8.Encode(s), tokens))
  {
    Utf8.EncodeValid(s);
  }

  /**
    A read that ends inside a multi-byte character (a 4096-byte read that
    stops after the first byte of `é`, say) raises, so the whole chunk is lost.
   */
  lemma CutCharRaises(p: Parser, s: string, c: char, k: nat, tokens: seq<Token>)
    requires 0 < k < Text.Utf8Width(c)
    ensures ParseBytes(p, Utf8.Encode(s) + Utf8.EncodeChar(c)[..k], tokens) == Err(EncodingError)
  {
    Utf8.CutCharInvalid(s, c, k);
  }

  /** `pending?`. */
  predicate Pending(p: Parser) {
    p.pendingEsc
  }

  /**
    `flush`: one Escape key when pending, clearing both pending flags; nothing
    otherwise. When pending it also replaces the tokeniser with a fresh
    `vte::Parser`, so the tokens of the next chunk are those vte produces
    from its ground state (an ESC left open by the flushed chunk does not
    prefix them). The tokeniser has no state in this model; that reset is
    what lets the next chunk's tokens be given on their own.
   */
  function Flush(p: Parser): (r: Fed)
    ensures Pending(p) ==> r.events == [NewKey(Escape)]
    ensures Pending(p) ==> !Pending(r.parser) && !r.parser.state.pendingSs3
    ensures !Pending(p) ==> r == Fed(p, [])
    ensures r.parser.state.pasteBuffer == p.state.pasteBuffer
    ensures r.parser.state.precedingChar == p.state.precedingChar
  {
    if Pending(p) then Fed(Parser(p.state.(pendingSs3 := false), false), [NewKey(Escape)])
    else Fed(p, [])
  }

  /** A second `flush` returns nothing and changes nothing. */
  lemma FlushIdempotent(p: Parser)
    ensures Flush(Flush(p).parser) == Fed(Flush(p).parser, [])
  {
  }

  /** A chunk that is a lone ESC leaves the parser pending with no events; `flush` then yields Escape and clears it. */
  lemma LoneEscape(p: Parser)
    requires !p.state.pendingSs3
    ensures var fed := Parse(p, [ESC], []);
      && fed.events == []
      && Pending(fed.parser)
      && Flush(fed.parser).events == [NewKey(Escape)]
      && !Pending(Flush(fed.parser).parser)
  {
  }

  /** An empty chunk returns nothing and is pending only while an `ESC O` waits. */
  lemma EmptyChunk(p: Parser)
    ensures Parse(p, [], []) == Fed(p.(pendingEsc := p.state.pendingSs3), [])
  {
  }

  /** `ESC O` then `P` in separate chunks: pending after the first, F1 and no longer pending after the second. */
  lemma Ss3AcrossChunks()
    ensures var first := Parse(NewParser, [ESC, 'O' as int], [EscDispatch([], false, 'O' as int)]);
      var second := Parse(first.parser, ['P' as int], [Print('P')]);
      && first.events == []
      && Pending(first.parser)
      && second.events == [NewKey(F(1))]
      && !Pending(second.parser)
  {
    var esc := EscDispatch([], false, 'O' as int);
    var s1 := InitialState.(pendingSs3 := true);
    assert Step(InitialState, esc) == Output(s1, []);
    RunOne(InitialState, esc);
    RunOne(s1, Print('P'));
    assert Run(InitialState, [esc]) == Output(s1, []);
    assert Ss3Key(('P' as int) % 0x100) == Some(F(1));
    assert Step(s1, Print('P')) == Output(InitialState, [NewKey(F(1))]);
    assert Run(s1, [Print('P')]) == Output(InitialState, [NewKey(F(1))]);
  }

  /**
    Feeding two chunks one after the other yields the events and state of
    feeding their tokens at once; only the pending flag is recomputed per chunk.
   */
  lemma TwoChunks(p: Parser, b1: seq<byte>, t1: seq<Token>, b2: seq<byte>, t2: seq<Token>)
    ensures var first := Parse(p, b1, t1);
      var second := Parse(first.parser, b2, t2);
      var whole := Parse(p, b1 + b2, t1 + t2);
      && first.events + second.events == whole.events
      && second.parser.state == whole.parser.state
  {
    PerformerFacts.RunAppend(p.state, t1, t2);
  }
}

=== FILE: performer.dfy ===
/**
  The native decoder's `Performer`: it receives the callbacks of the `vte`
  tokeniser (`print`, `execute`, `csi_dispatch`, `esc_dispatch`; `hook`, `put`,
  `unhook` and `osc_dispatch` do nothing) and turns them into events, keeping a
  small state record between callbacks.

  The tokeniser itself is not part of this model: its callbacks are the
  `Token` datatype, and the decoder is the pure step function `Step` folded
  over a token list by `Run`.
 */
module Performer {
  import opened Wrappers
  import opened Events
  import Text

  type byte = x: int | 0 <= x < 0x100
  type u16 = x: int | 0 <= x < 0x1_0000

  // Modifier bits of the xterm modifier parameter (after subtracting 1).
  const MODIFIER_SHIFT: nat := 0x01
  const MODIFIER_ALT: nat := 0x02
  const MODIFIER_CTRL: nat := 0x04

  // Bits of the SGR (1006) mouse button parameter.
  const MOUSE_BUTTON_MASK: nat := 0x03
  const MOUSE_SHIFT: nat := 0x04
  const MOUSE_ALT: nat := 0x08
  const MOUSE_CTRL: nat := 0x10
  const MOUSE_MOTION: nat := 0x20
  const MOUSE_SCROLL: nat := 0x40
  const MOUSE_SCROLL_DOWN: nat := 0x01

  /** `x & mask != 0` for a mask that is a single power of two. */
  predicate HasBit(x: nat, mask: nat)
    requires mask > 0
  {
    (x / mask) % 2 == 1
  }

  /** Rust's `saturating_sub(1)` on an unsigned value. */
  function SaturatingSub1(p: nat): (r: nat)
    ensures r == if p == 0 then 0 else p - 1
  {
    if p == 0 then 0 else p - 1
  }

  /** `params.get(i).copied().unwrap_or(default)`. */
  function ParamOr(params: seq<u16>, i: nat, default: u16): u16 {
    if i < |params| then params[i] else default
  }

  /** One callback of the `vte` tokeniser. */
  datatype Token =
    | Print(c: char)
    | Execute(b: byte)
    | CsiDispatch(params: seq<u16>, intermediates: seq<byte>, ignore: bool, action: char)
    | EscDispatch(escIntermediates: seq<byte>, escIgnore: bool, final: byte)
    | Ignored   // hook, put, unhook, osc_dispatch: no effect

  /** `PerformerState`, shared by all chunks fed to one parser. */
  datatype PerformerState = PerformerState(
    precedingChar: Option<char>,
    pasteBuffer: Option<string>,
    pendingSs3: bool)

  /** `PerformerState::default()`. */
  const InitialState := PerformerState(None, None, false)

  /** The state after a step and the events the step pushed, in order. */
  datatype Output = Output(state: PerformerState, events: seq<Event>)

  // ---------------------------------------------------------------------
  // Modifier parameter

  datatype Mods = Mods(ctrl: bool, alt: bool, shift: bool)

  const NoMods := Mods(false, false, false)

  /** The xterm modifier parameter a terminal sends for a set of flags: 1 + shift + 2 alt + 4 ctrl. */
  function EncodeModifiers(m: Mods): (p: nat)
    ensures 1 <= p <= 8
  {
    1 + (if m.shift then MODIFIER_SHIFT else 0) + (if m.alt then MODIFIER_ALT else 0)
    + (if m.ctrl then MODIFIER_CTRL else 0)
  }

  lemma LowBits(x: nat)
    ensures x % 8 == x % 2 + 2 * ((x / 2) % 2) + 4 * ((x / 4) % 2)
  {
    var q := x / 8;
    var r := x % 8;
    assert x == 8 * q + r;
    DivModUnique(r % 2, 4 * q + r / 2, 2);
    DivModUnique((r / 2) % 2, 2 * q + r / 4, 2);
    DivModUnique(r % 4, 2 * q + r / 4, 4);
    DivModUnique(r / 4, q, 2);
    SmallBits(r);
  }

  lemma SmallBits(r: nat)
    requires r < 8
    ensures r == r % 2 + 2 * ((r / 2) % 2) + 4 * (r / 4)
  {
    if r < 4 {
      assert r == 0 || r == 1 || r == 2 || r == 3;
    } else {
      assert r == 4 || r == 5 || r == 6 || r == 7;
    }
  }

  /** `parse_modifiers`: the flags are the low three bits of `max(p - 1, 0)`. */
  function ParseModifiers(p: u16): (m: Mods)
    ensures EncodeModifiers(m) == 1 + SaturatingSub1(p) % 8
  {
    var v := SaturatingSub1(p);
    LowBits(v);
    Mods(HasBit(v, MODIFIER_CTRL), HasBit(v, MODIFIER_ALT), HasBit(v, MODIFIER_SHIFT))
  }

  /** Decoding the parameter a terminal sends for a set of flags gives back those flags. */
  lemma ModifiersRoundTrip(m: Mods)
    ensures ParseModifiers(EncodeModifiers(m)) == m
  {
  }

  /** Only the low three bits of `p - 1` matter, and 0 and 1 both mean "no modifier". */
  lemma ModifiersIgnoreHighBits(p: u16)
    requires p + 8 < 0x1_0000
    ensures p >= 1 ==> ParseModifiers(p + 8) == ParseModifiers(p)
    ensures p <= 1 ==> ParseModifiers(p) == NoMods
  {
    var v := SaturatingSub1(p);
    if p >= 1 {
      assert SaturatingSub1(p + 8) == v + 8;
      assert (v + 8) / 2 == v / 2 + 4;
      assert (v + 8) / 4 == v / 4 + 2;
    }
  }

  /** `push_key_with_modifiers`: a missing second parameter means no modifiers. */
  function KeyWithModifiers(code: KeyCode, params: seq<u16>): (e: Event)
    ensures e.Key? && e.code == code && e.ch == None
    ensures |params| < 2 ==> !Modified(e)
    ensures |params| >= 2 ==> Mods(e.ctrl, e.alt, e.shift) == ParseModifiers(params[1])
  {
    var m := if 1 < |params| then ParseModifiers(params[1]) else NoMods;
    Key(code, None, m.ctrl, m.alt, m.shift)
  }

  // ---------------------------------------------------------------------
  // SS3 keys

  /** `handle_ss3`: the key selected by the byte after `ESC O`. */
  function Ss3Key(b: byte): Option<KeyCode> {
    if b == 'A' as int then Some(Up)
    else if b == 'B' as int then Some(Down)
    else if b == 'C' as int then Some(Right)
    else if b == 'D' as int then Some(Left)
    else if b == 'F' as int then Some(End)
    else if b == 'H' as int then Some(Home)
    else if b == 'P' as int then Some(F(1))
    else if b == 'Q' as int then Some(F(2))
    else if b == 'R' as int then Some(F(3))
    else if b == 'S' as int then Some(F(4))
    else None
  }

  function KeyEvents(k: Option<KeyCode>): (es: seq<Event>)
    ensures |es| <= 1
    ensures k.Some? ==> es == [NewKey(k.value)]
    ensures k.None? ==> es == []
  {
    if k.Some? then [NewKey(k.value)] else []
  }

  // ---------------------------------------------------------------------
  // SGR mouse reports

  predicate IsScroll(k: MouseKind) {
    k == ScrollUp || k == ScrollDown
  }

  function ButtonFromBits(bits: nat): MouseButton
    requires bits < 4
  {
    if bits == 0 then LeftButton
    else if bits == 1 then MiddleButton
    else if bits == 2 then RightButton
    else NoButton
  }

  /** `handle_sgr_mouse`: one `Mouse` event from `CSI < flags ; col ; row M|m`. */
  function HandleSgrMouse(params: seq<u16>, pressed: bool): (e: Event)
    ensures e.Mouse?
    ensures e.col == SaturatingSub1(ParamOr(params, 1, 0))
    ensures e.row == SaturatingSub1(ParamOr(params, 2, 0))
    ensures var flags := ParamOr(params, 0, 0);
      && (IsScroll(e.kind) <==> HasBit(flags, MOUSE_SCROLL))
      && (IsScroll(e.kind) ==> e.button == NoButton && (e.kind == ScrollDown <==> HasBit(flags, MOUSE_SCROLL_DOWN)))
      && (!HasBit(flags, MOUSE_SCROLL) ==> e.button == ButtonFromBits(flags % (MOUSE_BUTTON_MASK + 1)))
      && ((e.kind == Drag || e.kind == Move) <==> !HasBit(flags, MOUSE_SCROLL) && HasBit(flags, MOUSE_MOTION))
      && ((e.kind == Press || e.kind == Drag) <==> !HasBit(flags, MOUSE_SCROLL) && pressed)
      && e.shift == HasBit(flags, MOUSE_SHIFT)
      && e.alt == HasBit(flags, MOUSE_ALT)
      && e.ctrl == HasBit(flags, MOUSE_CTRL)
  {
    var flags := ParamOr(params, 0, 0);
    var col := SaturatingSub1(ParamOr(params, 1, 0));
    var row := SaturatingSub1(ParamOr(params, 2, 0));
    var isMotion := HasBit(flags, MOUSE_MOTION);
    var kind :=
      if HasBit(flags, MOUSE_SCROLL) then (if HasBit(flags, MOUSE_SCROLL_DOWN) then ScrollDown else ScrollUp)
      else if isMotion then (if pressed then Drag else Move)
      else if pressed then Press else Release;
    var button := if HasBit(flags, MOUSE_SCROLL) then NoButton else ButtonFromBits(flags % (MOUSE_BUTTON_MASK + 1));
    Mouse(kind, button, row, col, HasBit(flags, MOUSE_CTRL), HasBit(flags, MOUSE_ALT), HasBit(flags, MOUSE_SHIFT))
  }

  function ButtonBits(b: MouseButton): (bits: nat)
    ensures bits < 4 && ButtonFromBits(bits) == b
  {
    match b
    case LeftButton => 0
    case MiddleButton => 1
    case RightButton => 2
    case NoButton => 3
  }

  /** The report a terminal sends for a mouse event: button flags and whether the final is `M`. */
  function SgrMouseFlags(e: Event): (flags: nat)
    requires e.Mouse?
    ensures flags < 0x80
  {
    (if IsScroll(e.kind) then MOUSE_SCROLL + (if e.kind == ScrollDown then MOUSE_SCROLL_DOWN else 0)
     else ButtonBits(e.button) + (if e.kind == Drag || e.kind == Move then MOUSE_MOTION else 0))
    + (if e.shift then MOUSE_SHIFT else 0) + (if e.alt then MOUSE_ALT else 0) + (if e.ctrl then MOUSE_CTRL else 0)
  }

  predicate SgrPressed(e: Event)
    requires e.Mouse?
  {
    e.kind != Release && e.kind != Move
  }

  /** Mouse events an SGR report can describe: scrolls carry no button, coordinates fit the wire. */
  predicate ReportableMouse(e: Event) {
    && e.Mouse?
    && (IsScroll(e.kind) ==> e.button == NoButton)
    && e.row < 0xFFFF && e.col < 0xFFFF
  }

  lemma DivModUnique(r: nat, q: nat, d: nat)
    requires r < d
    ensures (r + d * q) / d == q && (r + d * q) % d == r
  {
    var x := r + d * q;
    var k, m := x / d, x % d;
    assert x == d * k + m;
    assert d * (k - q) == r - m;
    if k > q {
      MulAtLeast(d, k - q);
      assert false;
    } else if k < q {
      MulAtLeast(d, q - k);
      assert false;
    }
  }

  lemma MulAtLeast(d: nat, n: int)
    requires n >= 1
    ensures d * n >= d
  {
    assert d * n == d + d * (n - 1);
  }

  /** Reading the bit fields back out of a flag word assembled from them. */
  lemma FlagFields(low: nat, s: nat, a: nat, c: nat, hi: nat)
    requires low < 4 && s < 2 && a < 2 && c < 2
    ensures var f := low + 4 * s + 8 * a + 16 * c + 32 * hi;
      f % 4 == low && (f / 4) % 2 == s && (f / 8) % 2 == a && (f / 16) % 2 == c && f / 32 == hi
  {
    var f := low + 4 * s + 8 * a + 16 * c + 32 * hi;
    DivModUnique(low, s + 2 * a + 4 * c + 8 * hi, 4);
    DivModUnique(s, a + 2 * c + 4 * hi, 2);
    DivModUnique(low + 4 * s, a + 2 * c + 4 * hi, 8);
    DivModUnique(a, c + 2 * hi, 2);
    DivModUnique(low + 4 * s + 8 * a, c + 2 * hi, 16);
    DivModUnique(c, hi, 2);
    DivModUnique(low + 4 * s + 8 * a + 16 * c, hi, 32);
  }

  /** Decoding the report a terminal sends for a mouse event gives back that event (1-based wire, 0-based model). */
  lemma SgrMouseRoundTrip(e: Event)
    requires ReportableMouse(e)
    ensures HandleSgrMouse([SgrMouseFlags(e), e.col + 1, e.row + 1], SgrPressed(e)) == e
  {
    var flags := SgrMouseFlags(e);
    SgrFlagBits(e);
    var d := HandleSgrMouse([flags, e.col + 1, e.row + 1], SgrPressed(e));
    assert d.shift == e.shift && d.alt == e.alt && d.ctrl == e.ctrl;
    assert d.kind == e.kind;
  }

  /** Each field of a mouse event lands on its own bits of the report's flags. */
  lemma SgrFlagBits(e: Event)
    requires ReportableMouse(e)
    ensures var f := SgrMouseFlags(e);
      && HasBit(f, MOUSE_SHIFT) == e.shift && HasBit(f, MOUSE_ALT) == e.alt && HasBit(f, MOUSE_CTRL) == e.ctrl
      && HasBit(f, MOUSE_SCROLL) == IsScroll(e.kind)
      && HasBit(f, MOUSE_MOTION) == (!IsScroll(e.kind) && (e.kind == Drag || e.kind == Move))
      && (IsScroll(e.kind) ==> (HasBit(f, MOUSE_SCROLL_DOWN) <==> e.kind == ScrollDown))
      && (!IsScroll(e.kind) ==> f % (MOUSE_BUTTON_MASK + 1) == ButtonBits(e.button))
  {
    var flags := SgrMouseFlags(e);
    var s := if e.shift then 1 else 0;
    var a := if e.alt then 1 else 0;
    var c := if e.ctrl then 1 else 0;
    var low, hi;
    if IsScroll(e.kind) {
      low := if e.kind == ScrollDown then 1 else 0;
      hi := 2;
    } else {
      low := ButtonBits(e.button);
      hi := if e.kind == Drag || e.kind == Move then 1 else 0;
    }
    assert flags == low + 4 * s + 8 * a + 16 * c + 32 * hi;
    FlagBits(low, s, a, c, hi);
  }

  /** The bits `HasBit` reads from flags packed as low, shift, alt, ctrl and two high bits. */
  lemma FlagBits(low: nat, s: nat, a: nat, c: nat, hi: nat)
    requires low < 4 && s < 2 && a < 2 && c < 2 && hi < 3
    ensures var f := low + 4 * s + 8 * a + 16 * c + 32 * hi;
      && HasBit(f, MOUSE_SHIFT) == (s == 1) && HasBit(f, MOUSE_ALT) == (a == 1) && HasBit(f, MOUSE_CTRL) == (c == 1)
      && HasBit(f, MOUSE_MOTION) == (hi == 1) && HasBit(f, MOUSE_SCROLL) == (hi == 2)
      && HasBit(f, MOUSE_SCROLL_DOWN) == (low % 2 == 1) && f % (MOUSE_BUTTON_MASK + 1) == low
  {
    var f := low + 4 * s + 8 * a + 16 * c + 32 * hi;
    FlagFields(low, s, a, c, hi);
    DivModUnique(hi % 2, hi / 2, 2);
    assert f / 64 == hi / 2 by {
      DivModUnique(f % 32, f / 32, 32);
      DivModUnique(f % 64, f / 64, 64);
    }
    DivModUnique(low % 2, low / 2 + 2 * s + 4 * a + 8 * c + 16 * hi, 2);
  }

  // ---------------------------------------------------------------------
  // Kitty keyboard protocol (`CSI keycode ; modifiers u`)

  predicate IsSurrogate(n: nat) {
    0xD800 <= n < 0xE000
  }

  /** `handle_kitty_keyboard`: the key for a kitty key code; `None` when it is not a scalar value. */
  function KittyKey(keycode: u16): (r: Option<(KeyCode, Option<char>)>)
    ensures r.None? <==> IsSurrogate(keycode)
    ensures r.Some? && r.value.0 == Char ==> r.value.1 == Some(keycode as char)
    ensures r.Some? && r.value.0 != Char ==> r.value.1 == None
  {
    if keycode == 9 then Some((Tab, None))
    else if keycode == 13 then Some((Enter, None))
    else if keycode == 27 then Some((Escape, None))
    else if keycode == 127 then Some((Backspace, None))
    else if IsSurrogate(keycode) then None
    else Some((Char, Some(keycode as char)))
  }

  /** `CSI keycode ; modifiers u`: one key, unless the key code is a surrogate; modifiers as for the other keys. */
  function KittyEvents(params: seq<u16>): (es: seq<Event>)
    ensures |es| <= 1
    ensures es == [] <==> IsSurrogate(ParamOr(params, 0, 0))
    ensures es != [] ==> es[0].Key? && (es[0].code, es[0].ch) == KittyKey(ParamOr(params, 0, 0)).value
    ensures es != [] && |params| < 2 ==> !Modified(es[0])
    ensures es != [] && |params| >= 2 ==> Mods(es[0].ctrl, es[0].alt, es[0].shift) == ParseModifiers(params[1])
  {
    var m := if 1 < |params| then ParseModifiers(params[1]) else NoMods;
    match KittyKey(ParamOr(params, 0, 0))
    case None => []
    case Some((code, ch)) => [Key(code, ch, m.ctrl, m.alt, m.shift)]
  }

  /** A character key, sent in the kitty encoding with any modifiers, is read back as that key. */
  lemma KittyRoundTrip(c: char, m: Mods)
    requires (c as int) < 0x1_0000 && c !in {'\t', '\r', '\U{1B}', '\U{7F}'}
    ensures KittyEvents([c as int as u16, EncodeModifiers(m) as u16]) == [Key(Char, Some(c), m.ctrl, m.alt, m.shift)]
  {
    ModifiersRoundTrip(m);
  }

  // ---------------------------------------------------------------------
  // CSI `~` keys

  /** The key a `CSI n ~` sequence names (200 and 201 are the paste markers, handled apart). */
  function TildeKey(n: nat): Option<KeyCode> {
    if n == 1 || n == 7 then Some(Home)
    else if n == 2 then Some(Insert)
    else if n == 3 then Some(Delete)
    else if n == 4 || n == 8 then Some(End)
    else if n == 5 then Some(PageUp)
    else if n == 6 then Some(PageDown)
    else if n == 15 then Some(F(5))
    else if 17 <= n <= 21 then Some(F(n - 11))
    else if n == 23 || n == 24 then Some(F(n - 12))
    else None
  }

  /** The number a VT220-style terminal sends for a key with a `~` final (the reference table). */
  function TildeNumber(k: KeyCode): Option<nat> {
    match k
    case Home => Some(1)
    case Insert => Some(2)
    case Delete => Some(3)
    case End => Some(4)
    case PageUp => Some(5)
    case PageDown => Some(6)
    case F(n) =>
      if n == 5 then Some(15)
      else if 6 <= n <= 10 then Some(n + 11)
      else if n == 11 || n == 12 then Some(n + 12)
      else None
    case _ => None
  }

  /** The `~` table is the reference table plus the aliases 7 (Home) and 8 (End); F1 to F4 are absent. */
  lemma TildeTableMatchesReference(n: nat, k: KeyCode)
    ensures TildeKey(n) == Some(k) <==> TildeNumber(k) == Some(n) || (n == 7 && k == Home) || (n == 8 && k == End)
  {
  }

  /** `CSI 11~` to `CSI 14~` (F1 to F4 on some terminals) are not mapped. */
  lemma TildeF1ToF4Unmapped(n: nat)
    requires 11 <= n <= 14
    ensures TildeKey(n) == None
  {
  }

  // ---------------------------------------------------------------------
  // Control bytes

  /** `execute` outside a paste: the key a C0 control byte (or DEL) stands for. */
  function ExecuteKey(b: byte): (r: Option<Event>)
    ensures r.Some? <==> b <= 0x1A || b == 0x7F
    ensures b == 0x00 ==> r == Some(Key(Char, Some(' '), true, false, false))
    ensures b == 0x08 || b == 0x7F ==> r == Some(NewKey(Backspace))
    ensures b == 0x09 ==> r == Some(NewKey(Tab))
    ensures b == 0x0D ==> r == Some(NewKey(Enter))
    ensures 0x01 <= b <= 0x1A && b != 0x08 && b != 0x09 && b != 0x0D
            ==> r == Some(Key(Char, Some((b + 0x60) as char), true, false, false))
  {
    if b == 0x00 then Some(Key(Char, Some(' '), true, false, false))
    else if b == 0x08 then Some(NewKey(Backspace))
    else if b == 0x09 then Some(NewKey(Tab))
    else if b == 0x0D then Some(NewKey(Enter))
    else if 0x01 <= b <= 0x1A then Some(Key(Char, Some((b + 0x60) as char), true, false, false))
    else if b == 0x7F then Some(NewKey(Backspace))
    else None
  }

  /** Ctrl plus a letter arrives as the letter's code minus 0x60, except Ctrl-H, Ctrl-I and Ctrl-M. */
  lemma CtrlLetterRoundTrip(c: char)
    requires 'a' <= c <= 'z' && c != 'h' && c != 'i' && c != 'm'
    ensures ExecuteKey(c as int - 0x60) == Some(Key(Char, Some(c), true, false, false))
  {
  }

  // ---------------------------------------------------------------------
  // Paste buffer

  /** The bytes of the intermediates, as characters. */
  function BytesToString(bs: seq<byte>): (s: string)
    ensures |s| == |bs|
  {
    seq(|bs|, i requires 0 <= i < |bs| => bs[i] as char)
  }

  /** `params.iter().any(|&p| p != 0)`. */
  predicate AnyNonZero(params: seq<u16>) {
    |params| > 0 && (params[0] != 0 || AnyNonZero(params[1..]))
  }

  /** `append_csi_to_paste_buffer`: the CSI sequence written back as text (all-zero parameters are omitted). */
  function SerializeCsi(params: seq<u16>, intermediates: seq<byte>, action: char): (s: string)
    ensures |s| >= 3 && s[0] == '\U{1B}' && s[1] == '[' && s[|s| - 1] == action
  {
    "\U{1B}[" + BytesToString(intermediates) + (if AnyNonZero(params) then Text.JoinInts(params, ";") else "") + [action]
  }

  // ---------------------------------------------------------------------
  // The callbacks

  /** `print`. */
  function OnPrint(st: PerformerState, c: char): Output {
    if st.pendingSs3 then
      // `c as u8` keeps the low byte of the code point.
      Output(st.(pendingSs3 := false), KeyEvents(Ss3Key((c as int) % 0x100)))
    else if st.pasteBuffer.Some? then
      Output(st.(pasteBuffer := Some(st.pasteBuffer.value + [c])), [])
    else
      Output(st.(precedingChar := Some(c)),
             [if c == '\U{7F}' then NewKey(Backspace) else Key(Char, Some(c), false, false, false)])
  }

  /** `execute`. */
  function OnExecute(st: PerformerState, b: byte): Output {
    if st.pasteBuffer.Some? then
      Output(st.(pasteBuffer := Some(st.pasteBuffer.value + [b as char])), [])
    else
      Output(st, match ExecuteKey(b) case Some(e) => [e] case None => [])
  }

  /** The `~` final outside a paste: a navigation or function key, or the paste opener 200. */
  function OnTilde(st: PerformerState, params: seq<u16>): Output {
    var n := ParamOr(params, 0, 0);
    if n == 200 then Output(st.(pasteBuffer := Some("")), [])
    else match TildeKey(n)
      case Some(k) => Output(st, [KeyWithModifiers(k, params)])
      case None => Output(st, [])
  }

  /** The `b` final (REP): the preceding printed character again, `max(n, 1)` times. */
  function OnRepeat(st: PerformerState, params: seq<u16>): Output {
    match st.precedingChar
    case None => Output(st, [])
    case Some(c) =>
      var count := if ParamOr(params, 0, 1) < 1 then 1 else ParamOr(params, 0, 1);
      Output(st, seq(count, _ => Key(Char, Some(c), false, false, false)))
  }

  /** The dispatch table of `csi_dispatch` once paste handling and the `ignore` check are done. */
  function DispatchCsi(st: PerformerState, params: seq<u16>, intermediates: seq<byte>, action: char): Output {
    if |intermediates| == 0 then
      if action == 'A' then Output(st, [KeyWithModifiers(Up, params)])
      else if action == 'B' then Output(st, [KeyWithModifiers(Down, params)])
      else if action == 'C' then Output(st, [KeyWithModifiers(Right, params)])
      else if action == 'D' then Output(st, [KeyWithModifiers(Left, params)])
      else if action == 'F' then Output(st, [KeyWithModifiers(End, params)])
      else if action == 'H' then Output(st, [KeyWithModifiers(Home, params)])
      else if action == 'Z' then Output(st, [Key(Tab, None, false, false, true)])
      else if action == 'I' then Output(st, [Focus(true)])
      else if action == 'O' then Output(st, [Focus(false)])
      else if action == 'u' then Output(st, KittyEvents(params))
      else if action == 'b' then OnRepeat(st, params)
      else if action == '~' then OnTilde(st, params)
      else Output(st, [])
    else if intermediates == ['<' as int] && (action == 'M' || action == 'm') then
      Output(st, [HandleSgrMouse(params, action == 'M')])
    else
      Output(st, [])
  }

  /** Whether a CSI token is the paste terminator `CSI 201 ~`. */
  predicate IsPasteEnd(params: seq<u16>, intermediates: seq<byte>, action: char) {
    action == '~' && |intermediates| == 0 && |params| > 0 && params[0] == 201
  }

  /** `csi_dispatch`. */
  function OnCsi(st: PerformerState, params: seq<u16>, intermediates: seq<byte>, ignore: bool, action: char): Output {
    if IsPasteEnd(params, intermediates, action) then
      match st.pasteBuffer
      case Some(content) => Output(st.(pasteBuffer := None), [Paste(content)])
      case None => Output(st, [])
    else if st.pasteBuffer.Some? then
      Output(st.(pasteBuffer := Some(st.pasteBuffer.value + SerializeCsi(params, intermediates, action))), [])
    else if ignore || |intermediates| > 2 then
      Output(st, [])
    else
      DispatchCsi(st, params, intermediates, action)
  }

  /** `esc_dispatch`. It does not look at the paste buffer. */
  function OnEsc(st: PerformerState, intermediates: seq<byte>, b: byte): Output {
    if |intermediates| == 0 && b == 'O' as int then Output(st.(pendingSs3 := true), [])
    else if |intermediates| == 0 && 0x20 <= b <= 0x7E then Output(st, [Key(Char, Some(b as char), false, true, false)])
    else Output(st, [])
  }

  /** One callback of the tokeniser. */
  function Step(st: PerformerState, t: Token): Output {
    match t
    case Print(c) => OnPrint(st, c)
    case Execute(b) => OnExecute(st, b)
    case CsiDispatch(params, inter, ignore, action) => OnCsi(st, params, inter, ignore, action)
    case EscDispatch(inter, _, b) => OnEsc(st, inter, b)
    case Ignored => Output(st, [])
  }

  /** The callbacks of one `advance` call, in order; events accumulate in callback order. */
  function Run(st: PerformerState, ts: seq<Token>): Output {
    Fold(Step, st, ts)
  }

  /** A non-empty stream: the first callback, then the rest from the state it leaves. */
  lemma RunCons(st: PerformerState, ts: seq<Token>)
    requires |ts| > 0
    ensures var o := Step(st, ts[0]);
      var rest := Run(o.state, ts[1..]);
      Run(st, ts) == Output(rest.state, o.events + rest.events)
  {
  }

  /** A stream of one token is that token's callback. */
  lemma RunOne(st: PerformerState, t: Token)
    ensures Run(st, [t]) == Step(st, t)
  {
    RunCons(st, [t]);
    assert Step(st, t).events + [] == Step(st, t).events;
  }

  /** Callbacks `step` applied to each token in turn, threading the state and collecting the events. */
  function Fold(step: (PerformerState, Token) -> Output, st: PerformerState, ts: seq<Token>): Output
    decreases |ts|
  {
    if |ts| == 0 then Output(st, [])
    else
      var o := step(st, ts[0]);
      var rest := Fold(step, o.state, ts[1..]);
      Output(rest.state, o.events + rest.events)
  }
}

=== FILE: performer_facts.dfy ===
/**
  What the `Performer` promises over whole token streams: the fold composes
  over concatenation, bracketed paste collects its content and emits it once,
  the key tables decode what terminals send, and `ESC O` diverts one print to
  the SS3 table.
 */
module PerformerFacts {
  import opened Wrappers
  import opened Events
  import opened Performer

  /** Splitting a token stream in two and running the halves one after the other gives the same events and state. */
  lemma RunAppend(st: PerformerState, a: seq<Token>, b: seq<Token>)
    ensures var first := Run(st, a);
      var second := Run(first.state, b);
      Run(st, a + b) == Output(second.state, first.events + second.events)
  {
    FoldAppend(Step, st, a, b);
  }

  lemma {:induction false} FoldAppend(step: (PerformerState, Token) -> Output, st: PerformerState, a: seq<Token>, b: seq<Token>)
    ensures var first := Fold(step, st, a);
      var second := Fold(step, first.state, b);
      Fold(step, st, a + b) == Output(second.state, first.events + second.events)
    decreases |a|
  {
    if |a| == 0 {
      assert a + b == b;
    } else {
      assert (a + b)[0] == a[0];
      assert (a + b)[1..] == a[1..] + b;
      var o := step(st, a[0]);
      FoldAppend(step, o.state, a[1..], b);
      var rest := Fold(step, o.state, a[1..]);
      var second := Fold(step, rest.state, b);
      assert o.events + (rest.events + second.events) == (o.events + rest.events) + second.events;
    }
  }

  // ---------------------------------------------------------------------
  // Bracketed paste

  const PasteStart := CsiDispatch([200], [], false, '~')
  const PasteEnd := CsiDispatch([201], [], false, '~')

  /**
    How the tokeniser hands over a pasted character other than ESC: C0
    controls through `execute`, the rest through `print`. ESC is not handed
    over: it starts an escape sequence (see `EscInsidePasteEmitsKey`).
   */
  function CharToken(c: char): Token
    requires c != '\U{1B}'
  {
    if (c as int) < 0x20 then Execute(c as int) else Print(c)
  }

  /** The tokens of a pasted text that holds no ESC, one per character. */
  function PasteTokens(s: string): (ts: seq<Token>)
    requires '\U{1B}' !in s
    ensures |ts| == |s|
  {
    seq(|s|, i requires 0 <= i < |s| => CharToken(s[i]))
  }

  /** While a paste is open, printed characters and control bytes are appended to the buffer and nothing is emitted. */
  lemma {:induction false} PasteAccumulates(st: PerformerState, s: string)
    requires st.pasteBuffer.Some? && !st.pendingSs3 && '\U{1B}' !in s
    ensures Run(st, PasteTokens(s)) == Output(st.(pasteBuffer := Some(st.pasteBuffer.value + s)), [])
    decreases |s|
  {
    var buf := st.pasteBuffer.value;
    if |s| == 0 {
      assert PasteTokens(s) == [];
      assert buf + s == buf;
      assert st.(pasteBuffer := Some(buf)) == st;
    } else {
      assert PasteTokens(s)[0] == CharToken(s[0]);
      RunCons(st, PasteTokens(s));
      var o := Step(st, CharToken(s[0]));
      assert o == Output(st.(pasteBuffer := Some(st.pasteBuffer.value + [s[0]])), []);
      assert PasteTokens(s)[1..] == PasteTokens(s[1..]);
      PasteAccumulates(o.state, s[1..]);
      assert st.pasteBuffer.value + [s[0]] + s[1..] == st.pasteBuffer.value + s;
    }
  }

  /** A whole bracketed paste of text without ESC decodes to exactly one `Paste` holding the content, and the state is as before. */
  lemma PasteRoundTrip(st: PerformerState, s: string)
    requires st.pasteBuffer.None? && !st.pendingSs3 && '\U{1B}' !in s
    ensures Run(st, [PasteStart] + PasteTokens(s) + [PasteEnd]) == Output(st, [Paste(s)])
  {
    var open := st.(pasteBuffer := Some(""));
    assert Step(st, PasteStart) == Output(open, []);
    RunOne(st, PasteStart);
    RunOne(open.(pasteBuffer := Some(s)), PasteEnd);
    RunAppend(st, [PasteStart], PasteTokens(s) + [PasteEnd]);
    assert [PasteStart] + PasteTokens(s) + [PasteEnd] == [PasteStart] + (PasteTokens(s) + [PasteEnd]);
    RunAppend(open, PasteTokens(s), [PasteEnd]);
    PasteAccumulates(open, s);
    assert "" + s == s;
  }

  /** `CSI 201 ~` with no paste open emits nothing and changes nothing. */
  lemma PasteEndWithoutPaste(st: PerformerState, params: seq<u16>, ignore: bool)
    requires st.pasteBuffer.None? && |params| > 0 && params[0] == 201
    ensures Step(st, CsiDispatch(params, [], ignore, '~')) == Output(st, [])
  {
  }

  /** Inside a paste any other CSI sequence is written back into the content, so no key event escapes. */
  lemma PasteKeepsCsi(st: PerformerState, params: seq<u16>, inter: seq<byte>, ignore: bool, action: char)
    requires st.pasteBuffer.Some? && !IsPasteEnd(params, inter, action)
    ensures Step(st, CsiDispatch(params, inter, ignore, action))
         == Output(st.(pasteBuffer := Some(st.pasteBuffer.value + SerializeCsi(params, inter, action))), [])
  {
  }

  /** A CSI sequence in the middle of a paste ends up, written back as text, in the one `Paste` emitted. */
  lemma PasteWithEmbeddedCsi(st: PerformerState, a: string, csi: Token, b: string)
    requires st.pasteBuffer.None? && !st.pendingSs3
    requires csi.CsiDispatch? && !IsPasteEnd(csi.params, csi.intermediates, csi.action)
    requires '\U{1B}' !in a && '\U{1B}' !in b
    ensures Run(st, [PasteStart] + PasteTokens(a) + [csi] + PasteTokens(b) + [PasteEnd])
         == Output(st, [Paste(a + SerializeCsi(csi.params, csi.intermediates, csi.action) + b)])
  {
    var text := SerializeCsi(csi.params, csi.intermediates, csi.action);
    var open := st.(pasteBuffer := Some(""));
    var s1 := st.(pasteBuffer := Some(a));
    var s2 := st.(pasteBuffer := Some(a + text));
    var tail := PasteTokens(b) + [PasteEnd];
    var rest := [csi] + tail;
    assert [PasteStart] + PasteTokens(a) + [csi] + PasteTokens(b) + [PasteEnd]
        == [PasteStart] + (PasteTokens(a) + rest);
    RunAppend(st, [PasteStart], PasteTokens(a) + rest);
    RunOne(st, PasteStart);
    assert Run(st, [PasteStart]) == Output(open, []);
    RunAppend(open, PasteTokens(a), rest);
    PasteAccumulates(open, a);
    assert "" + a == a;
    assert Run(open, PasteTokens(a)) == Output(s1, []);
    RunAppend(s1, [csi], tail);
    RunOne(s1, csi);
    RunOne(st.(pasteBuffer := Some(a + text + b)), PasteEnd);
    assert Run(s1, [csi]) == Output(s2, []);
    RunAppend(s2, PasteTokens(b), [PasteEnd]);
    PasteAccumulates(s2, b);
    assert Run(s2, tail) == Output(st, [Paste(a + text + b)]);
  }

  /** The paste `hello ESC [ A world` keeps the cursor key as text. */
  lemma PasteWithArrowExample()
    ensures Run(InitialState, [PasteStart] + PasteTokens("hello") + [CsiDispatch([], [], false, 'A')]
                              + PasteTokens("world") + [PasteEnd])
         == Output(InitialState, [Paste("hello\U{1B}[Aworld")])
  {
    assert BytesToString([]) == "";
    assert SerializeCsi([], [], 'A') == "\U{1B}[A";
    PasteWithEmbeddedCsi(InitialState, "hello", CsiDispatch([], [], false, 'A'), "world");
    assert "hello" + "\U{1B}[A" + "world" == "hello\U{1B}[Aworld";
  }

  /** `ESC` plus a printable byte inside a paste is not appended: it still emits an Alt key. */
  lemma EscInsidePasteEmitsKey(st: PerformerState, b: byte)
    requires st.pasteBuffer.Some? && 0x20 <= b <= 0x7E && b != 'O' as int
    ensures Step(st, EscDispatch([], false, b)) == Output(st, [Key(Char, Some(b as char), false, true, false)])
  {
  }

  // ---------------------------------------------------------------------
  // Keys outside a paste

  /** The final byte xterm uses for a cursor or Home/End key. */
  function CursorFinal(k: KeyCode): Option<char> {
    match k
    case Up => Some('A')
    case Down => Some('B')
    case Right => Some('C')
    case Left => Some('D')
    case End => Some('F')
    case Home => Some('H')
    case _ => None
  }

  /** `CSI X` and `CSI 1 ; p X` decode to the cursor key of final X with the modifiers p encodes. */
  lemma CursorKeyRoundTrip(st: PerformerState, k: KeyCode, m: Mods)
    requires st.pasteBuffer.None? && CursorFinal(k).Some?
    ensures Step(st, CsiDispatch([], [], false, CursorFinal(k).value)) == Output(st, [NewKey(k)])
    ensures Step(st, CsiDispatch([1, EncodeModifiers(m)], [], false, CursorFinal(k).value))
         == Output(st, [Key(k, None, m.ctrl, m.alt, m.shift)])
  {
    ModifiersRoundTrip(m);
  }

  /** `CSI n ~` and `CSI n ; p ~` decode to the key numbered n with the modifiers p encodes. */
  lemma TildeKeyRoundTrip(st: PerformerState, k: KeyCode, m: Mods)
    requires st.pasteBuffer.None? && TildeNumber(k).Some?
    ensures Step(st, CsiDispatch([TildeNumber(k).value], [], false, '~')) == Output(st, [NewKey(k)])
    ensures Step(st, CsiDispatch([TildeNumber(k).value, EncodeModifiers(m)], [], false, '~'))
         == Output(st, [Key(k, None, m.ctrl, m.alt, m.shift)])
  {
    ModifiersRoundTrip(m);
    TildeTableMatchesReference(TildeNumber(k).value, k);
  }

  /** `CSI 200 ~` opens an empty paste; any other number outside the `~` table emits nothing. */
  lemma TildeOutsideTable(st: PerformerState, params: seq<u16>)
    requires st.pasteBuffer.None? && |params| > 0 && params[0] != 201
    ensures params[0] == 200 ==> Step(st, CsiDispatch(params, [], false, '~')) == Output(st.(pasteBuffer := Some("")), [])
    ensures params[0] != 200 && TildeKey(params[0]).None? ==> Step(st, CsiDispatch(params, [], false, '~')) == Output(st, [])
  {
  }

  /** `CSI Z` is Shift-Tab and `CSI I` / `CSI O` report focus gained and lost. */
  lemma TabAndFocusFinals(st: PerformerState, params: seq<u16>)
    requires st.pasteBuffer.None? && !IsPasteEnd(params, [], 'Z')
    ensures Step(st, CsiDispatch(params, [], false, 'Z')) == Output(st, [Key(Tab, None, false, false, true)])
    ensures Step(st, CsiDispatch(params, [], false, 'I')) == Output(st, [Focus(true)])
    ensures Step(st, CsiDispatch(params, [], false, 'O')) == Output(st, [Focus(false)])
  {
  }

  /** The final characters the dispatch table knows when there are no intermediates. */
  predicate KnownPlainFinal(a: char) {
    a in {'A', 'B', 'C', 'D', 'F', 'H', 'Z', 'I', 'O', 'u', 'b', '~'}
  }

  /** Any other CSI sequence outside a paste, and any sequence flagged `ignore` or with more than two intermediates, is dropped. */
  lemma UnknownCsiDropped(st: PerformerState, params: seq<u16>, inter: seq<byte>, ignore: bool, a: char)
    requires st.pasteBuffer.None? && !IsPasteEnd(params, inter, a)
    requires || ignore
             || |inter| > 2
             || (|inter| == 0 && !KnownPlainFinal(a))
             || (|inter| > 0 && !(inter == ['<' as int] && (a == 'M' || a == 'm')))
    ensures Step(st, CsiDispatch(params, inter, ignore, a)) == Output(st, [])
  {
  }

  /** A mouse report goes through the SGR decoder only with the `<` marker and an `M` or `m` final. */
  lemma SgrMouseDispatch(st: PerformerState, params: seq<u16>, pressed: bool)
    requires st.pasteBuffer.None?
    ensures Step(st, CsiDispatch(params, ['<' as int], false, if pressed then 'M' else 'm'))
         == Output(st, [HandleSgrMouse(params, pressed)])
  {
  }

  /** A printed character outside a paste is one plain key and becomes the character `CSI n b` repeats. */
  lemma PrintThenRepeat(st: PerformerState, c: char, n: u16)
    requires st.pasteBuffer.None? && !st.pendingSs3 && c != '\U{7F}' && n >= 1
    ensures var key := Key(Char, Some(c), false, false, false);
      Run(st, [Print(c), CsiDispatch([n], [], false, 'b')])
      == Output(st.(precedingChar := Some(c)), [key] + seq(n, _ => key))
  {
    var key := Key(Char, Some(c), false, false, false);
    var s1 := st.(precedingChar := Some(c));
    assert Step(st, Print(c)) == Output(s1, [key]);
    assert Step(s1, CsiDispatch([n], [], false, 'b')) == Output(s1, seq(n, _ => key));
    RunCons(st, [Print(c), CsiDispatch([n], [], false, 'b')]);
    RunOne(s1, CsiDispatch([n], [], false, 'b'));
    assert [Print(c), CsiDispatch([n], [], false, 'b')][1..] == [CsiDispatch([n], [], false, 'b')];
    assert seq(n, _ => key) + [] == seq(n, _ => key);
  }

  // ---------------------------------------------------------------------
  // Escape sequences

  /** `ESC O` diverts the next printed character to the SS3 table (F1 to F4, cursor keys, Home/End), paste or not. */
  lemma Ss3Diversion(st: PerformerState, c: char)
    ensures Run(st, [EscDispatch([], false, 'O' as int), Print(c)])
         == Output(st.(pendingSs3 := false), KeyEvents(Ss3Key((c as int) % 0x100)))
  {
    var s1 := st.(pendingSs3 := true);
    assert Step(st, EscDispatch([], false, 'O' as int)) == Output(s1, []);
    assert [EscDispatch([], false, 'O' as int), Print(c)][1..] == [Print(c)];
    RunCons(st, [EscDispatch([], false, 'O' as int), Print(c)]);
    RunOne(s1, Print(c));
    assert KeyEvents(Ss3Key((c as int) % 0x100)) + [] == KeyEvents(Ss3Key((c as int) % 0x100));
  }

  /** The SS3 function keys: `ESC O P` to `ESC O S` are F1 to F4. */
  lemma Ss3FunctionKeys(st: PerformerState)
    ensures Run(st, [EscDispatch([], false, 'O' as int), Print('P')]).events == [NewKey(F(1))]
    ensures Run(st, [EscDispatch([], false, 'O' as int), Print('Q')]).events == [NewKey(F(2))]
    ensures Run(st, [EscDispatch([], false, 'O' as int), Print('R')]).events == [NewKey(F(3))]
    ensures Run(st, [EscDispatch([], false, 'O' as int), Print('S')]).events == [NewKey(F(4))]
  {
    Ss3Function(st, 'P', 1);
    Ss3Function(st, 'Q', 2);
    Ss3Function(st, 'R', 3);
    Ss3Function(st, 'S', 4);
  }

  lemma Ss3Function(st: PerformerState, c: char, n: nat)
    requires Ss3Key((c as int) % 0x100) == Some(F(n))
    ensures Run(st, [EscDispatch([], false, 'O' as int), Print(c)]).events == [NewKey(F(n))]
  {
    Ss3Diversion(st, c);
  }

  /** `ESC` followed by any other printable byte is that character with Alt; other escape finals emit nothing. */
  lemma AltCharacter(st: PerformerState, inter: seq<byte>, ignore: bool, b: byte)
    requires b != 'O' as int
    ensures |inter| == 0 && 0x20 <= b <= 0x7E
            ==> Step(st, EscDispatch(inter, ignore, b)) == Output(st, [Key(Char, Some(b as char), false, true, false)])
    ensures !(|inter| == 0 && 0x20 <= b <= 0x7E) ==> Step(st, EscDispatch(inter, ignore, b)) == Output(st, [])
  {
  }

  /** Control bytes outside a paste follow the C0 table; inside a paste they are appended verbatim. */
  lemma ControlBytes(st: PerformerState, b: byte)
    requires !st.pendingSs3
    ensures st.pasteBuffer.None? ==> Step(st, Execute(b)) == Output(st, match ExecuteKey(b) case Some(e) => [e] case None => [])
    ensures st.pasteBuffer.Some? ==> Step(st, Execute(b)) == Output(st.(pasteBuffer := Some(st.pasteBuffer.value + [b as char])), [])
  {
  }
}

=== FILE: scope.dfy ===
/**
  `Vtx::Terminal::Scope`: a builder that switches modes on one by one,
  recording for each the operation that undoes it, and `run`, which yields the
  terminal and then, whether or not the block raised, undoes the recorded
  modes last first and flushes.
 */
module Scope {
  import opened Wrappers
  import TermState
  import Sequences
  import Terminal

  /** The terminal method each builder records: `@restore << :disable_raw_mode`, ... */
  datatype Inverse =
    | DisableRawMode
    | LeaveAlternateScreen
    | DisableMouseCapture
    | DisableBracketedPaste
    | DisableFocusEvents
    | ShowCursor

  datatype Scope = Scope(term: Terminal.Terminal, restore: seq<Inverse>)

  /** `terminal.scoped`. */
  function New(t: Terminal.Terminal): (sc: Scope)
    ensures sc.term == t && sc.restore == []
  {
    Scope(t, [])
  }

  /** `@terminal.send(method)` for a recorded inverse. */
  function Apply(t: Terminal.Terminal, inv: Inverse): Terminal.Terminal {
    match inv
    case DisableRawMode => Terminal.DisableRawMode(t)
    case LeaveAlternateScreen => Terminal.LeaveAlternateScreen(t)
    case DisableMouseCapture => Terminal.DisableMouseCapture(t)
    case DisableBracketedPaste => Terminal.DisableBracketedPaste(t)
    case DisableFocusEvents => Terminal.DisableFocusEvents(t)
    case ShowCursor => Terminal.ShowCursor(t)
  }

  /** The mode an inverse switches off is off (raw mode only changes with a terminal on input). */
  predicate Off(t: Terminal.Terminal, inv: Inverse) {
    match inv
    case DisableRawMode => !t.state.rawMode || !t.inputTty
    case LeaveAlternateScreen => !t.state.alternateScreen
    case DisableMouseCapture => t.state.mouseCapture.None?
    case DisableBracketedPaste => !t.state.bracketedPaste
    case DisableFocusEvents => !t.state.focusEvents
    case ShowCursor => t.state.cursorVisible
  }

  /** Each inverse switches its own mode off and leaves every other mode that is off, off. */
  lemma ApplyTurnsOff(t: Terminal.Terminal, inv: Inverse, other: Inverse)
    ensures Off(Apply(t, inv), inv)
    ensures Off(t, other) ==> Off(Apply(t, inv), other)
    ensures Apply(t, inv).inputTty == t.inputTty && Apply(t, inv).queue == t.queue
  {
  }

  // ---------------------------------------------------------------------
  // Builders: each enables a mode and records exactly one inverse

  function RawMode(sc: Scope): (r: Scope)
    ensures r.term == Terminal.EnableRawMode(sc.term)
    ensures r.restore == sc.restore + [DisableRawMode]
  {
    Scope(Terminal.EnableRawMode(sc.term), sc.restore + [DisableRawMode])
  }

  function AlternateScreen(sc: Scope): (r: Scope)
    ensures r.term == Terminal.EnterAlternateScreen(sc.term)
    ensures r.restore == sc.restore + [LeaveAlternateScreen]
  {
    Scope(Terminal.EnterAlternateScreen(sc.term), sc.restore + [LeaveAlternateScreen])
  }

  function MouseCapture(sc: Scope, mode: TermState.MouseMode := TermState.Normal): (r: Scope)
    ensures r.term == Terminal.EnableMouseCapture(sc.term, mode)
    ensures r.restore == sc.restore + [DisableMouseCapture]
  {
    Scope(Terminal.EnableMouseCapture(sc.term, mode), sc.restore + [DisableMouseCapture])
  }

  function BracketedPaste(sc: Scope): (r: Scope)
    ensures r.term == Terminal.EnableBracketedPaste(sc.term)
    ensures r.restore == sc.restore + [DisableBracketedPaste]
  {
    Scope(Terminal.EnableBracketedPaste(sc.term), sc.restore + [DisableBracketedPaste])
  }

  function FocusEvents(sc: Scope): (r: Scope)
    ensures r.term == Terminal.EnableFocusEvents(sc.term)
    ensures r.restore == sc.restore + [DisableFocusEvents]
  {
    Scope(Terminal.EnableFocusEvents(sc.term), sc.restore + [DisableFocusEvents])
  }

  function HiddenCursor(sc: Scope): (r: Scope)
    ensures r.term == Terminal.HideCursor(sc.term)
    ensures r.restore == sc.restore + [ShowCursor]
  {
    Scope(Terminal.HideCursor(sc.term), sc.restore + [ShowCursor])
  }

  // ---------------------------------------------------------------------
  // run

  /** `@restore.reverse_each { |method| @terminal.send(method) }`: the last recorded inverse first. */
  function ReplayReverse(t: Terminal.Terminal, restore: seq<Inverse>): (r: Terminal.Terminal)
    ensures r.inputTty == t.inputTty && r.queue == t.queue
    decreases |restore|
  {
    if |restore| == 0 then t
    else ReplayReverse(Apply(t, restore[|restore| - 1]), restore[..|restore| - 1])
  }

  /** Replaying `a + b` replays `b` (last first), then `a`. */
  lemma {:induction false} ReplayAppend(t: Terminal.Terminal, a: seq<Inverse>, b: seq<Inverse>)
    ensures ReplayReverse(t, a + b) == ReplayReverse(ReplayReverse(t, b), a)
    decreases |b|
  {
    if |b| == 0 {
      assert a + b == a;
    } else {
      var ab := a + b;
      assert ab[|ab| - 1] == b[|b| - 1];
      assert ab[..|ab| - 1] == a + b[..|b| - 1];
      ReplayAppend(Apply(t, b[|b| - 1]), a, b[..|b| - 1]);
    }
  }

  /** After the replay, every recorded mode is off. */
  lemma {:induction false} ReplayTurnsAllOff(t: Terminal.Terminal, restore: seq<Inverse>)
    ensures forall i :: 0 <= i < |restore| ==> Off(ReplayReverse(t, restore), restore[i])
    decreases |restore|
  {
    if |restore| > 0 {
      var last := restore[|restore| - 1];
      var t1 := Apply(t, last);
      var front := restore[..|restore| - 1];
      ReplayTurnsAllOff(t1, front);
      ReplayKeepsOff(t1, front, last);
      forall i | 0 <= i < |restore|
        ensures Off(ReplayReverse(t, restore), restore[i])
      {
        if i < |restore| - 1 {
          assert restore[i] == front[i];
        }
      }
    }
  }

  /** A mode that is off stays off through a replay. */
  lemma {:induction false} ReplayKeepsOff(t: Terminal.Terminal, restore: seq<Inverse>, inv: Inverse)
    requires Off(t, inv)
    ensures Off(ReplayReverse(t, restore), inv)
    decreases |restore|
  {
    if |restore| > 0 {
      ApplyTurnsOff(t, restore[|restore| - 1], inv);
      ReplayKeepsOff(Apply(t, restore[|restore| - 1]), restore[..|restore| - 1], inv);
    }
  }

  /**
    `run { |terminal| ... }`: the block runs on the scope's terminal; then, in
    `ensure`, the inverses are replayed last first and the terminal flushed.
    The block's outcome, a raise included, is the outcome of `run`.
   */
  function Run(sc: Scope, body: Terminal.Terminal -> Terminal.Completion): (r: Terminal.Completion)
    ensures r.outcome == body(sc.term).outcome
    ensures r.term.buffer == ""
    ensures forall i :: 0 <= i < |sc.restore| ==> Off(r.term, sc.restore[i])
    ensures Terminal.Emitted(r.term) == Terminal.Emitted(ReplayReverse(body(sc.term).term, sc.restore))
  {
    var inner := body(sc.term);
    var replayed := ReplayReverse(inner.term, sc.restore);
    ReplayTurnsAllOff(inner.term, sc.restore);
    forall i | 0 <= i < |sc.restore|
      ensures Off(Terminal.Flush(replayed), sc.restore[i])
    {
    }
    Terminal.Completion(Terminal.Flush(replayed), inner.outcome)
  }

  /** The inverse is recorded even when the mode was already on, so `run` leaves it off. */
  lemma AlreadyOnEndsOff(t: Terminal.Terminal, body: Terminal.Terminal -> Terminal.Completion)
    requires t.state.alternateScreen
    ensures var sc := AlternateScreen(New(t));
      !Run(sc, body).term.state.alternateScreen
  {
    var sc := AlternateScreen(New(t));
    assert sc.restore == [LeaveAlternateScreen];
    assert sc.restore[0] == LeaveAlternateScreen;
  }

  /**
    From a fresh terminal, a scope with the alternate screen and a hidden
    cursor around a block that writes `out` emits enter, hide, `out`, show,
    leave, and ends with the alternate screen off and the cursor visible,
    even when the block raises.
   */
  lemma AlternateScreenHiddenCursor(tty: bool, body: Terminal.Terminal -> Terminal.Completion, out: string)
    requires forall u :: body(u).term == Terminal.Command(u, out)
    ensures var sc := HiddenCursor(AlternateScreen(New(Terminal.New(tty))));
      var r := Run(sc, body);
      && Terminal.Emitted(r.term) == Sequences.ALTERNATE_SCREEN_ENTER + Sequences.CURSOR_HIDE + out
           + Sequences.CURSOR_SHOW + Sequences.ALTERNATE_SCREEN_LEAVE
      && !r.term.state.alternateScreen && r.term.state.cursorVisible
      && r.outcome == body(sc.term).outcome
  {
    var t0 := Terminal.New(tty);
    var sc := HiddenCursor(AlternateScreen(New(t0)));
    var t1 := Terminal.EnterAlternateScreen(t0);
    var t2 := Terminal.HideCursor(t1);
    assert sc.term == t2;
    assert Terminal.Emitted(t0) == "";
    assert Terminal.Emitted(t2) == Sequences.ALTERNATE_SCREEN_ENTER + Sequences.CURSOR_HIDE;
    var u := body(t2).term;
    assert sc.restore == [LeaveAlternateScreen, ShowCursor];
    var u1 := Terminal.ShowCursor(u);
    var u2 := Terminal.LeaveAlternateScreen(u1);
    assert ReplayReverse(u, sc.restore) == u2 by {
      assert sc.restore[..1] == [LeaveAlternateScreen];
      assert [LeaveAlternateScreen][..0] == [];
    }
  }
}

=== FILE: sequences.dfy ===
/**
  `Vtx::Sequences`: the escape-sequence constants and builders the terminal
  writes. Cursor positions are 0-based in the API and 1-based on the wire;
  counts default to 1; OSC strings are framed by `ESC ]` and `ESC \`.

  Each CSI builder is checked against the reader `CsiWire.ParseCsi`, and each
  OSC builder against the reader `ReadOsc` below.
 */
module Sequences {
  import opened Wrappers
  import opened Text
  import CsiWire
  import Color

  const ESC: char := '\U{1B}'
  const BEL: char := '\U{07}'

  const CLEAR := "\U{1B}[2J"
  const CLEAR_BELOW := "\U{1B}[0J"
  const CLEAR_ABOVE := "\U{1B}[1J"
  const CLEAR_LINE := "\U{1B}[2K"
  const CLEAR_LINE_RIGHT := "\U{1B}[0K"
  const CLEAR_LINE_LEFT := "\U{1B}[1K"

  const CURSOR_SHOW := "\U{1B}[?25h"
  const CURSOR_HIDE := "\U{1B}[?25l"
  const CURSOR_SAVE := "\U{1B}[s"
  const CURSOR_RESTORE := "\U{1B}[u"
  const CURSOR_HOME := "\U{1B}[H"

  const ALTERNATE_SCREEN_ENTER := "\U{1B}[?1049h"
  const ALTERNATE_SCREEN_LEAVE := "\U{1B}[?1049l"
  const BRACKETED_PASTE_ENABLE := "\U{1B}[?2004h"
  const BRACKETED_PASTE_DISABLE := "\U{1B}[?2004l"
  const FOCUS_EVENTS_ENABLE := "\U{1B}[?1004h"
  const FOCUS_EVENTS_DISABLE := "\U{1B}[?1004l"
  const SYNC_OUTPUT_ENABLE := "\U{1B}[?2026h"
  const SYNC_OUTPUT_DISABLE := "\U{1B}[?2026l"

  const MOUSE_NORMAL_ENABLE := "\U{1B}[?1000h\U{1B}[?1006h"
  const MOUSE_NORMAL_DISABLE := "\U{1B}[?1000l\U{1B}[?1006l"
  const MOUSE_BUTTON_ENABLE := "\U{1B}[?1002h\U{1B}[?1006h"
  const MOUSE_BUTTON_DISABLE := "\U{1B}[?1002l\U{1B}[?1006l"
  const MOUSE_ALL_ENABLE := "\U{1B}[?1003h\U{1B}[?1006h"
  const MOUSE_ALL_DISABLE := "\U{1B}[?1003l\U{1B}[?1006l"

  const RESET_STYLE := "\U{1B}[0m"
  const BOLD := "\U{1B}[1m"
  const DIM := "\U{1B}[2m"
  const ITALIC := "\U{1B}[3m"
  const UNDERLINE := "\U{1B}[4m"
  const BLINK := "\U{1B}[5m"
  const REVERSE := "\U{1B}[7m"
  const HIDDEN := "\U{1B}[8m"
  const STRIKETHROUGH := "\U{1B}[9m"

  const BELL := "\U{07}"

  /** The style constants are the one-code SGR sequences of their attribute. */
  lemma StyleConstantsAreSgr()
    ensures CsiWire.ParseCsi(RESET_STYLE) == Some(CsiWire.Csi([0], 'm'))
    ensures CsiWire.ParseCsi(BOLD) == Some(CsiWire.Csi([1], 'm'))
    ensures CsiWire.ParseCsi(STRIKETHROUGH) == Some(CsiWire.Csi([9], 'm'))
    ensures CsiWire.ParseCsi(CLEAR) == Some(CsiWire.Csi([2], 'J'))
  {
    CsiWire.RenderRoundTrip(CsiWire.Csi([0], 'm'));
    CsiWire.RenderRoundTrip(CsiWire.Csi([1], 'm'));
    CsiWire.RenderRoundTrip(CsiWire.Csi([9], 'm'));
    CsiWire.RenderRoundTrip(CsiWire.Csi([2], 'J'));
    assert CsiWire.Render(CsiWire.Csi([0], 'm')) == RESET_STYLE;
    assert CsiWire.Render(CsiWire.Csi([1], 'm')) == BOLD;
    assert CsiWire.Render(CsiWire.Csi([9], 'm')) == STRIKETHROUGH;
    assert CsiWire.Render(CsiWire.Csi([2], 'J')) == CLEAR;
  }

  // ---------------------------------------------------------------------
  // CSI builders

  /** `"\e[#{a}#{final}"` written out, one number then a final. */
  function Csi1(a: int, final: char): string {
    "\U{1B}[" + IntToString(a) + [final]
  }

  /** `"\e[#{a};#{b}#{final}"` written out. */
  function Csi2(a: int, b: int, final: char): string {
    "\U{1B}[" + IntToString(a) + ";" + IntToString(b) + [final]
  }

  lemma Csi1Reads(a: int, final: char)
    requires CsiWire.IsFinal(final)
    ensures CsiWire.ParseCsi(Csi1(a, final)) == Some(CsiWire.Csi([a], final))
  {
    CsiWire.RenderRoundTrip(CsiWire.Csi([a], final));
    assert CsiWire.Render(CsiWire.Csi([a], final)) == Csi1(a, final);
  }

  lemma Csi2Reads(a: int, b: int, final: char)
    requires CsiWire.IsFinal(final)
    ensures CsiWire.ParseCsi(Csi2(a, b, final)) == Some(CsiWire.Csi([a, b], final))
  {
    CsiWire.RenderRoundTrip(CsiWire.Csi([a, b], final));
    Csi2Renders(a, b, final);
  }

  lemma Csi2Renders(a: int, b: int, final: char)
    ensures CsiWire.Render(CsiWire.Csi([a, b], final)) == Csi2(a, b, final)
  {
    JoinTwo(a, b);
    var x, y := IntToString(a), IntToString(b);
    assert "\U{1B}[" + (x + ";" + y) + [final] == "\U{1B}[" + x + ";" + y + [final];
  }

  lemma JoinTwo(a: int, b: int)
    ensures JoinInts([a, b], ";") == IntToString(a) + ";" + IntToString(b)
  {
    assert [a, b][1..] == [b];
  }

  /** `move_to(row, col)`: the terminal reads the 1-based position `row + 1; col + 1` with final `H`. */
  function MoveTo(row: int, col: int): (r: string)
    ensures CsiWire.ParseCsi(r) == Some(CsiWire.Csi([row + 1, col + 1], 'H'))
  {
    Csi2Reads(row + 1, col + 1, 'H');
    Csi2(row + 1, col + 1, 'H')
  }

  /** `move_to_column(col)`: `col + 1` with final `G`. */
  function MoveToColumn(col: int): (r: string)
    ensures CsiWire.ParseCsi(r) == Some(CsiWire.Csi([col + 1], 'G'))
  {
    Csi1Reads(col + 1, 'G');
    Csi1(col + 1, 'G')
  }

  /** `move_to_row(row)`: `row + 1` with final `d`. */
  function MoveToRow(row: int): (r: string)
    ensures CsiWire.ParseCsi(r) == Some(CsiWire.Csi([row + 1], 'd'))
  {
    Csi1Reads(row + 1, 'd');
    Csi1(row + 1, 'd')
  }

  /** `scroll_region(top, bottom)`: `top + 1; bottom + 1` with final `r`. */
  function ScrollRegion(top: int, bottom: int): (r: string)
    ensures CsiWire.ParseCsi(r) == Some(CsiWire.Csi([top + 1, bottom + 1], 'r'))
  {
    Csi2Reads(top + 1, bottom + 1, 'r');
    Csi2(top + 1, bottom + 1, 'r')
  }

  /** `reset_scroll_region`: final `r` with no parameter. */
  const RESET_SCROLL_REGION := "\U{1B}[r"

  lemma ResetScrollRegionReads()
    ensures CsiWire.ParseCsi(RESET_SCROLL_REGION) == Some(CsiWire.Csi([], 'r'))
  {
  }

  /** The count-taking builders, each identified by its final character. */
  datatype CountOp =
    | MoveUp | MoveDown | MoveForward | MoveBack | MoveToNextLine | MoveToPrevLine
    | ScrollUp | ScrollDown | InsertLines | DeleteLines | InsertChars | DeleteChars | EraseChars

  function CountFinal(op: CountOp): (c: char)
    ensures CsiWire.IsFinal(c)
  {
    match op
    case MoveUp => 'A'
    case MoveDown => 'B'
    case MoveForward => 'C'
    case MoveBack => 'D'
    case MoveToNextLine => 'E'
    case MoveToPrevLine => 'F'
    case ScrollUp => 'S'
    case ScrollDown => 'T'
    case InsertLines => 'L'
    case DeleteLines => 'M'
    case InsertChars => '@'
    case DeleteChars => 'P'
    case EraseChars => 'X'
  }

  /** `move_up(n = 1)`, `scroll_down(n = 1)`, `erase_chars(n = 1)`, ...: the count `n` as given. */
  function Count(op: CountOp, n: int := 1): (r: string)
    ensures CsiWire.ParseCsi(r) == Some(CsiWire.Csi([n], CountFinal(op)))
  {
    Csi1Reads(n, CountFinal(op));
    Csi1(n, CountFinal(op))
  }

  /** Different builders never produce the same string: the final identifies the operation. */
  lemma CountOpsDistinct(op1: CountOp, op2: CountOp, n1: int, n2: int)
    ensures Count(op1, n1) == Count(op2, n2) ==> op1 == op2 && n1 == n2
  {
  }

  /** The default count is 1: `move_up` is `"\e[1A"`. */
  lemma DefaultCount()
    ensures Count(MoveUp) == "\U{1B}[1A"
    ensures Count(EraseChars) == "\U{1B}[1X"
  {
  }

  /** `move_to(0, 0)` is `"\e[1;1H"`. */
  lemma MoveToOrigin()
    ensures MoveTo(0, 0) == "\U{1B}[1;1H"
  {
    MoveToText(0, 0, "1", "1");
  }

  /** `move_to(4, 9)` is `"\e[5;10H"`. */
  lemma MoveToFiveTen()
    ensures MoveTo(4, 9) == "\U{1B}[5;10H"
  {
    assert NatToString(10) == "10";
    MoveToText(4, 9, "5", "10");
  }

  lemma MoveToText(row: nat, col: nat, x: string, y: string)
    requires NatToString(row + 1) == x && NatToString(col + 1) == y
    ensures MoveTo(row, col) == "\U{1B}[" + x + ";" + y + "H"
  {
  }

  // ---------------------------------------------------------------------
  // OSC builders

  /** An operating-system command: `ESC ] body ESC \`. */
  function Osc(body: string): string {
    "\U{1B}]" + body + "\U{1B}\\"
  }

  /** Index of the first ESC or BEL in `s`: where a terminal stops reading an OSC body. */
  function FirstTerminator(s: string): (r: Option<nat>)
    ensures r.Some? ==> r.value < |s| && (s[r.value] == ESC || s[r.value] == BEL)
    ensures r.Some? ==> forall i :: 0 <= i < r.value ==> s[i] != ESC && s[i] != BEL
    ensures r.None? <==> forall i :: 0 <= i < |s| ==> s[i] != ESC && s[i] != BEL
  {
    if |s| == 0 then None
    else if s[0] == ESC || s[0] == BEL then Some(0)
    else match FirstTerminator(s[1..])
      case None => None
      case Some(i) => Some(i + 1)
  }

  /**
    How a terminal reads a string that should be exactly one OSC: the body
    runs to the first ESC or BEL, which must be the `ESC \` ending the string.
   */
  function ReadOsc(s: string): Option<string> {
    if |s| < 2 || s[..2] != "\U{1B}]" then None
    else
      var rest := s[2..];
      match FirstTerminator(rest)
      case None => None
      case Some(k) =>
        if rest[k..] == "\U{1B}\\" then Some(rest[..k]) else None
  }

  /** No ESC or BEL in `s`: nothing in it ends an OSC. */
  predicate Unterminated(s: string) {
    forall i :: 0 <= i < |s| ==> s[i] != ESC && s[i] != BEL
  }

  lemma UnterminatedConcat(a: string, b: string)
    ensures Unterminated(a + b) <==> Unterminated(a) && Unterminated(b)
  {
    if Unterminated(a + b) {
      forall i | 0 <= i < |a| ensures a[i] != ESC && a[i] != BEL {
        assert (a + b)[i] == a[i];
      }
      forall i | 0 <= i < |b| ensures b[i] != ESC && b[i] != BEL {
        assert (a + b)[|a| + i] == b[i];
      }
    }
    if Unterminated(a) && Unterminated(b) {
      forall i | 0 <= i < |a + b| ensures (a + b)[i] != ESC && (a + b)[i] != BEL {
        if i >= |a| {
          assert (a + b)[i] == b[i - |a|];
        }
      }
    }
  }

  /** A body free of ESC and BEL is read back whole. */
  lemma ReadOscFramed(body: string)
    requires Unterminated(body)
    ensures ReadOsc(Osc(body)) == Some(body)
  {
    var s := Osc(body);
    var rest := s[2..];
    assert rest == body + "\U{1B}\\";
    var t := FirstTerminator(rest);
    assert rest[|body|] == ESC;
    if t.None? {
      assert false;
    }
    assert t.value == |body|;
    assert rest[..|body|] == body;
  }

  /** A body containing ESC or BEL cannot be framed: the terminal ends the OSC early. */
  lemma ReadOscCutShort(body: string, i: nat)
    requires i < |body| && (body[i] == ESC || body[i] == BEL)
    ensures ReadOsc(Osc(body)) != Some(body)
  {
    var s := Osc(body);
    var rest := s[2..];
    assert rest == body + "\U{1B}\\";
    assert rest[i] == body[i];
    var t := FirstTerminator(rest);
    assert t.Some?;
    assert t.value <= i;
  }

  /** An OSC is read back as its body exactly when the body holds no ESC or BEL. */
  lemma ReadOscExact(body: string)
    ensures ReadOsc(Osc(body)) == Some(body) <==> Unterminated(body)
  {
    if Unterminated(body) {
      ReadOscFramed(body);
    } else {
      var i :| 0 <= i < |body| && (body[i] == ESC || body[i] == BEL);
      ReadOscCutShort(body, i);
    }
  }

  /** The two text commands: the window title (OSC 2) and the icon name (OSC 1). */
  datatype TextKind = WindowTitle | IconTitle

  /** The OSC code of a text command, with its `;`. */
  function TextPrefix(k: TextKind): string {
    match k
    case WindowTitle => "2;"
    case IconTitle => "1;"
  }

  /**
    The builder behind `title` and `icon_name`: the command's code and the
    text as given, which a terminal reads back whole only when the text holds
    no ESC or BEL.
   */
  function OscText(k: TextKind, str: string): (r: string)
    ensures r == Osc(TextPrefix(k) + str)
    ensures ReadOsc(r) == Some(TextPrefix(k) + str) <==> Unterminated(str)
  {
    ReadOscExact(TextPrefix(k) + str);
    UnterminatedConcat(TextPrefix(k), str);
    "\U{1B}]" + TextPrefix(k) + str + "\U{1B}\\"
  }

  /** `title(str)`. */
  function Title(str: string): string {
    OscText(WindowTitle, str)
  }

  /** `icon_name(str)`. */
  function IconName(str: string): string {
    OscText(IconTitle, str)
  }

  /** `id ? "id=#{id}" : ""`. */
  function IdParam(id: Option<string>): string {
    match id
    case None => ""
    case Some(v) => "id=" + v
  }

  /** `hyperlink_start(url, id:)`: OSC 8 with the id parameter, then the URL. */
  function HyperlinkStart(url: string, id: Option<string>): (r: string)
    ensures r == Osc("8;" + IdParam(id) + ";" + url)
    ensures ReadOsc(r) == Some("8;" + IdParam(id) + ";" + url) <==> Unterminated(IdParam(id)) && Unterminated(url)
  {
    HyperlinkReads(IdParam(id), url);
    Osc("8;" + IdParam(id) + ";" + url)
  }

  lemma HyperlinkReads(params: string, url: string)
    ensures ReadOsc(Osc("8;" + params + ";" + url)) == Some("8;" + params + ";" + url)
            <==> Unterminated(params) && Unterminated(url)
  {
    ReadOscExact("8;" + params + ";" + url);
    UnterminatedConcat("8;" + params, ";" + url);
    UnterminatedConcat("8;", params);
    UnterminatedConcat(";", url);
    assert "8;" + params + ";" + url == ("8;" + params) + (";" + url);
  }

  /** `hyperlink_end`: OSC 8 with empty parameters and URL. */
  const HYPERLINK_END := "\U{1B}]8;;\U{1B}\\"

  /** `hyperlink(url, text, id:)`, written out in one string. */
  function Hyperlink(url: string, text: string, id: Option<string>): string {
    "\U{1B}]8;" + IdParam(id) + ";" + url + "\U{1B}\\" + text + "\U{1B}]8;;\U{1B}\\"
  }

  /** A hyperlink is its start, the text, then its end. */
  lemma HyperlinkComposes(url: string, text: string, id: Option<string>)
    ensures Hyperlink(url, text, id) == HyperlinkStart(url, id) + text + HYPERLINK_END
  {
    assert "\U{1B}]8;" == "\U{1B}]" + "8;";
    Regroup("\U{1B}]", "8;", "\U{1B}]8;", IdParam(id), url, "\U{1B}\\", text, HYPERLINK_END);
  }

  /** Moving the OSC introducer's `8;` into the body regroups the hyperlink's pieces. */
  lemma Regroup(intro: string, code: string, joined: string, params: string, url: string, st: string, text: string, end: string)
    requires joined == intro + code
    ensures joined + params + ";" + url + st + text + end == intro + (code + params + ";" + url) + st + text + end
  {
  }

  /** `notify(title, body:)`: OSC 777, adding `;body` only when a body is given. */
  function Notify(title: string, body: Option<string>): (r: string)
    ensures body.None? ==> r == Osc("777;notify;" + title)
    ensures body.Some? ==> r == Osc("777;notify;" + title + ";" + body.value)
    ensures body.None? ==> (ReadOsc(r) == Some("777;notify;" + title) <==> Unterminated(title))
  {
    PrefixedReads("777;notify;", title);
    match body
    case None => Osc("777;notify;" + title)
    case Some(b) => Osc("777;notify;" + title + ";" + b)
  }

  /** Behind a prefix free of ESC and BEL, a body is read back whole iff it has neither. */
  lemma PrefixedReads(prefix: string, s: string)
    requires Unterminated(prefix)
    ensures ReadOsc(Osc(prefix + s)) == Some(prefix + s) <==> Unterminated(s)
  {
    ReadOscExact(prefix + s);
    UnterminatedConcat(prefix, s);
  }

  /** The `target:` of the clipboard builders. */
  datatype ClipboardTarget = Clipboard | Primary | Both | OtherTarget(name: string)

  /** The selection letters `copy_to_clipboard` writes here: both is `cp`. */
  function TargetCode(target: ClipboardTarget): (code: string)
    ensures code == "p" <==> target == Primary
    ensures code == "cp" <==> target == Both
    ensures code == "c" <==> target.Clipboard? || target.OtherTarget?
  {
    match target
    case Clipboard => "c"
    case Primary => "p"
    case Both => "cp"
    case OtherTarget(_) => "c"
  }

  /**
    `copy_to_clipboard(text, target:)`: OSC 52 with the selection letters and
    the Base64 of the text; `encode` stands for `[text].pack("m0")`.
   */
  function CopyToClipboard(text: string, target: ClipboardTarget, encode: string -> string): (r: string)
    ensures r == Osc("52;" + TargetCode(target) + ";" + encode(text))
    ensures ReadOsc(r) == Some("52;" + TargetCode(target) + ";" + encode(text)) <==> Unterminated(encode(text))
  {
    assert Unterminated("52;" + TargetCode(target) + ";");
    PrefixedReads("52;" + TargetCode(target) + ";", encode(text));
    Osc("52;" + TargetCode(target) + ";" + encode(text))
  }

  // ---------------------------------------------------------------------
  // Colour sequences

  /** `"\e[#{codes.join(";")}m"` unless there is no code. */
  function Sgr(codes: seq<int>): (r: string)
    ensures r == "" <==> codes == []
    ensures codes != [] ==> CsiWire.ParseCsi(r) == Some(CsiWire.Csi(codes, 'm'))
  {
    if codes == [] then ""
    else
      CsiWire.RenderRoundTrip(CsiWire.Csi(codes, 'm'));
      "\U{1B}[" + JoinInts(codes, ";") + "m"
  }

  /** `foreground(color)`: the colour's foreground codes as one SGR, or `""` when it has none. */
  function Foreground(color: Color.ColorValue): (r: string)
    ensures r == "" <==> Color.Parse(color, true) == []
    ensures r != "" ==> CsiWire.ParseCsi(r) == Some(CsiWire.Csi(Color.Parse(color, true), 'm'))
  {
    Sgr(Color.Parse(color, true))
  }

  /** `background(color)`: the colour's background codes as one SGR, or `""` when it has none. */
  function Background(color: Color.ColorValue): (r: string)
    ensures r == "" <==> Color.Parse(color, false) == []
    ensures r != "" ==> CsiWire.ParseCsi(r) == Some(CsiWire.Csi(Color.Parse(color, false), 'm'))
  {
    Sgr(Color.Parse(color, false))
  }

  /** `foreground(:red)` is `"\e[31m"`. */
  lemma ColorExamples()
    ensures Foreground(Color.Sym("red")) == "\U{1B}[31m"
  {
    assert "red" in Color.BASIC;
    assert Color.Parse(Color.Sym("red"), true) == [31];
    assert NatToString(31) == "31";
  }

  /** An integer colour from 16 up is the 256-colour form: `background(196)` is `"\e[48;5;196m"`. */
  lemma BackgroundExtended(n: int)
    requires n >= 16
    ensures Background(Color.Int(n)) == "\U{1B}[48;5;" + IntToString(n) + "m"
  {
    assert Background(Color.Int(n)) == Sgr([48, 5, n]);
    SgrThree(48, 5, n);
    SmallDigits();
    ExtendedText(IntToString(n));
  }

  lemma SmallDigits()
    ensures IntToString(48) == "48" && IntToString(5) == "5"
  {
  }

  lemma ExtendedText(x: string)
    ensures "\U{1B}[" + ("48" + ";" + ("5" + ";" + x)) + "m" == "\U{1B}[48;5;" + x + "m"
  {
  }

  /** Three codes as one SGR. */
  lemma SgrThree(a: int, b: int, c: int)
    ensures Sgr([a, b, c]) == "\U{1B}[" + (IntToString(a) + ";" + (IntToString(b) + ";" + IntToString(c))) + "m"
  {
    SgrBody([a, b, c]);
    JoinThree(a, b, c);
  }

  lemma SgrBody(codes: seq<int>)
    requires codes != []
    ensures Sgr(codes) == "\U{1B}[" + JoinInts(codes, ";") + "m"
  {
  }

  lemma JoinThree(a: int, b: int, c: int)
    ensures JoinInts([a, b, c], ";") == IntToString(a) + ";" + (IntToString(b) + ";" + IntToString(c))
  {
    assert [a, b, c][1..] == [b, c];
    assert [b, c][1..] == [c];
  }
}

=== FILE: style.dfy ===
/**
  `Vtx::Style`: a value holding a foreground, a background and eight boolean
  attributes, rendered as one SGR sequence. Chained setters, `merge`, `dup`,
  `to_s`, `wrap` and `empty?`.
 */
module Style {
  import opened Wrappers
  import opened Text
  import Color
  import CsiWire

  /** The eight boolean attributes, in the order `to_s` emits them. */
  datatype Attr = Bold | Dim | Italic | Underline | Blink | Reverse | Hidden | Strikethrough

  const ALL_ATTRS: seq<Attr> := [Bold, Dim, Italic, Underline, Blink, Reverse, Hidden, Strikethrough]

  /** The SGR code `to_s` writes for an attribute (6 is not used). */
  function SgrCode(a: Attr): (code: nat)
    ensures 1 <= code <= 9 && code != 6
  {
    match a
    case Bold => 1
    case Dim => 2
    case Italic => 3
    case Underline => 4
    case Blink => 5
    case Reverse => 7
    case Hidden => 8
    case Strikethrough => 9
  }

  /**
    A style: colours are `nil` (`None`) or a colour value; the eight boolean
    attributes are represented by the set of those that are on.
   */
  datatype Style = Style(
    foreground: Option<Color.ColorValue>,
    background: Option<Color.ColorValue>,
    on: set<Attr>)

  /** `Style.new` with no arguments. */
  const Default := Style(None, None, {})

  /**
    Whether an attribute is on: the instance variable `@bold`, `@dim`, ...
    There is no public reader: the methods of those names are the setters
    below, and `bold` with no argument turns bold on.
   */
  predicate Flag(s: Style, a: Attr) {
    a in s.on
  }

  /**
    The attribute setters (`bold(value = true)`, `dim`, ...): the named
    attribute takes the value and nothing else changes.
   */
  function WithFlag(s: Style, a: Attr, value: bool): (r: Style)
    ensures Flag(r, a) == value
    ensures forall b :: b != a ==> Flag(r, b) == Flag(s, b)
    ensures r.foreground == s.foreground && r.background == s.background
  {
    s.(on := if value then s.on + {a} else s.on - {a})
  }

  /** The setter called without an argument turns the attribute on. */
  function Set(s: Style, a: Attr): Style {
    WithFlag(s, a, true)
  }

  /** `foreground(color)`. */
  function WithForeground(s: Style, color: Option<Color.ColorValue>): (r: Style)
    ensures r.foreground == color && r.background == s.background
    ensures forall a :: Flag(r, a) == Flag(s, a)
  {
    s.(foreground := color)
  }

  /** `background(color)`. */
  function WithBackground(s: Style, color: Option<Color.ColorValue>): (r: Style)
    ensures r.background == color && r.foreground == s.foreground
    ensures forall a :: Flag(r, a) == Flag(s, a)
  {
    s.(background := color)
  }

  /** Setting an attribute and reading it back gives the value set; other attributes read as before. */
  lemma SetterReadBack(s: Style, a: Attr, b: Attr, value: bool)
    ensures Flag(WithFlag(s, a, value), b) == if a == b then value else Flag(s, b)
  {
  }

  /** Setting the same attribute twice keeps only the second value. */
  lemma SetterOverwrites(s: Style, a: Attr, v1: bool, v2: bool)
    ensures WithFlag(WithFlag(s, a, v1), a, v2) == WithFlag(s, a, v2)
  {
  }

  /** Two setters on different attributes commute. */
  lemma SettersCommute(s: Style, a: Attr, b: Attr, va: bool, vb: bool)
    requires a != b
    ensures WithFlag(WithFlag(s, a, va), b, vb) == WithFlag(WithFlag(s, b, vb), a, va)
  {
  }

  // ---------------------------------------------------------------------
  // Rendering

  lemma SgrCodeInjective(a: Attr, b: Attr)
    ensures SgrCode(a) == SgrCode(b) ==> a == b
  {
  }

  /** The codes of the attributes among `attrs` that are on, in the order of `attrs`. */
  function CodesOf(on: set<Attr>, attrs: seq<Attr>): (codes: seq<int>)
    ensures |codes| <= |attrs|
  {
    if |attrs| == 0 then []
    else (if attrs[0] in on then [SgrCode(attrs[0]) as int] else []) + CodesOf(on, attrs[1..])
  }

  /** An attribute's code is among the codes exactly when the attribute is listed and on. */
  lemma {:induction false} CodesOfMembership(on: set<Attr>, attrs: seq<Attr>, a: Attr)
    ensures SgrCode(a) as int in CodesOf(on, attrs) <==> a in attrs && a in on
  {
    if |attrs| > 0 {
      CodesOfMembership(on, attrs[1..], a);
      SgrCodeInjective(a, attrs[0]);
      assert attrs == [attrs[0]] + attrs[1..];
    }
  }

  /** Every code belongs to an attribute that is listed and on. */
  lemma {:induction false} CodesOfOnly(on: set<Attr>, attrs: seq<Attr>)
    ensures forall c :: c in CodesOf(on, attrs) ==> exists a :: a in on && a in attrs && c == SgrCode(a) as int
  {
    if |attrs| > 0 {
      CodesOfOnly(on, attrs[1..]);
      forall c | c in CodesOf(on, attrs)
        ensures exists a :: a in on && a in attrs && c == SgrCode(a) as int
      {
        if c !in CodesOf(on, attrs[1..]) {
          assert attrs[0] in on && c == SgrCode(attrs[0]) as int;
        } else {
          var a :| a in on && a in attrs[1..] && c == SgrCode(a) as int;
          assert a in attrs;
        }
      }
    }
  }

  /** Every code is above `lo` when every listed attribute's code is. */
  lemma {:induction false} CodesOfAbove(on: set<Attr>, attrs: seq<Attr>, lo: int)
    requires forall k :: 0 <= k < |attrs| ==> SgrCode(attrs[k]) > lo
    ensures forall i :: 0 <= i < |CodesOf(on, attrs)| ==> CodesOf(on, attrs)[i] > lo
  {
    if |attrs| > 0 {
      CodesOfAbove(on, attrs[1..], lo);
    }
  }

  /** Attributes listed in increasing code order give codes in increasing order. */
  lemma {:induction false} CodesOfIncreasing(on: set<Attr>, attrs: seq<Attr>)
    requires forall i, j :: 0 <= i < j < |attrs| ==> SgrCode(attrs[i]) < SgrCode(attrs[j])
    ensures forall i, j :: 0 <= i < j < |CodesOf(on, attrs)| ==> CodesOf(on, attrs)[i] < CodesOf(on, attrs)[j]
  {
    if |attrs| > 0 {
      CodesOfIncreasing(on, attrs[1..]);
      CodesOfAbove(on, attrs[1..], SgrCode(attrs[0]));
    }
  }

  /** The leading codes of `to_s`: 1, 2, 3, 4, 5, 7, 8, 9 for the attributes that are on, ascending. */
  function AttrCodes(s: Style): (codes: seq<int>)
    ensures forall a :: SgrCode(a) as int in codes <==> Flag(s, a)
    ensures forall c :: c in codes ==> exists a :: Flag(s, a) && c == SgrCode(a) as int
    ensures forall i, j :: 0 <= i < j < |codes| ==> codes[i] < codes[j]
    ensures |codes| <= 8
  {
    var codes := CodesOf(s.on, ALL_ATTRS);
    CodesOfOnly(s.on, ALL_ATTRS);
    forall a
      ensures SgrCode(a) as int in codes <==> Flag(s, a)
    {
      CodesOfMembership(s.on, ALL_ATTRS, a);
    }
    CodesOfIncreasing(s.on, ALL_ATTRS);
    codes
  }

  /** The colour codes of one register: none when the colour is `nil`. */
  function ColorCodes(color: Option<Color.ColorValue>, foreground: bool): seq<int> {
    match color
    case None => []
    case Some(c) => Color.Parse(c, foreground)
  }

  /** All SGR codes of `to_s`: attributes, then foreground, then background. */
  function Codes(s: Style): seq<int> {
    AttrCodes(s) + ColorCodes(s.foreground, true) + ColorCodes(s.background, false)
  }

  /** `to_s`: the empty string when there is no code, one SGR sequence otherwise. */
  function ToS(s: Style): (r: string)
    ensures r == "" <==> Codes(s) == []
    ensures r != "" ==> CsiWire.ParseCsi(r) == Some(CsiWire.Csi(Codes(s), 'm'))
  {
    var codes := Codes(s);
    if codes == [] then ""
    else
      var r := CsiWire.Render(CsiWire.Csi(codes, 'm'));
      CsiWire.RenderRoundTrip(CsiWire.Csi(codes, 'm'));
      r
  }

  /** `empty?`: no attribute on and both colours `nil`. */
  predicate IsEmpty(s: Style) {
    s.on == {} && s.foreground.None? && s.background.None?
  }

  /** An empty style renders as nothing. */
  lemma EmptyRendersNothing(s: Style)
    requires IsEmpty(s)
    ensures ToS(s) == ""
  {
    assert CodesOf({}, ALL_ATTRS) == [];
  }

  /** The converse fails: a colour that parses to no code is not `empty?` yet renders as nothing. */
  lemma NotEmptyButRendersNothing()
    ensures var s := WithForeground(Default, Some(Color.Sym("no_such_color")));
      !IsEmpty(s) && ToS(s) == ""
  {
    var s := WithForeground(Default, Some(Color.Sym("no_such_color")));
    UnknownColorNoCodes();
    NoAttrCodes(s);
    assert Codes(s) == [];
  }

  lemma UnknownColorNoCodes()
    ensures Color.Parse(Color.Sym("no_such_color"), true) == []
  {
    assert "no_such_color" !in Color.BASIC && "no_such_color" !in Color.BRIGHT;
  }

  lemma NoAttrCodes(s: Style)
    requires s.on == {}
    ensures AttrCodes(s) == []
  {
    CodesOfNone({}, ALL_ATTRS);
  }

  /** No listed attribute is on: no codes. */
  lemma {:induction false} CodesOfNone(on: set<Attr>, attrs: seq<Attr>)
    requires forall k :: 0 <= k < |attrs| ==> attrs[k] !in on
    ensures CodesOf(on, attrs) == []
  {
    if |attrs| > 0 {
      CodesOfNone(on, attrs[1..]);
    }
  }

  /** With one attribute on, the codes are that attribute's code alone. */
  lemma {:induction false} CodesOfSingle(a: Attr, attrs: seq<Attr>)
    requires forall i, j :: 0 <= i < j < |attrs| ==> SgrCode(attrs[i]) < SgrCode(attrs[j])
    ensures CodesOf({a}, attrs) == if a in attrs then [SgrCode(a) as int] else []
  {
    if |attrs| > 0 {
      if attrs[0] == a {
        CodesOfNone({a}, attrs[1..]);
      } else {
        CodesOfSingle(a, attrs[1..]);
        assert a in attrs <==> a in attrs[1..];
      }
    }
  }

  /** A style whose only setting is an attribute renders as that attribute's single code. */
  lemma SingleAttribute(a: Attr)
    ensures ToS(Set(Default, a)) == "\U{1B}[" + NatToString(SgrCode(a)) + "m"
  {
    var s := Set(Default, a);
    SingleAttrCodes(a);
    UncolouredCodes(s);
    RenderOne(s, SgrCode(a));
  }

  lemma SingleAttrCodes(a: Attr)
    ensures AttrCodes(Set(Default, a)) == [SgrCode(a) as int]
  {
    assert Set(Default, a).on == {a};
    assert a in ALL_ATTRS;
    CodesOfSingle(a, ALL_ATTRS);
  }

  /** Without colours, the codes are the attribute codes alone. */
  lemma UncolouredCodes(s: Style)
    requires s.foreground.None? && s.background.None?
    ensures Codes(s) == AttrCodes(s)
  {
    assert AttrCodes(s) + [] + [] == AttrCodes(s);
  }

  lemma RenderOne(s: Style, c: nat)
    requires Codes(s) == [c]
    ensures ToS(s) == "\U{1B}[" + NatToString(c) + "m"
  {
  }

  /** `wrap(str)`: the style's sequence, the text, then a reset. */
  function Wrap(s: Style, str: string): (r: string)
    ensures |r| == |ToS(s)| + |str| + 4
    ensures r[..|ToS(s)|] == ToS(s) && r[|ToS(s)|..|ToS(s)| + |str|] == str
    ensures r[|r| - 4..] == "\U{1B}[0m"
  {
    ToS(s) + str + "\U{1B}[0m"
  }

  // ---------------------------------------------------------------------
  // merge and dup

  /**
    The keyword arguments of `merge` / `new`: for each colour, absent or given
    (possibly as `nil`); for the attributes, a value for each key given.
   */
  datatype Options = Options(
    foreground: Option<Option<Color.ColorValue>>,
    background: Option<Option<Color.ColorValue>>,
    flags: map<Attr, bool>)

  const NoOptions := Options(None, None, map[])

  /** `merge(**options)`: each field takes the option when given (`fetch`) and keeps its value otherwise. */
  function Merge(s: Style, o: Options): (r: Style)
    ensures forall a :: Flag(r, a) == if a in o.flags then o.flags[a] else Flag(s, a)
    ensures r.foreground == o.foreground.GetOr(s.foreground)
    ensures r.background == o.background.GetOr(s.background)
  {
    var on := set a: Attr | (if a in o.flags then o.flags[a] else a in s.on);
    Style(o.foreground.GetOr(s.foreground), o.background.GetOr(s.background), on)
  }

  /** `Style.new(**options)`: the defaults are `nil` colours and attributes off. */
  function New(o: Options): (r: Style)
    ensures forall a :: Flag(r, a) <==> a in o.flags && o.flags[a]
    ensures r.foreground == o.foreground.GetOr(None) && r.background == o.background.GetOr(None)
  {
    Merge(Default, o)
  }

  /** `dup`: a style equal field for field. */
  function Dup(s: Style): (r: Style)
    ensures forall a :: Flag(r, a) == Flag(s, a)
    ensures r.foreground == s.foreground && r.background == s.background
  {
    Style(s.foreground, s.background, s.on)
  }

  /** Two styles agreeing on every attribute and both colours are the same value. */
  lemma Extensionality(s: Style, t: Style)
    requires forall a :: Flag(s, a) == Flag(t, a)
    requires s.foreground == t.foreground && s.background == t.background
    ensures s == t
  {
    forall a
      ensures a in s.on <==> a in t.on
    {
      assert Flag(s, a) == Flag(t, a);
    }
  }

  // ---------------------------------------------------------------------
  // `==`

  /** The names in `ATTRIBUTES`, in their order: the two colours, then the eight flags. */
  datatype Name = ForegroundName | BackgroundName | FlagName(attr: Attr)

  const ATTRIBUTE_NAMES: seq<Name> := [ForegroundName, BackgroundName, FlagName(Bold), FlagName(Dim),
    FlagName(Italic), FlagName(Underline), FlagName(Blink), FlagName(Reverse), FlagName(Hidden), FlagName(Strikethrough)]

  /** Ruby's `ArgumentError` for a call with too few arguments. */
  datatype CallError = ArgumentError

  /**
    `public_send(name)` with no argument. `foreground` and `background`,
    defined after `attr_reader`, replace the readers and take a required
    colour, so the call raises. A flag method defaults its value to true, so
    the call is a setter: it turns the flag on and returns the receiver.
   */
  function SendWithoutArgument(s: Style, n: Name): (r: Result<Style, CallError>)
    ensures r.Err? <==> !n.FlagName?
    ensures r.Ok? ==> Flag(r.value, n.attr) && r.value.foreground == s.foreground && r.value.background == s.background
    ensures r.Ok? ==> forall b :: b != n.attr ==> Flag(r.value, b) == Flag(s, b)
  {
    match n
    case FlagName(a) => Ok(Set(s, a))
    case _ => Err(ArgumentError)
  }

  /**
    `==` as written: anything that is not a style (`None`) is unequal. For a
    style, `ATTRIBUTES.all?` first sends `foreground` to the receiver with
    no argument, which raises before anything is compared. (`hash` sends the
    same first name through `ATTRIBUTES.map`.)
   */
  function EqualsAsWritten(s: Style, other: Option<Style>): (r: Result<bool, CallError>)
    ensures other.None? ==> r == Ok(false)
  {
    match other
    case None => Ok(false)
    case Some(_) =>
      match SendWithoutArgument(s, ATTRIBUTE_NAMES[0])
      case Err(e) => Err(e)
      case Ok(_) => assert false; Ok(false)
  }

  /** As written, comparing a style with any style raises, so a style is not even equal to itself. */
  lemma EqualsRaises(s: Style, t: Style)
    ensures EqualsAsWritten(s, Some(t)) == Err(ArgumentError)
    ensures EqualsAsWritten(s, Some(s)).Err?
  {
  }

  /** `==` as evidently intended: another style with the same colours and the same attributes. */
  predicate Equals(s: Style, other: Option<Style>) {
    match other
    case None => false
    case Some(t) =>
      s.foreground == t.foreground && s.background == t.background
      && forall a :: Flag(s, a) == Flag(t, a)
  }

  /** The intended `==` is value equality, and a `dup` compares equal to its original. */
  lemma EqualsIsValueEquality(s: Style, t: Style)
    ensures Equals(s, Some(t)) <==> s == t
    ensures !Equals(s, None)
    ensures Equals(s, Some(Dup(s)))
  {
    if Equals(s, Some(t)) {
      Extensionality(s, t);
    }
  }

  /** `dup` is an equal copy, and merging no options is a `dup`. */
  lemma MergeNothingIsDup(s: Style)
    ensures Dup(s) == s
    ensures Merge(s, NoOptions) == s
  {
    Extensionality(Merge(s, NoOptions), s);
  }

  /** Merging the same options twice is the same as merging them once. */
  lemma MergeIdempotent(s: Style, o: Options)
    ensures Merge(Merge(s, o), o) == Merge(s, o)
  {
    Extensionality(Merge(Merge(s, o), o), Merge(s, o));
  }

  /** The options of a later merge override those of an earlier one, key by key. */
  function Override(first: Options, second: Options): (o: Options)
    ensures o.foreground == if second.foreground.Some? then second.foreground else first.foreground
    ensures o.background == if second.background.Some? then second.background else first.background
    ensures forall a :: a in o.flags <==> a in first.flags || a in second.flags
    ensures forall a :: a in o.flags ==> o.flags[a] == if a in second.flags then second.flags[a] else first.flags[a]
  {
    Options(
      if second.foreground.Some? then second.foreground else first.foreground,
      if second.background.Some? then second.background else first.background,
      first.flags + second.flags)
  }

  /** Two merges in a row are one merge with the later options winning. */
  lemma MergeCompose(s: Style, o1: Options, o2: Options)
    ensures Merge(Merge(s, o1), o2) == Merge(s, Override(o1, o2))
  {
    Extensionality(Merge(Merge(s, o1), o2), Merge(s, Override(o1, o2)));
  }

  /** A merge leaves the receiver's other settings in place: `merge(foreground: :red)` keeps bold. */
  lemma MergeKeepsUnnamed(s: Style, o: Options, a: Attr)
    requires a !in o.flags
    ensures Flag(Merge(s, o), a) == Flag(s, a)
  {
  }
}

=== FILE: term_state.dfy ===
/**
  `Vtx::Terminal::State`: the modes the terminal believes are active, and the
  cached window size. Plain accessors; the mouse capture mode is `nil` when
  off, and any symbol when on.
 */
module TermState {
  import opened Wrappers

  /** The mouse mode symbol: `:normal`, `:button`, `:all`, or any other symbol. */
  datatype MouseMode = Normal | Button | All | OtherMode(name: string)

  /** `[rows, cols]`. */
  datatype Size = Size(rows: int, cols: int)

  datatype State = State(
    rawMode: bool,
    alternateScreen: bool,
    mouseCapture: Option<MouseMode>,
    bracketedPaste: bool,
    focusEvents: bool,
    cursorVisible: bool,
    echo: bool,
    size: Option<Size>)

  /** `State.new`. */
  const Initial := State(false, false, None, false, false, true, true, None)

  /** The boolean attributes. */
  datatype Flag = RawMode | AlternateScreen | BracketedPaste | FocusEvents | CursorVisible | Echo

  /** The predicates `raw_mode?`, `alternate_screen?`, ...: each returns its stored attribute. */
  predicate Get(s: State, f: Flag) {
    match f
    case RawMode => s.rawMode
    case AlternateScreen => s.alternateScreen
    case BracketedPaste => s.bracketedPaste
    case FocusEvents => s.focusEvents
    case CursorVisible => s.cursorVisible
    case Echo => s.echo
  }

  /** The accessor setters `raw_mode=`, `alternate_screen=`, ...: only their own attribute changes. */
  function Set(s: State, f: Flag, v: bool): (r: State)
    ensures Get(r, f) == v
    ensures forall g :: g != f ==> Get(r, g) == Get(s, g)
    ensures r.mouseCapture == s.mouseCapture && r.size == s.size
  {
    match f
    case RawMode => s.(rawMode := v)
    case AlternateScreen => s.(alternateScreen := v)
    case BracketedPaste => s.(bracketedPaste := v)
    case FocusEvents => s.(focusEvents := v)
    case CursorVisible => s.(cursorVisible := v)
    case Echo => s.(echo := v)
  }

  /** `mouse_capture?`. */
  predicate IsMouseCapture(s: State) {
    s.mouseCapture.Some?
  }

  /** Two states agreeing on every attribute are equal. */
  lemma Extensionality(s: State, t: State)
    requires forall f :: Get(s, f) == Get(t, f)
    requires s.mouseCapture == t.mouseCapture && s.size == t.size
    ensures s == t
  {
    assert Get(s, RawMode) == Get(t, RawMode);
    assert Get(s, AlternateScreen) == Get(t, AlternateScreen);
    assert Get(s, BracketedPaste) == Get(t, BracketedPaste);
    assert Get(s, FocusEvents) == Get(t, FocusEvents);
    assert Get(s, CursorVisible) == Get(t, CursorVisible);
    assert Get(s, Echo) == Get(t, Echo);
  }

  /** Setting an attribute to the value it already has changes nothing; setting it twice keeps the second value. */
  lemma SetLaws(s: State, f: Flag, v: bool, w: bool)
    ensures Set(s, f, Get(s, f)) == s
    ensures Set(Set(s, f, v), f, w) == Set(s, f, w)
  {
    Extensionality(Set(s, f, Get(s, f)), s);
    Extensionality(Set(Set(s, f, v), f, w), Set(s, f, w));
  }

  /** The initial state: every mode off, mouse off, cursor visible, echo on, size unknown. */
  lemma InitialValues()
    ensures forall f :: Get(Initial, f) <==> f == CursorVisible || f == Echo
    ensures !IsMouseCapture(Initial) && Initial.size.None?
  {
  }
}

=== FILE: terminal.dfy ===
/**
  `Vtx::Terminal`: mode state plus an append-only output buffer that `flush`
  hands to the output stream, and the queue of decoded input events.

  The terminal is a value: each operation returns the terminal after it.
  The output stream is the log `written` of the strings `flush` wrote, so
  everything the program has emitted is `Emitted(t)`: the log followed by
  what is still buffered. Blocks (`sync`, `with_cursor`) are functions from
  terminal to terminal with an outcome, so that a raised exception is a value.
 */
module Terminal {
  import opened Wrappers
  import opened Text
  import opened Events
  import Style
  import Sequences
  import TermState
  import NativeParser
  import Performer

  datatype Terminal = Terminal(
    state: TermState.State,
    buffer: string,
    written: seq<string>,   // each `@output.write(@buffer)`, oldest first
    inputTty: bool,         // `@input.tty?`
    parser: NativeParser.Parser,
    queue: seq<Event>)

  /** `Terminal.new`. */
  function New(inputTty: bool): Terminal {
    Terminal(TermState.Initial, "", [], inputTty, NativeParser.NewParser, [])
  }

  /** Everything emitted so far: written output, then the buffer. */
  function Emitted(t: Terminal): string {
    Concat(t.written) + t.buffer
  }

  /** The terminal changed only by `s` appended to its buffer. */
  function Append(t: Terminal, s: string): (r: Terminal)
    ensures Emitted(r) == Emitted(t) + s
    ensures r.state == t.state && r.written == t.written && r.queue == t.queue && r.parser == t.parser
  {
    t.(buffer := t.buffer + s)
  }

  // ---------------------------------------------------------------------
  // Boolean mode toggles

  /** The modes with an enable and a disable sequence. */
  datatype Mode = AlternateScreen | BracketedPaste | FocusEvents | CursorVisible

  function FlagOf(m: Mode): TermState.Flag {
    match m
    case AlternateScreen => TermState.AlternateScreen
    case BracketedPaste => TermState.BracketedPaste
    case FocusEvents => TermState.FocusEvents
    case CursorVisible => TermState.CursorVisible
  }

  /** The `Sequences` constant that switches a mode on or off. */
  function ModeSequence(m: Mode, on: bool): string {
    match m
    case AlternateScreen => if on then Sequences.ALTERNATE_SCREEN_ENTER else Sequences.ALTERNATE_SCREEN_LEAVE
    case BracketedPaste => if on then Sequences.BRACKETED_PASTE_ENABLE else Sequences.BRACKETED_PASTE_DISABLE
    case FocusEvents => if on then Sequences.FOCUS_EVENTS_ENABLE else Sequences.FOCUS_EVENTS_DISABLE
    case CursorVisible => if on then Sequences.CURSOR_SHOW else Sequences.CURSOR_HIDE
  }

  /**
    `enter_alternate_screen`, `leave_alternate_screen`, `enable_/disable_bracketed_paste`,
    `enable_/disable_focus_events`, `show_cursor`, `hide_cursor`: nothing when
    the mode is already `on`; otherwise its sequence is buffered and only its flag flips.
   */
  function SetMode(t: Terminal, m: Mode, on: bool): (r: Terminal)
    ensures TermState.Get(r.state, FlagOf(m)) == on
    ensures TermState.Get(t.state, FlagOf(m)) == on ==> r == t
    ensures TermState.Get(t.state, FlagOf(m)) != on ==>
              Emitted(r) == Emitted(t) + ModeSequence(m, on) && r.written == t.written
    ensures r.state == TermState.Set(t.state, FlagOf(m), on)
    ensures r.queue == t.queue && r.parser == t.parser && r.inputTty == t.inputTty
  {
    if TermState.Get(t.state, FlagOf(m)) == on then t
    else Append(t, ModeSequence(m, on)).(state := TermState.Set(t.state, FlagOf(m), on))
  }

  /** Calling a toggle twice is calling it once. */
  lemma SetModeIdempotent(t: Terminal, m: Mode, on: bool)
    ensures SetMode(SetMode(t, m, on), m, on) == SetMode(t, m, on)
  {
  }

  /** Switching a mode on then off again restores the state, having emitted both sequences. */
  lemma SetModeRoundTrip(t: Terminal, m: Mode)
    requires !TermState.Get(t.state, FlagOf(m))
    ensures SetMode(SetMode(t, m, true), m, false).state == t.state
    ensures Emitted(SetMode(SetMode(t, m, true), m, false)) == Emitted(t) + ModeSequence(m, true) + ModeSequence(m, false)
  {
    TermState.SetLaws(t.state, FlagOf(m), true, false);
  }

  function EnterAlternateScreen(t: Terminal): Terminal { SetMode(t, AlternateScreen, true) }
  function LeaveAlternateScreen(t: Terminal): Terminal { SetMode(t, AlternateScreen, false) }
  function EnableBracketedPaste(t: Terminal): Terminal { SetMode(t, BracketedPaste, true) }
  function DisableBracketedPaste(t: Terminal): Terminal { SetMode(t, BracketedPaste, false) }
  function EnableFocusEvents(t: Terminal): Terminal { SetMode(t, FocusEvents, true) }
  function DisableFocusEvents(t: Terminal): Terminal { SetMode(t, FocusEvents, false) }
  function ShowCursor(t: Terminal): Terminal { SetMode(t, CursorVisible, true) }
  function HideCursor(t: Terminal): Terminal { SetMode(t, CursorVisible, false) }

  // ---------------------------------------------------------------------
  // Raw mode

  /**
    `enable_raw_mode` / `disable_raw_mode`: the buffer is never touched; the
    flag changes only when it differs and input is a terminal (`raw!` and
    `cooked!` on the input device are not modelled).
   */
  function SetRawMode(t: Terminal, on: bool): (r: Terminal)
    ensures r.buffer == t.buffer && r.written == t.written
    ensures r.state.rawMode == (if t.inputTty then on else t.state.rawMode)
    ensures r.state == t.state.(rawMode := r.state.rawMode)
    ensures r.queue == t.queue && r.parser == t.parser && r.inputTty == t.inputTty
  {
    if t.state.rawMode == on then t
    else if !t.inputTty then t
    else t.(state := t.state.(rawMode := on))
  }

  function EnableRawMode(t: Terminal): Terminal { SetRawMode(t, true) }
  function DisableRawMode(t: Terminal): Terminal { SetRawMode(t, false) }

  /** Without a terminal on input, raw mode toggles are no-ops. */
  lemma RawModeNeedsTty(t: Terminal, on: bool)
    requires !t.inputTty
    ensures SetRawMode(t, on) == t
  {
  }

  // ---------------------------------------------------------------------
  // Mouse capture

  /** The enable sequence for a mode; an unknown mode uses the normal one. */
  function MouseEnable(mode: TermState.MouseMode): string {
    match mode
    case Normal => Sequences.MOUSE_NORMAL_ENABLE
    case Button => Sequences.MOUSE_BUTTON_ENABLE
    case All => Sequences.MOUSE_ALL_ENABLE
    case OtherMode(_) => Sequences.MOUSE_NORMAL_ENABLE
  }

  /** The disable sequence matching the mode that is on. */
  function MouseDisable(mode: TermState.MouseMode): string {
    match mode
    case Normal => Sequences.MOUSE_NORMAL_DISABLE
    case Button => Sequences.MOUSE_BUTTON_DISABLE
    case All => Sequences.MOUSE_ALL_DISABLE
    case OtherMode(_) => Sequences.MOUSE_NORMAL_DISABLE
  }

  /**
    `enable_mouse_capture(mode:)`: nothing when `mode` is already on; otherwise
    the enable sequence for `mode` is buffered (the previous mode is not
    disabled first) and `mode` is recorded.
   */
  function EnableMouseCapture(t: Terminal, mode: TermState.MouseMode := TermState.Normal): (r: Terminal)
    ensures r.state.mouseCapture == Some(mode)
    ensures t.state.mouseCapture == Some(mode) ==> r == t
    ensures t.state.mouseCapture != Some(mode) ==> Emitted(r) == Emitted(t) + MouseEnable(mode) && r.written == t.written
    ensures r.state == t.state.(mouseCapture := Some(mode))
    ensures r.queue == t.queue && r.parser == t.parser && r.inputTty == t.inputTty
  {
    if t.state.mouseCapture == Some(mode) then t
    else Append(t, MouseEnable(mode)).(state := t.state.(mouseCapture := Some(mode)))
  }

  /** `disable_mouse_capture`: nothing when off; otherwise the current mode's disable sequence, and off. */
  function DisableMouseCapture(t: Terminal): (r: Terminal)
    ensures r.state.mouseCapture == None
    ensures t.state.mouseCapture == None ==> r == t
    ensures t.state.mouseCapture.Some? ==>
              Emitted(r) == Emitted(t) + MouseDisable(t.state.mouseCapture.value) && r.written == t.written
    ensures r.state == t.state.(mouseCapture := None)
    ensures r.queue == t.queue && r.parser == t.parser && r.inputTty == t.inputTty
  {
    match t.state.mouseCapture
    case None =>
      assert t.state.(mouseCapture := None) == t.state;
      t
    case Some(mode) =>
      var a := Append(t, MouseDisable(mode));
      a.(state := t.state.(mouseCapture := None))
  }

  /** Enabling then disabling emits a matching pair: an unknown mode enables and disables normal tracking. */
  lemma MouseRoundTrip(t: Terminal, mode: TermState.MouseMode)
    requires t.state.mouseCapture == None
    ensures var r := DisableMouseCapture(EnableMouseCapture(t, mode));
      && r.state == t.state
      && Emitted(r) == Emitted(t) + MouseEnable(mode) + MouseDisable(mode)
  {
  }

  /** Switching straight from one mode to another emits only the new mode's enable sequence. */
  lemma MouseSwitchNoDisable(t: Terminal)
    requires t.state.mouseCapture == Some(TermState.Button)
    ensures Emitted(EnableMouseCapture(t, TermState.All)) == Emitted(t) + Sequences.MOUSE_ALL_ENABLE
  {
  }

  // ---------------------------------------------------------------------
  // Output

  /** `command { ... }`: the sequence is buffered; nothing else changes. */
  function Command(t: Terminal, sequence: string): (r: Terminal)
    ensures Emitted(r) == Emitted(t) + sequence
    ensures r.state == t.state && r.written == t.written && r.queue == t.queue
  {
    Append(t, sequence)
  }

  /** The terminal after a call and the value the call returned. */
  datatype Wrote = Wrote(term: Terminal, bytes: nat)

  /** `write(*args)`: the joined arguments are buffered; the result is their size in bytes. */
  function Write(t: Terminal, args: seq<string>): (r: Wrote)
    ensures Emitted(r.term) == Emitted(t) + Concat(args)
    ensures r.bytes == Utf8Size(Concat(args))
    ensures |Concat(args)| <= r.bytes <= 4 * |Concat(args)|
    ensures r.term.state == t.state && r.term.written == t.written
  {
    Wrote(Append(t, Concat(args)), Utf8Size(Concat(args)))
  }

  /** Whether any style keyword was given (`style_options.any?`). */
  predicate AnyOptions(o: Style.Options) {
    o.foreground.Some? || o.background.Some? || |o.flags| > 0
  }

  /** `resolve_style(style, options)`: merge when both are given, the style alone, or a new style from the options. */
  function ResolveStyle(style: Option<Style.Style>, options: Style.Options): (r: Style.Style)
    ensures style.Some? && !AnyOptions(options) ==> r == style.value
    ensures style.None? ==> r == Style.New(options)
    ensures style.Some? && AnyOptions(options) ==> r == Style.Merge(style.value, options)
  {
    match style
    case Some(s) => if AnyOptions(options) then Style.Merge(s, options) else s
    case None => Style.New(options)
  }

  /** Whether a call to `print` / `puts` is styled. */
  predicate Styled(style: Option<Style.Style>, options: Style.Options) {
    style.Some? || AnyOptions(options)
  }

  /** Writing a single string buffers exactly that string. */
  lemma WriteOne(t: Terminal, s: string)
    ensures Write(t, [s]).term == Append(t, s)
  {
    ConcatAppend([], s);
    assert [] + [s] == [s];
  }

  /**
    `print(*args, style:, **style_options)`: the joined text, wrapped in the
    resolved style's sequence and a reset when any style is given (even one
    that renders as nothing).
   */
  function Print(t: Terminal, args: seq<string>, style: Option<Style.Style>, options: Style.Options): (r: Terminal)
    ensures !Styled(style, options) ==> Emitted(r) == Emitted(t) + Concat(args)
    ensures Styled(style, options) ==>
              Emitted(r) == Emitted(t) + (Style.ToS(ResolveStyle(style, options)) + Concat(args) + Sequences.RESET_STYLE)
    ensures r.state == t.state && r.written == t.written
  {
    var str := if Styled(style, options) then Style.ToS(ResolveStyle(style, options)) + Concat(args) + Sequences.RESET_STYLE
               else Concat(args);
    WriteOne(t, str);
    Write(t, [str]).term
  }

  /** The text `puts` writes for its arguments, each line closed by a newline. */
  function PutsLines(args: seq<string>, prefix: string, suffix: string): (s: string)
    ensures |args| > 0 ==> |s| > 0 && s[|s| - 1] == '\n'
  {
    if |args| == 0 then ""
    else (prefix + args[0] + suffix + "\n") + PutsLines(args[1..], prefix, suffix)
  }

  /** The lines of two argument lists are the lines of each, one after the other. */
  lemma {:induction false} PutsLinesAppend(a: seq<string>, b: seq<string>, prefix: string, suffix: string)
    ensures PutsLines(a + b, prefix, suffix) == PutsLines(a, prefix, suffix) + PutsLines(b, prefix, suffix)
    decreases |a|
  {
    if |a| == 0 {
      assert a + b == b;
    } else {
      assert (a + b)[0] == a[0];
      assert (a + b)[1..] == a[1..] + b;
      PutsLinesAppend(a[1..], b, prefix, suffix);
    }
  }

  /**
    `puts(*args, style:, **style_options)`: a bare newline with no arguments;
    otherwise each argument on its own line, each wrapped in the style and a
    reset when a style is given.
   */
  function Puts(t: Terminal, args: seq<string>, style: Option<Style.Style>, options: Style.Options): (r: Terminal)
    ensures |args| == 0 ==> Emitted(r) == Emitted(t) + "\n"
    ensures |args| > 0 && !Styled(style, options) ==> Emitted(r) == Emitted(t) + PutsLines(args, "", "")
    ensures |args| > 0 && Styled(style, options) ==>
              Emitted(r) == Emitted(t) + PutsLines(args, Style.ToS(ResolveStyle(style, options)), Sequences.RESET_STYLE)
    ensures r.state == t.state && r.written == t.written
  {
    var str :=
      if |args| == 0 then "\n"
      else if Styled(style, options) then PutsLines(args, Style.ToS(ResolveStyle(style, options)), Sequences.RESET_STYLE)
      else PutsLines(args, "", "");
    WriteOne(t, str);
    Write(t, [str]).term
  }

  /** An unstyled `puts` of one line writes it with a newline; of several, the lines one after the other. */
  lemma PutsExamples(t: Terminal, a: string, b: string)
    ensures Emitted(Puts(t, [a], None, Style.NoOptions)) == Emitted(t) + (a + "\n")
    ensures Emitted(Puts(t, [a, b], None, Style.NoOptions)) == Emitted(t) + ((a + "\n") + (b + "\n"))
  {
    PlainLine(a);
    PlainLine(b);
    PutsLinesAppend([a], [b], "", "");
    assert [a] + [b] == [a, b];
  }

  lemma PlainLine(s: string)
    ensures PutsLines([s], "", "") == s + "\n"
  {
    assert [s][1..] == [];
    assert "" + s + "" == s;
  }

  /**
    `flush`: nothing when the buffer is empty; otherwise the whole buffer is
    written in one call and the buffer emptied. What has been emitted is unchanged.
   */
  function Flush(t: Terminal): (r: Terminal)
    ensures Emitted(r) == Emitted(t)
    ensures r.buffer == ""
    ensures t.buffer == "" ==> r == t
    ensures t.buffer != "" ==> r.written == t.written + [t.buffer]
    ensures r.state == t.state && r.queue == t.queue && r.parser == t.parser && r.inputTty == t.inputTty
  {
    if t.buffer == "" then t
    else
      ConcatAppend(t.written, t.buffer);
      t.(written := t.written + [t.buffer], buffer := "")
  }

  /** Every write of `flush` is non-empty, so the output log holds no empty calls. */
  predicate NoEmptyWrites(t: Terminal) {
    forall i :: 0 <= i < |t.written| ==> t.written[i] != ""
  }

  lemma FlushKeepsNoEmptyWrites(t: Terminal)
    requires NoEmptyWrites(t)
    ensures NoEmptyWrites(Flush(t))
    ensures Flush(Flush(t)) == Flush(t)
  {
  }

  // ---------------------------------------------------------------------
  // Blocks

  /** How a block ended: normally, or by raising. */
  datatype Outcome = Returned | Raised(error: string)

  datatype Completion = Completion(term: Terminal, outcome: Outcome)

  /**
    `sync { ... }`: the sync-enable sequence, the block, then (in `ensure`,
    so also when the block raises) the sync-disable sequence and a flush.
   */
  function Sync(t: Terminal, block: Terminal -> Completion): (r: Completion)
    ensures var inner := block(Command(t, Sequences.SYNC_OUTPUT_ENABLE));
      && Emitted(r.term) == Emitted(inner.term) + Sequences.SYNC_OUTPUT_DISABLE
      && r.term.buffer == ""
      && r.outcome == inner.outcome
  {
    var inner := block(Command(t, Sequences.SYNC_OUTPUT_ENABLE));
    Completion(Flush(Command(inner.term, Sequences.SYNC_OUTPUT_DISABLE)), inner.outcome)
  }

  /** A block that only appends `out`, whether or not it raises, is framed by the two sync sequences. */
  lemma SyncFrames(t: Terminal, block: Terminal -> Completion, out: string)
    requires forall u :: Emitted(block(u).term) == Emitted(u) + out
    ensures Emitted(Sync(t, block).term) ==
              Emitted(t) + Sequences.SYNC_OUTPUT_ENABLE + out + Sequences.SYNC_OUTPUT_DISABLE
  {
  }

  /** `with_cursor { ... }`: save the cursor, the block, then restore it even when the block raises (no flush). */
  function WithCursor(t: Terminal, block: Terminal -> Completion): (r: Completion)
    ensures var inner := block(Command(t, Sequences.CURSOR_SAVE));
      && Emitted(r.term) == Emitted(inner.term) + Sequences.CURSOR_RESTORE
      && r.term.written == inner.term.written
      && r.outcome == inner.outcome
  {
    var inner := block(Command(t, Sequences.CURSOR_SAVE));
    Completion(Command(inner.term, Sequences.CURSOR_RESTORE), inner.outcome)
  }

  // ---------------------------------------------------------------------
  // Size

  datatype Sized = Sized(term: Terminal, size: Option<TermState.Size>)

  /** `size`: the cached size, or the queried one (`queried` stands for `query_size`), cached. */
  function GetSize(t: Terminal, queried: Option<TermState.Size>): (r: Sized)
    ensures t.state.size.Some? ==> r == Sized(t, t.state.size)
    ensures t.state.size.None? ==> r.size == queried && r.term == t.(state := t.state.(size := queried))
  {
    if t.state.size.Some? then Sized(t, t.state.size)
    else Sized(t.(state := t.state.(size := queried)), queried)
  }

  /** `refresh_size!`: the queried size replaces the cached one. */
  function RefreshSize(t: Terminal, queried: Option<TermState.Size>): (r: Terminal)
    ensures r.state.size == queried
    ensures r.state == t.state.(size := queried) && r.buffer == t.buffer
  {
    t.(state := t.state.(size := queried))
  }

  /** `resize(cols, rows)`: the size is stored as `[rows, cols]`. */
  function Resize(t: Terminal, cols: int, rows: int): (r: Terminal)
    ensures r.state.size == Some(TermState.Size(rows, cols))
    ensures r.state == t.state.(size := r.state.size) && r.buffer == t.buffer
  {
    t.(state := t.state.(size := Some(TermState.Size(rows, cols))))
  }

  /** After `resize(cols, rows)`, `size` answers `[rows, cols]` without querying. */
  lemma ResizeThenSize(t: Terminal, cols: int, rows: int, queried: Option<TermState.Size>)
    ensures GetSize(Resize(t, cols, rows), queried).size == Some(TermState.Size(rows, cols))
  {
  }

  // ---------------------------------------------------------------------
  // reset and close

  /**
    `reset`: disable focus events, bracketed paste and mouse capture, show the
    cursor, leave the alternate screen, end raw mode, then flush.
   */
  function Reset(t: Terminal): (r: Terminal)
    ensures !r.state.focusEvents && !r.state.bracketedPaste && r.state.mouseCapture.None?
    ensures r.state.cursorVisible && !r.state.alternateScreen
    ensures !r.state.rawMode <==> !t.state.rawMode || t.inputTty
    ensures r.state.echo == t.state.echo && r.state.size == t.state.size
    ensures r.buffer == "" && r.queue == t.queue && r.parser == t.parser && r.inputTty == t.inputTty
  {
    Flush(DisableRawMode(ResetModes(t)))
  }

  /** The part of `reset` that writes: every mode but raw mode switched off, in order. */
  function ResetModes(t: Terminal): (r: Terminal)
    ensures !r.state.focusEvents && !r.state.bracketedPaste && r.state.mouseCapture.None?
    ensures r.state.cursorVisible && !r.state.alternateScreen
    ensures r.state.rawMode == t.state.rawMode && r.state.echo == t.state.echo && r.state.size == t.state.size
    ensures r.queue == t.queue && r.parser == t.parser && r.inputTty == t.inputTty
    ensures Emitted(r) == Emitted(t)
      + OffSequence(t.state.focusEvents, Sequences.FOCUS_EVENTS_DISABLE)
      + OffSequence(t.state.bracketedPaste, Sequences.BRACKETED_PASTE_DISABLE)
      + MouseOffSequence(t.state.mouseCapture)
      + OffSequence(!t.state.cursorVisible, Sequences.CURSOR_SHOW)
      + OffSequence(t.state.alternateScreen, Sequences.ALTERNATE_SCREEN_LEAVE)
  {
    var t1 := DisableFocusEvents(t);
    SwitchEmits(t, FocusEvents, false);
    var t2 := DisableBracketedPaste(t1);
    SwitchEmits(t1, BracketedPaste, false);
    var t3 := DisableMouseCapture(t2);
    MouseOffEmits(t2);
    var t4 := ShowCursor(t3);
    SwitchEmits(t3, CursorVisible, true);
    var t5 := LeaveAlternateScreen(t4);
    SwitchEmits(t4, AlternateScreen, false);
    t5
  }

  /** A toggle emits its sequence exactly when the mode differs from the request. */
  lemma SwitchEmits(t: Terminal, m: Mode, on: bool)
    ensures Emitted(SetMode(t, m, on)) == Emitted(t) + OffSequence(TermState.Get(t.state, FlagOf(m)) != on, ModeSequence(m, on))
  {
  }

  /** Disabling the mouse emits the disable sequence of the mode that was on, if any. */
  lemma MouseOffEmits(t: Terminal)
    ensures Emitted(DisableMouseCapture(t)) == Emitted(t) + MouseOffSequence(t.state.mouseCapture)
  {
  }

  /** A mode's disable sequence when it was on, nothing otherwise. */
  function OffSequence(on: bool, sequence: string): string {
    if on then sequence else ""
  }

  /** The disable sequence of the mouse mode that was on, if any. */
  function MouseOffSequence(mode: Option<TermState.MouseMode>): string {
    match mode
    case None => ""
    case Some(m) => MouseDisable(m)
  }

  /** What `reset` emits: the disable sequences of the modes that were on, in order, and nothing for raw mode. */
  lemma ResetOrder(t: Terminal)
    ensures Emitted(Reset(t)) == Emitted(ResetModes(t))
  {
  }

  /** A second `reset` changes nothing. */
  lemma ResetIdempotent(t: Terminal)
    ensures Reset(Reset(t)) == Reset(t)
  {
    var r := Reset(t);
    ResetModesWhenOff(r);
    assert DisableRawMode(r) == r by {
      if r.inputTty {
        assert !r.state.rawMode;
      }
    }
    assert Flush(r) == r;
  }

  /** With every mode it touches already off, `ResetModes` changes nothing. */
  lemma ResetModesWhenOff(t: Terminal)
    requires !t.state.focusEvents && !t.state.bracketedPaste && t.state.mouseCapture.None?
    requires t.state.cursorVisible && !t.state.alternateScreen
    ensures ResetModes(t) == t
  {
    assert DisableFocusEvents(t) == t;
    assert DisableBracketedPaste(t) == t;
    assert DisableMouseCapture(t) == t;
    assert ShowCursor(t) == t;
    assert LeaveAlternateScreen(t) == t;
  }

  /** From a terminal on a tty, `reset` brings every mode back to its initial value. */
  lemma ResetRestoresInitialModes(t: Terminal)
    requires t.inputTty
    ensures var s := Reset(t).state;
      forall f :: f != TermState.Echo ==> TermState.Get(s, f) == TermState.Get(TermState.Initial, f)
    ensures Reset(t).state.mouseCapture == TermState.Initial.mouseCapture
  {
  }

  /** `close`. */
  function Close(t: Terminal): Terminal {
    Reset(t)
  }

  // ---------------------------------------------------------------------
  // Events

  /** What `read_event` returns and the terminal after it. */
  datatype Read = Read(term: Terminal, event: Option<Event>)

  /** `enqueue_and_return(events)`: the first event is returned and the rest queued behind what is waiting. */
  function EnqueueAndReturn(t: Terminal, events: seq<Event>): (r: Read)
    ensures events == [] ==> r == Read(t, None)
    ensures events != [] ==> r.event == Some(events[0]) && r.term.queue == t.queue + events[1..]
    ensures r.term.state == t.state && r.term.buffer == t.buffer && r.term.parser == t.parser
  {
    if events == [] then Read(t, None)
    else if |events| > 1 then Read(t.(queue := t.queue + events[1..]), Some(events[0]))
    else Read(t, Some(events[0]))
  }

  /** The bytes of one `read_nonblock` and the callbacks the tokeniser makes of them. */
  datatype Chunk = Chunk(bytes: seq<Performer.byte>, tokens: seq<Performer.Token>)

  /**
    One round of the `read_event` loop after the queue was found empty: either
    the wait gave up (`wait_for_input?` false; no input before the deadline) or
    it returned true, after which `read_nonblock` returned a chunk or nothing.
    `timedOut` says the wait for a pending Escape expired, so that the parser
    was flushed into the queue first.
   */
  datatype Input = Stop | Wake(timedOut: bool, data: Option<Chunk>)

  /**
    A pending parser never gives up waiting: `wait_for_pending_escape?` flushes
    the Escape and returns true, so a `Stop` then acts as an expired wait with
    nothing to read.
   */
  function Effective(p: NativeParser.Parser, input: Input): (r: Input)
    ensures r.Stop? <==> input.Stop? && !NativeParser.Pending(p)
  {
    if input.Stop? && NativeParser.Pending(p) then Wake(true, None) else input
  }

  /** What one round does to the parser, and the events it decodes: the flushed Escape first. */
  function StepInput(p: NativeParser.Parser, input: Input): NativeParser.Fed {
    match Effective(p, input)
    case Stop => NativeParser.Fed(p, [])
    case Wake(timedOut, data) =>
      var f := if timedOut then NativeParser.Flush(p) else NativeParser.Fed(p, []);
      match data
      case None => f
      case Some(c) =>
        var g := NativeParser.Parse(f.parser, c.bytes, c.tokens);
        NativeParser.Fed(g.parser, f.events + g.events)
  }

  /** The parser state and the events a run of rounds decodes to, in order: the reference for `read_event`. */
  function Feed(p: NativeParser.Parser, inputs: seq<Input>): NativeParser.Fed
    decreases |inputs|
  {
    if |inputs| == 0 then NativeParser.Fed(p, [])
    else
      var step := StepInput(p, inputs[0]);
      var rest := Feed(step.parser, inputs[1..]);
      NativeParser.Fed(rest.parser, step.events + rest.events)
  }

  /** Feeding the first `k + 1` rounds is feeding the first, then the next `k`. */
  lemma FeedPrefix(p: NativeParser.Parser, inputs: seq<Input>, k: nat)
    requires k < |inputs|
    ensures var step := StepInput(p, inputs[0]);
      var rest := Feed(step.parser, inputs[1..][..k]);
      Feed(p, inputs[..k + 1]) == NativeParser.Fed(rest.parser, step.events + rest.events)
  {
    assert inputs[..k + 1][0] == inputs[0];
    assert inputs[..k + 1][1..] == inputs[1..][..k];
  }

  /** Decoding two runs of rounds one after the other decodes their concatenation. */
  lemma {:induction false} FeedAppend(p: NativeParser.Parser, a: seq<Input>, b: seq<Input>)
    ensures var first := Feed(p, a);
      var second := Feed(first.parser, b);
      Feed(p, a + b) == NativeParser.Fed(second.parser, first.events + second.events)
    decreases |a|
  {
    if |a| == 0 {
      assert a + b == b;
    } else {
      assert (a + b)[0] == a[0];
      assert (a + b)[1..] == a[1..] + b;
      var step := StepInput(p, a[0]);
      FeedAppend(step.parser, a[1..], b);
      var first := Feed(step.parser, a[1..]);
      var second := Feed(first.parser, b);
      assert step.events + (first.events + second.events) == (step.events + first.events) + second.events;
    }
  }

  /** The result of `read_event` and how many rounds it consumed. */
  datatype ReadFrom = ReadFrom(read: Read, consumed: nat)

  function Opt(e: Option<Event>): seq<Event> {
    match e
    case None => []
    case Some(v) => [v]
  }

  /**
    `read_event`, as written: a queued event is returned first; otherwise rounds
    are consumed until one decodes to events, which go through
    `enqueue_and_return`, or the wait gives up. No event is lost or invented,
    but when an expired Escape wait has queued the Escape and the same round's
    read decodes more events, the first of those is returned ahead of the
    queued Escape.

    Running out of `inputs` gives a nil result after the rounds consumed so
    far. This is where the model stops, not something `read_event` does:
    without a timeout it keeps waiting, and with one the wait ends in a
    `Stop` round.
   */
  function ReadEvent(t: Terminal, inputs: seq<Input>): (r: ReadFrom)
    ensures r.consumed <= |inputs|
    ensures r.read.term.parser == Feed(t.parser, inputs[..r.consumed]).parser
    ensures r.read.event.None? ==> r.read.term.queue == []
    ensures t.queue != [] ==> r == ReadFrom(Read(t.(queue := t.queue[1..]), Some(t.queue[0])), 0)
    ensures r.read.term.state == t.state && r.read.term.buffer == t.buffer
    decreases |inputs|
  {
    if t.queue != [] then
      assert inputs[..0] == [];
      assert t.queue == [t.queue[0]] + t.queue[1..];
      ReadFrom(Read(t.(queue := t.queue[1..]), Some(t.queue[0])), 0)
    else if |inputs| == 0 then
      assert inputs[..0] == [];
      ReadFrom(Read(t, None), 0)
    else
      var w := Effective(t.parser, inputs[0]);
      if w.Stop? then
        FeedAfterStep(t.parser, inputs, 0, t.parser, []);
        ReadFrom(Read(t, None), 1)
      else
        var f := AfterWait(t, w);
        var t1 := t.(parser := f.parser, queue := f.events);
        match w.data
        case None =>
          var r := ReadEvent(t1, inputs[1..]);
          FeedAfterStep(t.parser, inputs, r.consumed, f.parser, f.events);
          ReadFrom(r.read, r.consumed + 1)
        case Some(c) =>
          var g := NativeParser.Parse(f.parser, c.bytes, c.tokens);
          if g.events == [] then
            var r := ReadEvent(t1.(parser := g.parser), inputs[1..]);
            assert f.events + g.events == f.events;
            FeedAfterStep(t.parser, inputs, r.consumed, g.parser, f.events);
            ReadFrom(r.read, r.consumed + 1)
          else
            FeedAfterStep(t.parser, inputs, 0, g.parser, f.events + g.events);
            ReadFrom(EnqueueAndReturn(t1.(parser := g.parser), g.events), 1)
  }

  /** `read_event` loses and invents no event: it returns and queues exactly what was queued and decoded. */
  lemma {:induction false} ReadEventKeepsEvents(t: Terminal, inputs: seq<Input>)
    ensures KeepsEvents(t, inputs)
    decreases |inputs|, 2
  {
    if t.queue != [] {
      assert inputs[..0] == [];
      assert t.queue == [t.queue[0]] + t.queue[1..];
    } else if |inputs| == 0 {
      assert inputs[..0] == [];
    } else if Effective(t.parser, inputs[0]).Stop? {
      FeedPrefix(t.parser, inputs, 0);
    } else {
      WakeKeepsEvents(t, inputs);
    }
  }

  predicate KeepsEvents(t: Terminal, inputs: seq<Input>) {
    var r := ReadEvent(t, inputs);
    multiset(Opt(r.read.event) + r.read.term.queue) == multiset(t.queue + Feed(t.parser, inputs[..r.consumed]).events)
  }

  /** The state after the wait of a round that woke: the flushed Escape, if any, queued. */
  function AfterWait(t: Terminal, w: Input): (r: NativeParser.Fed)
    requires w.Wake?
  {
    if w.timedOut then NativeParser.Flush(t.parser) else NativeParser.Fed(t.parser, [])
  }

  lemma {:induction false} WakeKeepsEvents(t: Terminal, inputs: seq<Input>)
    requires t.queue == [] && |inputs| > 0 && Effective(t.parser, inputs[0]).Wake?
    ensures KeepsEvents(t, inputs)
    decreases |inputs|, 1
  {
    var w := Effective(t.parser, inputs[0]);
    var f := AfterWait(t, w);
    if w.data.None? {
      WakeNoData(t, inputs);
    } else if NativeParser.Parse(f.parser, w.data.value.bytes, w.data.value.tokens).events == [] {
      WakeQuiet(t, inputs);
    } else {
      WakeEvents(t, inputs);
    }
  }

  lemma {:induction false} WakeNoData(t: Terminal, inputs: seq<Input>)
    requires t.queue == [] && |inputs| > 0 && Effective(t.parser, inputs[0]).Wake?
    requires Effective(t.parser, inputs[0]).data.None?
    ensures KeepsEvents(t, inputs)
    decreases |inputs|, 0
  {
    var r := ReadEvent(t, inputs);
    var f := AfterWait(t, Effective(t.parser, inputs[0]));
    var t1 := t.(parser := f.parser, queue := f.events);
    var inner := ReadEvent(t1, inputs[1..]);
    assert r == ReadFrom(inner.read, inner.consumed + 1);
    ReadEventKeepsEvents(t1, inputs[1..]);
    FeedAfterStep(t.parser, inputs, inner.consumed, t1.parser, t1.queue);
  }

  lemma {:induction false} WakeQuiet(t: Terminal, inputs: seq<Input>)
    requires t.queue == [] && |inputs| > 0 && Effective(t.parser, inputs[0]).Wake?
    requires var w := Effective(t.parser, inputs[0]);
      w.data.Some? && NativeParser.Parse(AfterWait(t, w).parser, w.data.value.bytes, w.data.value.tokens).events == []
    ensures KeepsEvents(t, inputs)
    decreases |inputs|, 0
  {
    var w := Effective(t.parser, inputs[0]);
    var f := AfterWait(t, w);
    var g := NativeParser.Parse(f.parser, w.data.value.bytes, w.data.value.tokens);
    var t2 := t.(parser := g.parser, queue := f.events);
    QuietRound(t, inputs);
    var inner := ReadEvent(t2, inputs[1..]);
    ReadEventKeepsEvents(t2, inputs[1..]);
    assert f.events + g.events == f.events;
    FeedAfterStep(t.parser, inputs, inner.consumed, t2.parser, t2.queue);
    assert t.queue + Feed(t.parser, inputs[..inner.consumed + 1]).events == Feed(t.parser, inputs[..inner.consumed + 1]).events;
  }

  /** A round whose data decodes to nothing: the rest of the read starts from the next round. */
  lemma QuietRound(t: Terminal, inputs: seq<Input>)
    requires t.queue == [] && |inputs| > 0 && Effective(t.parser, inputs[0]).Wake?
    requires var w := Effective(t.parser, inputs[0]);
      w.data.Some? && NativeParser.Parse(AfterWait(t, w).parser, w.data.value.bytes, w.data.value.tokens).events == []
    ensures var w := Effective(t.parser, inputs[0]);
      var f := AfterWait(t, w);
      var t2 := t.(parser := NativeParser.Parse(f.parser, w.data.value.bytes, w.data.value.tokens).parser, queue := f.events);
      var inner := ReadEvent(t2, inputs[1..]);
      ReadEvent(t, inputs) == ReadFrom(inner.read, inner.consumed + 1)
  {
  }

  lemma WakeEvents(t: Terminal, inputs: seq<Input>)
    requires t.queue == [] && |inputs| > 0 && Effective(t.parser, inputs[0]).Wake?
    requires var w := Effective(t.parser, inputs[0]);
      w.data.Some? && NativeParser.Parse(AfterWait(t, w).parser, w.data.value.bytes, w.data.value.tokens).events != []
    ensures KeepsEvents(t, inputs)
  {
    var r := ReadEvent(t, inputs);
    var w := Effective(t.parser, inputs[0]);
    var f := AfterWait(t, w);
    var g := NativeParser.Parse(f.parser, w.data.value.bytes, w.data.value.tokens);
    var rd := EnqueueAndReturn(t.(parser := g.parser, queue := f.events), g.events);
    assert r == ReadFrom(rd, 1);
    FeedAfterStep(t.parser, inputs, 0, g.parser, f.events + g.events);
    assert Feed(t.parser, inputs[..1]).events == f.events + g.events;
    assert Opt(rd.event) + rd.term.queue == [g.events[0]] + (f.events + g.events[1..]);
    FrontSwap(g.events[0], f.events, g.events[1..]);
    assert g.events == [g.events[0]] + g.events[1..];
  }

  /** Taking an element out to the front keeps the multiset of a sequence. */
  lemma FrontSwap<T>(x: T, a: seq<T>, b: seq<T>)
    ensures multiset([x] + (a + b)) == multiset(a + ([x] + b))
  {
    assert [x] + (a + b) == ([x] + a) + b;
    assert a + ([x] + b) == (a + [x]) + b;
  }

  /**
    `read_event` with the decoded events queued behind the flushed Escape
    before the first is taken: events come out exactly in decoding order, so
    what this call returns followed by the new queue is the old queue followed
    by everything the consumed rounds decoded to.
   */
  function ReadEventInOrder(t: Terminal, inputs: seq<Input>): (r: ReadFrom)
    ensures r.consumed <= |inputs|
    ensures r.read.term.parser == Feed(t.parser, inputs[..r.consumed]).parser
    ensures Opt(r.read.event) + r.read.term.queue == t.queue + Feed(t.parser, inputs[..r.consumed]).events
    ensures r.read.event.None? ==> r.read.term.queue == []
    ensures t.queue != [] ==> r == ReadFrom(Read(t.(queue := t.queue[1..]), Some(t.queue[0])), 0)
    ensures r.read.term.state == t.state && r.read.term.buffer == t.buffer
    decreases |inputs|, 1
  {
    if t.queue != [] then
      assert inputs[..0] == [];
      ReadFrom(Read(t.(queue := t.queue[1..]), Some(t.queue[0])), 0)
    else if |inputs| == 0 then
      assert inputs[..0] == [];
      ReadFrom(Read(t, None), 0)
    else if Effective(t.parser, inputs[0]).Stop? then
      FeedPrefix(t.parser, inputs, 0);
      ReadFrom(Read(t, None), 1)
    else
      InOrderAfterWake(t, inputs)
  }

  /**
    A round of `ReadEventInOrder` whose wait returned true: the round's
    events join the queue in the order they were decoded, and reading goes
    on from there (returning the first of them at once, if there are any).
   */
  function InOrderAfterWake(t: Terminal, inputs: seq<Input>): (r: ReadFrom)
    requires t.queue == [] && |inputs| > 0 && Effective(t.parser, inputs[0]).Wake?
    ensures 0 < r.consumed <= |inputs|
    ensures r.read.term.parser == Feed(t.parser, inputs[..r.consumed]).parser
    ensures Opt(r.read.event) + r.read.term.queue == Feed(t.parser, inputs[..r.consumed]).events
    ensures r.read.event.None? ==> r.read.term.queue == []
    ensures r.read.term.state == t.state && r.read.term.buffer == t.buffer
    decreases |inputs|, 0
  {
    var s := StepInput(t.parser, inputs[0]);
    var r := ReadEventInOrder(t.(parser := s.parser, queue := s.events), inputs[1..]);
    FeedAfterStep(t.parser, inputs, r.consumed, s.parser, s.events);
    ReadFrom(r.read, r.consumed + 1)
  }

  /** Feeding `k + 1` rounds whose first steps to `q` with `evs`: `evs`, then what `k` rounds from `q` decode. */
  lemma FeedAfterStep(p: NativeParser.Parser, inputs: seq<Input>, k: nat, q: NativeParser.Parser, evs: seq<Event>)
    requires k < |inputs| && StepInput(p, inputs[0]) == NativeParser.Fed(q, evs)
    ensures Feed(p, inputs[..k + 1]).events == evs + Feed(q, inputs[1..][..k]).events
    ensures Feed(p, inputs[..k + 1]).parser == Feed(q, inputs[1..][..k]).parser
  {
    FeedPrefix(p, inputs, k);
  }

  /** No round is an expired Escape wait that also reads data: the only round where the two orders can part. */
  predicate NoExpiredRead(inputs: seq<Input>) {
    forall i | 0 <= i < |inputs| :: !(inputs[i].Wake? && inputs[i].timedOut && inputs[i].data.Some?)
  }

  /**
    Without such a round, `read_event` as written returns and queues exactly
    what the in-order read does, from any queue: `enqueue_and_return` then
    always starts from an empty queue.
   */
  lemma {:induction false} ReadEventAgreesWithoutFlush(t: Terminal, inputs: seq<Input>)
    requires NoExpiredRead(inputs)
    ensures ReadEvent(t, inputs) == ReadEventInOrder(t, inputs)
    ensures var r := ReadEvent(t, inputs);
      Opt(r.read.event) + r.read.term.queue == t.queue + Feed(t.parser, inputs[..r.consumed]).events
    decreases |inputs|, 1
  {
    if t.queue == [] && |inputs| > 0 && Effective(t.parser, inputs[0]).Wake? {
      AgreeAfterWake(t, inputs);
    }
  }

  /** The same agreement for a round whose wait returned true. */
  lemma {:induction false} AgreeAfterWake(t: Terminal, inputs: seq<Input>)
    requires t.queue == [] && |inputs| > 0 && Effective(t.parser, inputs[0]).Wake?
    requires NoExpiredRead(inputs)
    ensures ReadEvent(t, inputs) == InOrderAfterWake(t, inputs)
    decreases |inputs|, 0
  {
    var w := Effective(t.parser, inputs[0]);
    var f := AfterWait(t, w);
    var t1 := t.(parser := f.parser, queue := f.events);
    assert NoExpiredRead(inputs[1..]) by {
      forall i | 0 <= i < |inputs[1..]|
        ensures !(inputs[1..][i].Wake? && inputs[1..][i].timedOut && inputs[1..][i].data.Some?)
      {
        assert inputs[1..][i] == inputs[i + 1];
      }
    }
    match w.data
    case None =>
      assert StepInput(t.parser, inputs[0]) == f;
      ReadEventAgreesWithoutFlush(t1, inputs[1..]);
    case Some(c) =>
      assert !inputs[0].timedOut;
      assert f.events == [];
      var g := NativeParser.Parse(f.parser, c.bytes, c.tokens);
      assert f.events + g.events == g.events;
      assert StepInput(t.parser, inputs[0]) == NativeParser.Fed(g.parser, g.events);
      if g.events == [] {
        ReadEventAgreesWithoutFlush(t1.(parser := g.parser), inputs[1..]);
      }
  }

  /**
    The reordering: an Escape whose wait expires while the next key arrives.
    As written `read_event` returns the key and leaves the Escape queued
    behind it; in decoding order the Escape comes first.
   */
  lemma ReadEventReorders()
    ensures var p := NativeParser.Parse(NativeParser.NewParser, [NativeParser.ESC], []).parser;
      var t := New(true).(parser := p);
      var inputs := [Wake(true, Some(Chunk(['a' as int], [Performer.Print('a')])))];
      var key := Key(Char, Some('a'), false, false, false);
      && ReadEvent(t, inputs).read.event == Some(key)
      && ReadEvent(t, inputs).read.term.queue == [NewKey(Escape)]
      && ReadEventInOrder(t, inputs).read.event == Some(NewKey(Escape))
      && ReadEventInOrder(t, inputs).read.term.queue == [key]
  {
    var p := NativeParser.Parse(NativeParser.NewParser, [NativeParser.ESC], []).parser;
    NativeParser.LoneEscape(NativeParser.NewParser);
    var f := NativeParser.Flush(p);
    var key := Key(Char, Some('a'), false, false, false);
    assert Performer.Step(f.parser.state, Performer.Print('a')).events == [key];
    assert Performer.Run(f.parser.state, [Performer.Print('a')]).events == [key];
  }
}

=== FILE: text.dfy ===
/**
  String helpers shared by the encoders: Ruby's `Integer#to_s`, `Array#join`,
  `String#bytesize` and an ASCII `downcase`, each with the property that makes
  it trustworthy (decimal round trip, byte count bounds, idempotence).
 */
module Text {

  predicate IsDigit(c: char) {
    '0' <= c <= '9'
  }

  predicate AllDigits(s: string) {
    forall i :: 0 <= i < |s| ==> IsDigit(s[i])
  }

  function DigitChar(d: nat): (c: char)
    requires d < 10
    ensures IsDigit(c)
  {
    (('0' as int) + d) as char
  }

  function DigitValue(c: char): (d: nat)
    requires IsDigit(c)
    ensures d < 10
  {
    (c as int) - ('0' as int)
  }

  /** Decimal rendering of a natural number, most significant digit first. */
  function NatToString(n: nat): (s: string)
    ensures |s| > 0
    ensures AllDigits(s)
    ensures n < 10 <==> |s| == 1
    decreases n
  {
    if n < 10 then [DigitChar(n)] else NatToString(n / 10) + [DigitChar(n % 10)]
  }

  /** Reads back a string of decimal digits (the empty string reads as 0). */
  function ParseNat(s: string): nat
    requires AllDigits(s)
  {
    if |s| == 0 then 0 else ParseNat(s[..|s| - 1]) * 10 + DigitValue(s[|s| - 1])
  }

  /** Reading back the decimal rendering gives the number that was rendered. */
  lemma {:induction false} ParseNatToString(n: nat)
    ensures ParseNat(NatToString(n)) == n
    decreases n
  {
    var s := NatToString(n);
    if n >= 10 {
      ParseNatToString(n / 10);
      assert s[..|s| - 1] == NatToString(n / 10);
    }
  }

  /** Ruby's `Integer#to_s`: a leading '-' for negative numbers. */
  function IntToString(i: int): (s: string)
    ensures |s| > 0
    ensures i >= 0 ==> s == NatToString(i)
    ensures i < 0 ==> s[0] == '-' && s[1..] == NatToString(-i)
  {
    if i < 0 then "-" + NatToString(-i) else NatToString(i)
  }

  /** Ruby's `Array#join(sep)` over integers. */
  function JoinInts(xs: seq<int>, sep: string): (s: string)
    ensures |xs| == 0 <==> s == ""
    ensures |xs| == 1 ==> s == IntToString(xs[0])
  {
    if |xs| == 0 then ""
    else if |xs| == 1 then IntToString(xs[0])
    else IntToString(xs[0]) + sep + JoinInts(xs[1..], sep)
  }

  /** Joining all strings of a list end to end (Ruby `Array#join` with no separator). */
  function Concat(ss: seq<string>): (s: string)
    ensures |ss| == 0 ==> s == ""
  {
    if |ss| == 0 then "" else ss[0] + Concat(ss[1..])
  }

  lemma {:induction false} ConcatAppend(ss: seq<string>, t: string)
    ensures Concat(ss + [t]) == Concat(ss) + t
  {
    if |ss| == 0 {
      assert ss + [t] == [t];
    } else {
      assert (ss + [t])[1..] == ss[1..] + [t];
      ConcatAppend(ss[1..], t);
    }
  }

  /** Number of bytes the UTF-8 encoding of code point `c` takes. */
  function Utf8Width(c: char): (w: nat)
    ensures 1 <= w <= 4
    ensures w == 1 <==> (c as int) < 0x80
  {
    if (c as int) < 0x80 then 1
    else if (c as int) < 0x800 then 2
    else if (c as int) < 0x1_0000 then 3
    else 4
  }

  /** Ruby's `String#bytesize` for a UTF-8 string. */
  function Utf8Size(s: string): (n: nat)
    ensures |s| <= n <= 4 * |s|
    ensures n == |s| <==> forall i :: 0 <= i < |s| ==> (s[i] as int) < 0x80
  {
    if |s| == 0 then 0 else Utf8Width(s[0]) + Utf8Size(s[1..])
  }

  function DowncaseChar(c: char): (d: char)
    ensures 'A' <= c <= 'Z' ==> d as int == c as int + 32
    ensures !('A' <= c <= 'Z') ==> d == c
  {
    if 'A' <= c <= 'Z' then ((c as int) + 32) as char else c
  }

  /** `String#downcase` restricted to ASCII letters. */
  function Downcase(s: string): (r: string)
    ensures |r| == |s|
    ensures forall i :: 0 <= i < |s| ==> r[i] == DowncaseChar(s[i])
  {
    seq(|s|, i requires 0 <= i < |s| => DowncaseChar(s[i]))
  }

  lemma DowncaseIdempotent(s: string)
    ensures Downcase(Downcase(s)) == Downcase(s)
  {
  }
}

=== FILE: utf8.dfy ===
/**
  Well-formed UTF-8, as section 3.9 of the Unicode Standard (Table 3-7)
  defines it: what a Ruby string must hold to become a Rust `String`. Also
  the encoding of text, which always meets it.
 */
module Utf8 {
  import opened Text
  import Performer

  type byte = Performer.byte

  predicate Continuation(b: byte) {
    0x80 <= b <= 0xBF
  }

  /** The length of the well-formed sequence that `bytes` starts with, or 0 when it starts with none. */
  function LeadLength(bytes: seq<byte>): (n: nat)
    requires |bytes| > 0
    ensures n <= 4 && n <= |bytes|
    ensures bytes[0] <= 0x7F <==> n == 1
  {
    var b0 := bytes[0];
    if b0 <= 0x7F then 1
    else if 0xC2 <= b0 <= 0xDF then
      if |bytes| >= 2 && Continuation(bytes[1]) then 2 else 0
    else if 0xE0 <= b0 <= 0xEF then
      var lo := if b0 == 0xE0 then 0xA0 else 0x80;
      var hi := if b0 == 0xED then 0x9F else 0xBF;
      if |bytes| >= 3 && lo <= bytes[1] <= hi && Continuation(bytes[2]) then 3 else 0
    else if 0xF0 <= b0 <= 0xF4 then
      var lo := if b0 == 0xF0 then 0x90 else 0x80;
      var hi := if b0 == 0xF4 then 0x8F else 0xBF;
      if |bytes| >= 4 && lo <= bytes[1] <= hi && Continuation(bytes[2]) && Continuation(bytes[3]) then 4 else 0
    else 0
  }

  /** The bytes are a sequence of well-formed characters. */
  predicate Valid(bytes: seq<byte>)
    decreases |bytes|
  {
    |bytes| == 0 || (LeadLength(bytes) > 0 && Valid(bytes[LeadLength(bytes)..]))
  }

  /** The UTF-8 encoding of one code point. */
  function EncodeChar(c: char): (r: seq<byte>)
    ensures |r| == Utf8Width(c)
  {
    var v := c as int;
    if v < 0x80 then [v]
    else if v < 0x800 then [0xC0 + v / 64, 0x80 + v % 64]
    else if v < 0x1_0000 then [0xE0 + v / 4096, 0x80 + (v / 64) % 64, 0x80 + v % 64]
    else [0xF0 + v / 0x4_0000, 0x80 + (v / 4096) % 64, 0x80 + (v / 64) % 64, 0x80 + v % 64]
  }

  /** The UTF-8 encoding of a text (`String#bytes`). */
  function Encode(s: string): (r: seq<byte>)
    ensures |r| == Utf8Size(s)
  {
    if |s| == 0 then [] else EncodeChar(s[0]) + Encode(s[1..])
  }

  /** A character's encoding is one well-formed sequence, whatever follows it. */
  lemma EncodeCharLeads(c: char, rest: seq<byte>)
    ensures LeadLength(EncodeChar(c) + rest) == |EncodeChar(c)|
  {
    var v := c as int;
    var e := EncodeChar(c);
    var b := e + rest;
    if v < 0x80 {
    } else if v < 0x800 {
      assert b[0] == 0xC0 + v / 64 && b[1] == e[1];
    } else if v < 0x1_0000 {
      assert b[0] == 0xE0 + v / 4096 && b[1] == e[1] && b[2] == e[2];
      ThreeByteSecond(v);
    } else {
      assert b[0] == 0xF0 + v / 0x4_0000 && b[1] == e[1] && b[2] == e[2] && b[3] == e[3];
      FourByteSecond(v);
    }
  }

  /** The second byte of a three-byte encoding avoids the overlong and the surrogate forms. */
  lemma ThreeByteSecond(v: int)
    requires 0x800 <= v < 0x1_0000 && !(0xD800 <= v < 0xE000)
    ensures v / 4096 == 0 ==> 0x20 <= (v / 64) % 64
    ensures v / 4096 == 13 ==> (v / 64) % 64 <= 0x1F
  {
  }

  /** The second byte of a four-byte encoding avoids the overlong forms and code points past U+10FFFF. */
  lemma FourByteSecond(v: int)
    requires 0x1_0000 <= v < 0x11_0000
    ensures v / 0x4_0000 <= 4
    ensures v / 0x4_0000 == 0 ==> 0x10 <= (v / 4096) % 64
    ensures v / 0x4_0000 == 4 ==> (v / 4096) % 64 <= 0x0F
  {
  }

  /** Behind encoded text, whether the bytes are well-formed is decided by what follows the text. */
  lemma {:induction false} ValidAfterText(s: string, rest: seq<byte>)
    ensures Valid(Encode(s) + rest) <==> Valid(rest)
    decreases |s|
  {
    if |s| > 0 {
      var e := EncodeChar(s[0]);
      var tail := Encode(s[1..]) + rest;
      assert Encode(s) + rest == e + tail;
      EncodeCharLeads(s[0], tail);
      assert (e + tail)[|e|..] == tail;
      ValidAfterText(s[1..], rest);
    } else {
      assert Encode(s) + rest == rest;
    }
  }

  /** The encoding of any text is well-formed. */
  lemma EncodeValid(s: string)
    ensures Valid(Encode(s))
  {
    ValidAfterText(s, []);
    assert Encode(s) + [] == Encode(s);
  }

  /** Bytes cut inside a multi-byte character, after any text, are not well-formed. */
  lemma CutCharInvalid(s: string, c: char, k: nat)
    requires 0 < k < Utf8Width(c)
    ensures !Valid(Encode(s) + EncodeChar(c)[..k])
  {
    var cut := EncodeChar(c)[..k];
    ValidAfterText(s, cut);
    CutLeadsNothing(c, k);
  }

  /** The first `k` bytes of a longer encoding start no well-formed sequence. */
  lemma CutLeadsNothing(c: char, k: nat)
    requires 0 < k < Utf8Width(c)
    ensures LeadLength(EncodeChar(c)[..k]) == 0
  {
    var v := c as int;
    var cut := EncodeChar(c)[..k];
    if v < 0x800 {
      assert cut[0] == 0xC0 + v / 64;
    } else if v < 0x1_0000 {
      assert cut[0] == 0xE0 + v / 4096;
    } else {
      FourByteSecond(v);
      assert cut[0] == 0xF0 + v / 0x4_0000;
    }
  }

  /** A bare 0xE9 (Latin-1 `é`) and the first byte of UTF-8 `é` are not well-formed; `é` itself is. */
  lemma LoneBytes()
    ensures !Valid([0xE9]) && !Valid([0xC3])
    ensures EncodeChar('é') == [0xC3, 0xA9] && Valid([0xC3, 0xA9])
  {
    assert [0xC3, 0xA9][2..] == [];
  }
}

=== FILE: wrappers.dfy ===
/**
  Optional values and results: Ruby's `nil` and Rust's `Option` become
  `Option`; a raised `ArgumentError` becomes `Err`.
 */
module Wrappers {

  datatype Option<+T> = None | Some(value: T) {

    /** Returns the value in `Some`, or `default` for `None` (Rust `unwrap_or`, Ruby `||`). */
    function GetOr(default: T): T {
      match this
      case Some(v) => v
      case None => default
    }
  }

  datatype Result<+T, +E> = Ok(value: T) | Err(error: E)
}
